=== FILE: README.md ===
# Appointment front-end: a Dafny model of its decision rules

This project models the logic inside the Angular front-end of a shelter-intake
and appointment system. The model covers the rules the components apply
between the user, the browser's storage and the back end:

- the intake form (`FormComponent`): the CPF check-digit validator, name
  capitalisation, the foreign-country and no-phone toggles, and the checks
  `onSubmit` runs before posting;
- the appointment directory (`AppointmentsListComponent`): record
  normalisation, the visible and search filters, the sort comparator, the
  available-beds tally, the hide dialog, and the CPF, phone and label
  formatters;
- the appointment editor (`EditListComponent`): occupied beds derived from
  appointments, the merge into a room's bed list, the three-step wizard, and
  loading, room change, submit and error-text selection;
- the reports page (`ReportsComponent`): bucketing arrival times into four
  shifts, the optional shift filter, the age-group filter, and the filter
  state its buttons drive;
- access control: the route table (`app.routes.ts`) with first-match lookup,
  `AuthGuard.canActivate`, and `AuthService` as a key-value store with a
  stream of login-status events;
- the login and user-registration forms: their validators, submit handlers
  and the choice of error message;
- `IbgeService`'s city list with its placeholder entry, and the navigation
  bar's name, photo-URL and menu helpers.

Every HTTP response, the clock and the browser's answers are parameters of
the functions. A request a handler sends is part of its result, and so is a
navigation it starts. Component state is an immutable record, and each
handler is a function from one record to the next.

The modules follow the components: `Cpf`, `Forms` (the semantics of
Angular's validators), `IntakeForm`, `Appointment` (the record shapes and
their defaults), `Directory`, `Sorting`, `Formatters`, `Labels`, `Editor`,
`Reports`, `Routes`, `Session`, `Guard`, `Login`, `Registration`, `Ibge`
and `NavBar`. `Text`, `Seqs` and `Options` hold the JavaScript string and
array operations the components rely on: `split`, `indexOf`, `trim`,
`parseInt`, `filter`, ASCII case mapping and number printing.

Where the behaviour of the code departs from what its design describes, the
model follows the code:

- Hidden appointments still count as holding a bed. This holds in the
  directory's available-beds tally and in the editor's occupied-bed list.
- No request is retried on an HTTP 419 answer.
- `applyFilters` filters `age_counts` without a fallback. A response without
  that member therefore stops the handler halfway: the bed and gender tables
  have been replaced, and the page stays in its loading state.
- The login form demands a password of at least six characters.
  `AuthService.login` accepts only "admin"/"admin". So no submission through
  the form logs anyone in (`Login.NoFormLoginSucceeds`).
- `AuthService.login` rejects with a bare string and no status, so the login
  page always shows its generic error text, never "Usuário ou senha
  inválidos".
- The `api/login` redirect comes after the `**` wildcard, so the router never
  selects it.

## Model

| member | source | states |
|---|---|---|
| Cpf.DigitsOnly | src/app/components/form/form.component.ts:191 | stripping every non-digit leaves only digits and never lengthens the text |
| Cpf.DigitsOnlyAppend | src/app/components/form/form.component.ts:191 | stripping distributes over concatenation |
| Cpf.DigitsOnlyOfDigits | src/app/components/form/form.component.ts:191 | a digit string strips to itself, so stripping is idempotent |
| Cpf.DigitsOnlyOfNonDigits | src/app/components/form/form.component.ts:191 | a string with no digit strips to "" |
| Cpf.CheckDigit | src/app/components/form/form.component.ts:197-198 | the expected digit is (10 · sum) mod 11, with a remainder of 10 read as 0, so it is at most 9 |
| Cpf.ValidarCpf | src/app/components/form/form.component.ts:187-208 | an empty or missing value has no error; a value whose digits are not eleven is invalid; otherwise it is valid exactly when both check-digit equations hold; the two summing loops agree with the closed-form verdict |
| Cpf.VerdictOfElevenDigits | src/app/components/form/form.component.ts:191-207 | on eleven digits the verdict is exactly the check-digit test |
| Cpf.VerdictOfStripped | src/app/components/form/form.component.ts:191 | the verdict on a value with digits equals the verdict on its digits alone |
| Cpf.StripsFormattedExample | src/app/components/form/form.component.spec.ts:52 | "123.456.789-09" strips to "12345678909" |
| Cpf.CheckDigitsOfFormattedExample | src/app/components/form/form.component.ts:194-207 | both check digits of "12345678909" hold |
| Cpf.AcceptsFormattedExample | src/app/components/form/form.component.spec.ts:51-53 | the test's valid example "123.456.789-09" gets no error |
| Cpf.CheckDigitsOfTextbookExample | src/app/components/form/form.component.ts:194-207 | both check digits of "11144477735" hold |
| Cpf.AcceptsTextbookExample | src/app/components/form/form.component.ts:187-208 | "11144477735" gets no error |
| Cpf.CheckDigitsOfUnformattedExample | src/app/components/form/form.component.ts:201-205 | the second check digit of "12345678900" fails |
| Cpf.WeightedSumOfPrefix | src/app/components/form/form.component.ts:194-207 | a check-digit sum reads only the digits before the one it checks, so two CPFs with the same leading digits have the same sums |
| Cpf.RejectsUnformattedExample | src/app/components/form/form.component.spec.ts:55-56 | the test's invalid example "12345678900" is reported invalid |
| Cpf.WeightedSumOfRepeated | src/app/components/form/form.component.ts:196 | over n equal digits v the weighted sum is v times the sum of the weights |
| Cpf.RepeatedDigitsAccepted | src/app/components/form/form.component.ts:187-208 | every string of eleven equal digits, "00000000000" included, passes: repeated digits are not special-cased |
| Forms.ValidatorError | src/app/components/form/form.component.ts:158-161 | `required` rejects exactly the empty input; the length, pattern and e-mail validators accept the empty input; `minlength(n)` rejects a non-empty value exactly when it is shorter than n |
| Forms.Errors | src/app/components/form/form.component.ts:158-161 | a control has no error exactly when none of its validators reports one |
| Forms.MaskedPhoneMatches | src/app/components/form/form.component.ts:160 | "(11) 91234-5678" satisfies the phone pattern |
| IntakeForm.InitialForm | src/app/components/form/form.component.ts:73-89 | both checkboxes start unticked and state, city and phone start with no validator |
| IntakeForm.InitialFormInvalid | src/app/components/form/form.component.spec.ts:31-34 | the untouched form is invalid |
| IntakeForm.ValidFormHasCheckedCpf | src/app/components/form/form.component.ts:77 | a valid form's CPF has eleven digits whose check digits hold |
| IntakeForm.ToggleLocationFields | src/app/components/form/form.component.ts:134-150 | "foreign" disables state and city and clears their validators; otherwise both become enabled and required; values and all other controls are unchanged |
| IntakeForm.TogglePhoneField | src/app/components/form/form.component.ts:152-165 | "no phone" disables the phone and clears its validators; otherwise it is enabled, required and patterned; nothing else changes |
| IntakeForm.SetForeignCountry | src/app/components/form/form.component.ts:124-127 | changing the checkbox records the value and runs the location listener |
| IntakeForm.SetNoPhone | src/app/components/form/form.component.ts:129-131 | changing the checkbox records the value and runs the phone listener |
| IntakeForm.TogglesCommuteAndSettle | src/app/components/form/form.component.ts:124-165 | the two listeners commute, and only the last value of a checkbox matters |
| IntakeForm.ForeignIgnoresLocation | src/app/components/form/form.component.spec.ts:59-63 | once "foreign" is ticked, form validity does not depend on the state or city values |
| IntakeForm.PhoneRequiresMask | src/app/components/form/form.component.ts:158-161 | with a phone, a non-empty value is accepted exactly when it contains the "(dd) ddddd-dddd" mask (the pattern is unanchored) |
| IntakeForm.FormatNameField | src/app/components/form/form.component.ts:175-184 | an empty or missing value is left alone; otherwise the value is replaced by its word-capitalised form |
| IntakeForm.PlaceName | src/app/components/form/form.component.ts:420-430 | the name of the first place whose id, as text, equals the selection; "" when none does |
| IntakeForm.PlaceNameOfListedId | src/app/components/form/form.component.ts:420-430 | with distinct ids, selecting a listed id gives back that place's name |
| IntakeForm.OnSubmit | src/app/components/form/form.component.ts:259-348 | an invalid form only sets the required-fields message; an invalid file only sets its message; a date `toISOString` rejects stops after the CPF and phone patches, with no request; a non-image photo stops with its message and the patched form (stripped CPF, cleared phone, ISO dates) as the only other change; without a token the patched form is the whole new state and nothing is sent; when every check passes and a token is stored the body is sent, carrying the stripped CPF, the converted dates, the looked-up state and city names, the phone (empty when "no phone" is ticked), the other values as `FormData` prints them and the chosen photo, and the patched form is the only state change |
| IntakeForm.PostedCpfIsValid | src/app/components/form/form.component.ts:266 | every posted CPF is eleven digits that pass the validator again |
| IntakeForm.ResetForm | src/app/components/form/form.component.ts:315 | all twelve values become null, both checkboxes are cleared, the other controls keep their validators and the checkbox listeners then make state, city and phone required |
| IntakeForm.Patched | src/app/components/form/form.component.ts:265-280 | the form after the CPF and phone patches with both dates replaced by their ISO form, every other control and every validator kept |
| IntakeForm.OnPostResponse | src/app/components/form/form.component.ts:313-341 | success sets the message, opens the modal and resets the form, and changes nothing else (the chosen photo stays attached); a declined 409 changes nothing; any other failure sets the error message |
| IntakeForm.ResetFormIsInvalid | src/app/components/form/form.component.ts:313-317 | after a successful post the form is invalid again |
| Formatters.CapitalizeWords | src/app/components/form/form.component.ts:178-181 | position by position: a separator becomes the joiner, a word's first character is upper-cased and every other character lower-cased |
| Formatters.CapitalizeWordsIsPipeline | src/app/components/form/form.component.ts:178-181 | the pointwise definition equals the split / map / join pipeline |
| Formatters.FormatName | src/app/components/form/form.component.ts:175-184 | length and spaces are kept, word starts are upper-cased and the rest lower-cased |
| Formatters.FormatNameIdempotent | src/app/components/form/form.component.ts:175-184 | formatting a formatted name changes nothing |
| Formatters.FormatNameExample | src/app/components/form/form.component.spec.ts:88-91 | "joão da silva" becomes "João Da Silva" |
| Formatters.FormatNameSingleWord | src/app/components/form/form.component.spec.ts:93-95 | "souza" becomes "Souza" |
| Formatters.FormatString | src/app/components/appointments-list/appointments-list.component.ts:326-332 | "" stays ""; underscores become spaces, word starts are upper-cased and the rest lower-cased; length is kept |
| Formatters.FormatStringIsFormatNameOfSpaced | src/app/components/appointments-list/appointments-list.component.ts:326-332 | on text without spaces it is the name formatter applied after turning underscores into spaces |
| Formatters.FormatLabel | src/app/components/appointments-list/appointments-list.component.ts:130-133 | "" gives "Não informado"; any other text keeps its length |
| Formatters.FormatLabelAt | src/app/components/appointments-list/appointments-list.component.ts:130-133 | character by character: an underscore becomes a space, a word character starting a word is upper-cased, everything else is kept; the word characters of the result are those of the input minus the underscores |
| Formatters.FormatLabelAgreesOnSnakeCase | src/app/components/appointments-list/appointments-list.component.ts:130-133 | on lower-case snake_case keys it agrees with `formatString` |
| Formatters.FormatLabelAfterAccent | src/app/components/appointments-list/appointments-list.component.ts:132 | an accented letter ends a word for `\b\w`, so "ação" becomes "AçãO" |
| Formatters.FormatCpf | src/app/components/appointments-list/appointments-list.component.ts:313-316 | "" unless the length is 11; eleven digits become XXX.XXX.XXX-XX with the digits kept in order; eleven characters that are not all digits come back unchanged |
| Formatters.FormatCpfKeepsVerdict | src/app/components/appointments-list/appointments-list.component.ts:313-316 | formatting does not change the CPF validator's verdict |
| Formatters.FormatPhoneNumber | src/app/components/appointments-list/appointments-list.component.ts:318-324 | "" below ten characters; otherwise "(DD) P-SSSS" with a 5-character middle part for eleven characters and 4 otherwise |
| Formatters.FormatPhoneNumberRoundTrip | src/app/components/appointments-list/appointments-list.component.ts:318-324 | for 10 and 11 characters, dropping the punctuation gives the input back |
| Formatters.FormattedMobilePassesPattern | src/app/components/appointments-list/appointments-list.component.ts:318-324 | a formatted eleven-digit number passes the intake form's phone pattern |
| Directory.LoadRooms | src/app/components/appointments-list/appointments-list.component.ts:43-49 | installs rooms 1 to 3 named "Quarto A", "Quarto B" and "Quarto C", with two beds each numbered 1 to 6 in order, of which only bed 4 is occupied; nothing else changes |
| Directory.PhotoUrl | src/app/components/appointments-list/appointments-list.component.ts:55-62 | a non-empty photo path starting with "http" is used as is; any other is the storage prefix followed by the path; without a photo path the old value stays |
| Directory.WithDisplayNames | src/app/components/appointments-list/appointments-list.component.ts:86-93 | the room name is "Não alocado" exactly when the room id is null, otherwise the lookup (undefined outside it); the bed name starts with "Cama " exactly when the bed id is truthy, else it is "Não alocado"; nothing else changes |
| Directory.BedName | src/app/components/appointments-list/appointments-list.component.ts:91-93 | the bed label starts with "Cama " exactly when the bed id is truthy; otherwise it is "Não alocado" |
| Directory.RoomNameIsAllocated | src/app/components/appointments-list/appointments-list.component.ts:87-89 | no entry of the room-name table is the "Não alocado" marker, so that marker identifies a null room id |
| Directory.Normalize | src/app/components/appointments-list/appointments-list.component.ts:54-96 | only the photo URL and the info block change; a missing block becomes the default with null room and bed, both shown as "Não alocado"; hidden flag and bed holding are kept |
| Directory.NormalizeIdempotent | src/app/components/appointments-list/appointments-list.component.ts:54-96 | normalising a normalised record changes nothing |
| Directory.BedDisplayNameNamesTheBed | src/app/components/appointments-list/appointments-list.component.ts:91-93 | the bed display name of a positive id parses back to that id |
| Directory.Visible | src/app/components/appointments-list/appointments-list.component.ts:99 | exactly the non-hidden records, as a subsequence in the original order, each with its full number of occurrences |
| Directory.LoadAppointments | src/app/components/appointments-list/appointments-list.component.ts:51-105 | the list is the fetched records normalised one by one; the shown list is exactly `Visible` of that list (every non-hidden record, in order, each occurrence kept); the tally is recomputed |
| Directory.OnSearch | src/app/components/appointments-list/appointments-list.component.ts:117-128 | a term that trims to "" shows the visible records; any other term keeps, in order and with every occurrence, exactly the records whose first or last name contains it case-insensitively, hidden ones included |
| Directory.FilterAppointments | src/app/components/appointments-list/appointments-list.component.ts:257-269 | the shown list is always an in-order subsequence of the records; only the empty term shows the visible records; any other term keeps every occurrence of exactly the records that match by name, hidden ones included |
| Directory.FilterAgreesWithSearch | src/app/components/appointments-list/appointments-list.component.ts:257-269 | for a term with a non-space character the two filters give the same list |
| Directory.FiltersDisagreeOnSpaces | src/app/components/appointments-list/appointments-list.component.ts:118 | for a term of spaces they differ: the search shows the visible records, the filter finds a hidden "Ana Maria" |
| Directory.AvailableBeds | src/app/components/appointments-list/appointments-list.component.ts:296-302 | 12 minus the number of records holding a bed, between 12 − n and 12 for n records |
| Directory.AvailableBedsAppend | src/app/components/appointments-list/appointments-list.component.ts:296-302 | one more record lowers the tally by one exactly when it holds a bed |
| Directory.AvailableBedsOfRepeated | src/app/components/appointments-list/appointments-list.component.ts:296-302 | n copies of a bed-holding record leave 12 − n, below zero from 13 on: duplicates count and nothing is clamped |
| Directory.HidingKeepsAvailableBeds | src/app/components/appointments-list/appointments-list.component.ts:298 | hiding a record does not change the tally |
| Directory.CalculateAvailableBeds | src/app/components/appointments-list/appointments-list.component.ts:296-302 | only the tally changes, to 12 minus the number of appointments holding a bed (`AvailableBeds`), whatever the rooms say |
| Directory.UpdateAvailableBeds | src/app/components/appointments-list/appointments-list.component.ts:246-255 | only the first matching bed of the first matching room gets `isOccupied = !isFreeing`; every other bed and every id and name are kept; whenever such a bed is found the available-bed tally is recomputed from the appointments; with no such bed nothing changes |
| Directory.SetOccupied | src/app/components/appointments-list/appointments-list.component.ts:250 | exactly the chosen bed gets the new occupancy; every room keeps its id, name and bed count, and every bed keeps its id |
| Directory.OpenHideModal | src/app/components/appointments-list/appointments-list.component.ts:173-177 | selects the record and opens the dialog, nothing else |
| Directory.CloseHideModal | src/app/components/appointments-list/appointments-list.component.ts:180-183 | clears the selection and closes the dialog, nothing else |
| Directory.ConfirmHide | src/app/components/appointments-list/appointments-list.component.ts:186-206 | without a selection or on failure nothing changes; on success only the selected record is flagged hidden and the shown list becomes exactly `Visible` of the updated records, so it leaves it; the dialog closes and the tally is unchanged |
| Sorting.ParseSortBy | src/app/components/appointments-list/appointments-list.component.ts:156-158 | the key is the first '-'-separated field and the order the second, absent when there is no '-' |
| Sorting.ParseSortByRebuilds | src/app/components/appointments-list/appointments-list.component.ts:156-158 | the key has no '-'; without a '-' the whole value is the key; otherwise key, '-' and order spell the start of the value |
| Sorting.SortKey | src/app/components/appointments-list/appointments-list.component.ts:160-161 | the key has no upper-case letter; a name that is none of the 23 properties of an appointment reads "undefined" |
| Sorting.NullableFlag | src/app/components/appointments-list/appointments-list.component.ts:160-161 | a flag reads "true" exactly when it is set to true |
| Sorting.Compare | src/app/components/appointments-list/appointments-list.component.ts:164 | only 1 or −1, never 0; equal keys give −1; "asc" gives 1 exactly when a's key is greater, any other order exactly when it is smaller |
| Sorting.CompareAntisymmetric | src/app/components/appointments-list/appointments-list.component.ts:164 | swapping distinct keys flips the answer; equal keys answer −1 both ways |
| Sorting.PrecTransitive | src/app/components/appointments-list/appointments-list.component.ts:161-164 | "must come first" is transitive |
| Sorting.Insert | src/app/components/appointments-list/appointments-list.component.ts:160-165 | inserting adds exactly one element, the given one |
| Sorting.InsertKeepsBound | src/app/components/appointments-list/appointments-list.component.ts:160-165 | if neither the new element nor any old one must precede b, no element of the result must |
| Sorting.InsertOrdered | src/app/components/appointments-list/appointments-list.component.ts:160-165 | insertion into an ordered list keeps it ordered |
| Sorting.Sort | src/app/components/appointments-list/appointments-list.component.ts:160-165 | the result is a permutation of the input, and no element must come before an earlier one under the key `String(a[key]).toLowerCase()` of every property |
| Sorting.SortFiltered | src/app/components/appointments-list/appointments-list.component.ts:155-166 | only the shown list changes, into a permutation of itself ordered by the key and order read from `sortBy` |
| Sorting.SortedAgreesWithComparator | src/app/components/appointments-list/appointments-list.component.ts:160-165 | in the sorted list the comparator answers −1 for every earlier/later pair with different keys |
| Sorting.UnknownKeyPromisesNoOrder | src/app/components/appointments-list/appointments-list.component.ts:156-164 | under a key that names no property no record must precede another |
| Sorting.SortedByBirthDate | src/app/components/appointments-list/appointments-list.component.ts:160-165 | sorting ascending by birth date leaves no later date text before an earlier one |
| Sorting.SortedByIsHiddenPutsHiddenLast | src/app/components/appointments-list/appointments-list.component.ts:160-165 | sorting ascending by `isHidden` puts every hidden record after every non-hidden one |
| Labels.GenderLabel | src/app/components/appointments-list/appointments-list.component.ts:107-114 | "Não informado" exactly for keys outside the table, the table's label otherwise |
| Labels.EducationLabel | src/app/components/appointments-list/appointments-list.component.ts:135-146 | "Não informado" exactly for levels outside the table, the table's label otherwise |
| Editor.Occupancy | src/app/components/edit-list/edit-list.component.ts:118-121 | the entry names the appointment's bed and its "name last_name" |
| Editor.OccupiedBeds | src/app/components/edit-list/edit-list.component.ts:116-121 | the k-th entry is the bed and occupant name of the k-th appointment holding a bed, in order, hidden ones included; so the directory's free-bed tally is 12 minus the number of entries |
| Editor.OccupiedBedsIgnoreHiding | src/app/components/edit-list/edit-list.component.ts:117 | changing an appointment's hidden flag does not change the entries |
| Editor.SingleHolderGivesOneEntry | src/app/components/edit-list/edit-list.component.spec.ts:119-124 | one bed-holding appointment yields exactly one entry |
| Editor.FindOccupant | src/app/components/edit-list/edit-list.component.ts:137 | absent exactly when no entry has the bed id; otherwise the first entry that has it |
| Editor.MergeBeds | src/app/components/edit-list/edit-list.component.ts:136-143 | the bed list keeps its length, order, ids and numbers; a bed is available exactly when no entry has its id; the occupant is the first match's name or "" |
| Editor.MergedAvailability | src/app/components/edit-list/edit-list.component.ts:116-143 | composed with the derivation, a bed is offered as free exactly when no appointment, hidden or not, holds it |
| Editor.NextStep | src/app/components/edit-list/edit-list.component.ts:300-308 | advances by one exactly when the form is valid and the step is below 3, otherwise stays |
| Editor.PrevStep | src/app/components/edit-list/edit-list.component.ts:310-314 | goes back by one exactly when the step is above 1, otherwise stays |
| Editor.StepsStayInRange | src/app/components/edit-list/edit-list.component.ts:89-91 | any sequence of next and previous keeps a step in 1..3 there |
| Editor.GoToIsUnchecked | src/app/components/edit-list/edit-list.component.ts:316-318 | `goToStep` sets any step, in range or not |
| Editor.NextThenPrev | src/app/components/edit-list/edit-list.component.ts:300-314 | from step 1 or 2 a valid next is undone by previous |
| Editor.OnInit | src/app/components/edit-list/edit-list.component.ts:100-103 | a load starts exactly when the id parameter reads as a non-zero number |
| Editor.StartLoad | src/app/components/edit-list/edit-list.component.ts:166-178 | loading is raised; without a token the error is set and the user sent to /login, with no fetch and the flag left raised; otherwise the appointment is fetched |
| Editor.OnLoaded | src/app/components/edit-list/edit-list.component.ts:179-192 | loading drops in every case; a null body sets the load error; a body replaces the appointment, with the default block for missing details, and nothing else changes |
| Editor.LoadedDefaultsUnassigned | src/app/components/edit-list/edit-list.component.ts:217-238 | the substituted block has null room and bed, duration 0 and nationality "Brasileiro", so no bed is held |
| Editor.OnOccupiedLoaded | src/app/components/edit-list/edit-list.component.ts:113-126 | the entries are rebuilt and the room's beds are requested exactly when a truthy room is chosen |
| Editor.OnBedsLoaded | src/app/components/edit-list/edit-list.component.ts:133-149 | only the bed list changes, to the merged rows: each keeps its id and number, is available exactly when it has no occupant, and names its first occupant or "" |
| Editor.OnRoomChange | src/app/components/edit-list/edit-list.component.ts:290-298 | 0 or NaN changes nothing; any other number becomes the room and its beds are requested, nothing else changing |
| Editor.RoomChangeIgnoresPlaceholder | src/app/components/edit-list/edit-list.component.spec.ts:157-164 | the empty placeholder option keeps the room |
| Editor.OnSubmit | src/app/components/edit-list/edit-list.component.ts:330-351 | a zero id opens the error modal and sends nothing; otherwise the appointment is sent unchanged except that `isHidden` is false |
| Editor.SubmitUnhides | src/app/components/edit-list/edit-list.component.ts:346 | a saved appointment is visible in the directory |
| Editor.UpdateErrorText | src/app/components/edit-list/edit-list.component.ts:365-367 | the server's message exactly for a 422 carrying a non-empty one, the generic text otherwise; never empty |
| Editor.OnUpdated | src/app/components/edit-list/edit-list.component.ts:353-371 | saving ends and the modal shows; success shows the success text and goes to the list; failure shows the chosen error text and stays |
| Editor.FailedUpdateIsNotSuccess | src/app/components/edit-list/edit-list.component.ts:365-367 | a failure shows the success text only if a 422 carries it |
| Editor.UpdateAppointment | src/app/components/edit-list/edit-list.component.ts:390-404 | no request exactly when the id is 0; otherwise the appointment is sent as it is |
| Labels.TurnLabel | src/app/components/reports/reports.component.ts:252-260 | the key itself exactly for keys outside the four-shift table, the table's label otherwise |
| Labels.AgeGroupLabel | src/app/components/reports/reports.component.ts:210-216 | the group itself exactly for keys other than "idosos" and "adultos", the table's label otherwise |
| Reports.ShiftKey | src/app/components/reports/reports.component.ts:219 | each shift's key is one the label table knows |
| Reports.ShiftIndex | src/app/components/reports/reports.component.ts:219 | each shift has exactly one position in the key order of `turnoData` |
| Reports.ShiftOfKey | src/app/components/reports/reports.component.ts:237-238 | a shift is returned exactly when its key equals the text, and then it is that shift; that happens exactly for the keys of the turn label table |
| Reports.ShiftOfHour | src/app/components/reports/reports.component.ts:223-231 | morning exactly for hours 6-11, afternoon for 12-17, evening for 18-23, night for everything else including an unparseable hour |
| Reports.ShiftOfClockTime | src/app/components/reports/reports.component.ts:222 | an "HH:rest" time with digit-only HH lands in the shift of the number HH spells |
| Reports.UnparseableTimeIsNight | src/app/components/reports/reports.component.ts:222-230 | an empty time or one starting with ':' counts as night |
| Reports.HoursAt | src/app/components/reports/reports.component.ts:221-222 | the i-th parsed hour is the hour of the i-th time |
| Reports.Occurrences | src/app/components/reports/reports.component.ts:221-232 | a shift's count never exceeds the number of hours |
| Reports.OccurrencesExtend | src/app/components/reports/reports.component.ts:223-231 | one more hour adds one to its own shift and nothing to the others |
| Reports.OccurrencesSum | src/app/components/reports/reports.component.ts:223-231 | the four counts of a list of hours add up to its length |
| Reports.ShiftCount | src/app/components/reports/reports.component.ts:221-232 | a shift's count of times never exceeds the number of times |
| Reports.ShiftCountsSum | src/app/components/reports/reports.component.ts:221-232 | every time is counted in exactly one shift |
| Reports.TurnoCounts | src/app/components/reports/reports.component.ts:235-249 | with no turn, four entries in key order carrying each shift's label and count; with a turn, one entry exactly when the turn is a shift key, labelled with that shift's label, and none otherwise |
| Reports.AllTurnsCoverEveryTime | src/app/components/reports/reports.component.ts:221-249 | the unfiltered counts add up to the number of times |
| Reports.FilteredTurnIsEntryOfAll | src/app/components/reports/reports.component.ts:235-249 | filtering on a shift's key yields that shift's entry of the unfiltered table |
| Reports.CountShifts | src/app/components/reports/reports.component.ts:219-232 | the loop's four counters are the four shift counts of the times |
| Reports.ShiftAt | src/app/components/reports/reports.component.ts:222-231 | one iteration picks the shift of that time's parsed hour |
| Reports.ProcessTurnoCounts | src/app/components/reports/reports.component.ts:218-250 | the method's entries are the table `TurnoCounts` describes |
| Reports.KeepTurn | src/app/components/reports/reports.component.ts:236-243 | filtering the four keys on a non-empty turn keeps exactly the entry of the matching shift, if any |
| Reports.FilterAgeCounts | src/app/components/reports/reports.component.ts:190-193 | a row is kept exactly when its group is the label of the chosen age group; kept rows stay in their order with every occurrence |
| Reports.NoAgeGroupDropsLabelledRows | src/app/components/reports/reports.component.ts:190-193 | with no age group chosen, every row with a non-empty group is dropped |
| Reports.ElderlyFilter | src/app/components/reports/reports.component.ts:190-193 | choosing "idosos" keeps exactly the rows labelled "Idosos (60+)" |
| Reports.ViewAllReports | src/app/components/reports/reports.component.ts:57-59 | the active filter becomes "all", the filter is marked applied and loading starts; nothing else changes |
| Reports.OnAllReports | src/app/components/reports/reports.component.ts:62-81 | loading ends; a failure changes nothing else; a response replaces the four tables, with zeros and empty lists for missing members and the shift table built under the current turn filter |
| Reports.ApplyFilters | src/app/components/reports/reports.component.ts:170 | only the loading flag changes, and it is raised |
| Reports.OnFilteredReports | src/app/components/reports/reports.component.ts:184-206 | a failure only ends loading; a response replaces beds and genders; without age rows it stops there and loading stays as it was; with them the age rows are filtered, the shifts recounted and loading ends; the filters are never touched |
| Reports.FilteredLoadWithoutAgesHangs | src/app/components/reports/reports.component.ts:190-199 | a filtered load answered without `age_counts` leaves the page loading |
| Reports.SetActiveFilter | src/app/components/reports/reports.component.ts:85-89 | the chosen filter becomes active, is marked applied and a filtered load starts; nothing else changes |
| Reports.ResetFilters | src/app/components/reports/reports.component.ts:471-483 | all six filters are emptied, no filter is active or applied and the charts are hidden; nothing else changes |
| Reports.ResetShowsAllShifts | src/app/components/reports/reports.component.ts:235-249 | after a reset, the next full load lists all four shifts |
| Reports.ToggleChartView | src/app/components/reports/reports.component.ts:91-102 | the chart flag flips; showing starts a full load under the kept filters; hiding clears the filters |
| Reports.ToggleTwiceClearsFilters | src/app/components/reports/reports.component.ts:91-102 | showing then hiding the charts leaves them hidden and no filter set, active or applied |
| Routes.TableAt | src/app/app.routes.ts:21-87 | the table has 21 entries: the ten public pages, then the eight guarded routes, then the three redirects |
| Routes.ProtectedShape | src/app/app.routes.ts:35-81 | every guarded path is a single literal other than "api", optionally followed by an `:id` placeholder |
| Routes.MatchesPublic | src/app/app.routes.ts:23-32 | a public page's path matches exactly the one-segment URL naming it |
| Routes.FirstMatch | src/app/app.routes.ts:21-87 | no index exactly when no route matches; otherwise a matching route with no earlier match |
| Routes.Resolve | src/app/app.routes.ts:21-87 | every URL selects a route no later than the wildcard, it matches, and no earlier route does |
| Routes.ApiLoginUnreachable | src/app/app.routes.ts:85-86 | the `api/login` redirect matches its URL, yet that URL is taken by the wildcard declared before it |
| Routes.ApiLoginMisses | src/app/app.routes.ts:23-81 | no route before the wildcard matches `api/login` |
| Routes.EmptyUrlGoesToLogin | src/app/app.routes.ts:84 | the empty URL selects the redirect to `/login` |
| Routes.EmptyUrlMisses | src/app/app.routes.ts:23-81 | no page route matches the empty URL |
| Routes.UnknownUrlGoesHome | src/app/app.routes.ts:85 | a one-segment URL naming no page selects the wildcard redirect to `home` |
| Routes.UnknownMisses | src/app/app.routes.ts:23-81 | a one-segment URL naming no page matches no route before the wildcard |
| Routes.UnknownMissesProtected | src/app/app.routes.ts:35-81 | a one-segment URL matches a guarded route only if it is that route's single literal |
| Routes.AdminInEveryRolesList | src/app/app.routes.ts:39-77 | "admin" is in every `expectedRoles` list |
| Routes.AdminOnlyPages | src/app/app.routes.ts:47-72 | exactly reports, user-registration, manage-users and edit-user/:id are restricted to administrators |
| Routes.GuardedEntries | src/app/app.routes.ts:35-81 | the guard protects exactly the eight entries after the public pages; `refresh` alone has no roles list; exactly the list, edit/:id and edit-list/:id admit both staff roles |
| Session.Token | src/app/components/services/auth.service.ts:52-54 | present exactly when storage has the token key, and then its stored value |
| Session.Role | src/app/components/services/auth.service.ts:36-38 | present exactly when storage has the role key, and then its stored value |
| Session.Login | src/app/components/services/auth.service.ts:13-25 | resolves exactly for admin/admin, storing the demo token and the admin role, adding exactly those two keys, keeping every other key and emitting `true`; otherwise rejects with "Invalid credentials" and changes nothing |
| Session.Logout | src/app/components/services/auth.service.ts:27-30 | storage is emptied, so no token and no role remain, and `false` is emitted |
| Session.LoginLogsIn | src/app/components/services/auth.service.ts:13-20 | the demo credentials succeed and leave the user logged in |
| Session.LoginThenLogout | src/app/components/services/auth.service.ts:13-34 | a logout after any login attempt leaves no token or role; the stream shows `true, false` after a success and only `false` after a failure |
| Session.AuthHeaders | src/app/components/services/auth.service.ts:60-65 | exactly the two headers; the JSON content type, and "Bearer " followed by the token or the text "null" |
| Session.IsTokenValid | src/app/components/services/auth.service.ts:71-84 | true exactly when a non-empty token has a second dot-separated part whose decoded expiry, in seconds, is later than the clock |
| Session.DemoTokenNeverValid | src/app/components/services/auth.service.ts:16 | the token the demo login stores never passes the expiry check |
| Guard.CanActivate | src/app/components/guard-routes-appointaments-list/auth.guard.ts:16-40 | refused exactly when a navigation is started; a logged-out visitor is sent to `/login`, a refused logged-in user to `/home` |
| Guard.AllowedIff | src/app/components/guard-routes-appointaments-list/auth.guard.ts:26-39 | admitted exactly when logged in and the route lists no roles, the role is absent or empty, or the role is listed |
| Guard.AdminOpensEveryRoute | src/app/components/guard-routes-appointaments-list/auth.guard.ts:32 | after the demo login every route of the table opens |
| Guard.LoggedOutGoesToLogin | src/app/components/guard-routes-appointaments-list/auth.guard.ts:26-30 | after logout every route refuses and sends the visitor to `/login` |
| Guard.EmployeeKeptFromAdminPages | src/app/components/guard-routes-appointaments-list/auth.guard.ts:32-36 | an employee is refused and sent to `/home` on the four administrator pages |
| Guard.MissingRolePassesEveryCheck | src/app/components/guard-routes-appointaments-list/auth.guard.ts:32 | a logged-in user with no role, or an empty one, is admitted everywhere |
| Login.HandleLoginError | src/app/components/login/login.component.ts:63-79 | the first that applies of: a server `errors` map gives its messages joined by newlines, 401 the bad-credentials text, 0 the no-connection text, a server message itself, else the generic text; never empty without an errors map |
| Login.ServiceRejectionIsGeneric | src/app/components/login/login.component.ts:63-79 | the service's status-less rejection always shows the generic text, never the bad-credentials one |
| Login.ErrorsMapWins | src/app/components/login/login.component.ts:66-69 | an `errors` map is reported whatever the status |
| Login.RedirectUser | src/app/components/login/login.component.ts:91-100 | the appointment list exactly for "admin" and "employee", home for every other role |
| Login.StaffRedirectIsAdmitted | src/app/components/login/login.component.ts:91-95 | the page staff are redirected to is the appointment-list route, and the guard admits them there |
| Login.CheckAuthStatus | src/app/components/login/login.component.ts:81-89 | a redirect happens exactly for a logged-in user with a truthy role, to where `redirectUser` sends that role |
| Login.FormValidIff | src/app/components/login/login.component.ts:29-32 | the form is valid exactly when the username has at least 3 and the password at least 6 characters |
| Login.OnLogin | src/app/components/login/login.component.ts:36-56 | an invalid form is marked touched and gets the fill-in text without calling the service; a valid one takes the service's session, clears the error on success or shows the handled rejection, and ends not loading |
| Login.NoFormLoginSucceeds | src/app/components/login/login.component.ts:31 | no submission through the form changes the session or logs anyone in, and a valid one always shows the generic error |
| Login.ErrorText | src/app/components/login/login.component.ts:120-124 | the required text, the minimum-length text carrying the required length, or "Valor inválido" for any other key |
| Login.ControlErrors | src/app/components/login/login.component.ts:116-128 | nothing unless the control is enabled, has errors, and is dirty or touched; then one text per error key, in order |
| Login.PristineShowsNothing | src/app/components/login/login.component.ts:118 | a control neither dirty nor touched shows nothing, whatever its value |
| Login.EmptyUsernameShowsRequired | src/app/components/login/login.component.ts:118-121 | a touched empty username shows only the required text |
| Registration.EmailValidatorsFor | src/app/components/user-registration/user-registration.component.ts:36-44 | the e-mail control gets validators exactly when the role is "admin" |
| Registration.SetRole | src/app/components/user-registration/user-registration.component.ts:36-44 | a role change sets the role and the e-mail validators only |
| Registration.ValidFormPasswords | src/app/components/user-registration/user-registration.component.ts:27-51 | a valid form has two equal passwords of at least six characters |
| Registration.EmailRuleFollowsRole | src/app/components/user-registration/user-registration.component.ts:36-44 | with an empty e-mail, a form otherwise in order is valid after a role change exactly when the role is not "admin" |
| Registration.Payload | src/app/components/user-registration/user-registration.component.ts:68-72 | the body holds every form value under its control's name plus `password_confirmation` carrying the confirmation, and no `confirmPassword` key |
| Registration.ResetForm | src/app/components/user-registration/user-registration.component.ts:78 | every value becomes null and the e-mail validators are cleared |
| Registration.ResetFormIsInvalid | src/app/components/user-registration/user-registration.component.ts:28 | a reset form is never valid |
| Registration.FirstMessage | src/app/components/user-registration/user-registration.component.ts:84-89 | a message exactly when the list is non-empty, and then its first entry |
| Registration.Message422 | src/app/components/user-registration/user-registration.component.ts:82-92 | the first username error, else the first e-mail error, else the first password error, else the invalid-data text; a present but empty list gives no message |
| Registration.UsernameErrorWins | src/app/components/user-registration/user-registration.component.ts:83-84 | a username error is reported whatever the other fields carry |
| Registration.OnSubmit | src/app/components/user-registration/user-registration.component.ts:61-101 | an invalid form sends nothing and changes nothing; otherwise the payload is sent and loading ends; success shows the success modal and resets the form; a failure keeps the form and shows the chosen error, except a 422 without an error body, which sets neither message nor modal |
| Registration.PostedPasswordsAgree | src/app/components/user-registration/user-registration.component.ts:47-51 | every posted body carries a password equal to its confirmation |
| Registration.SuccessLeavesInvalidForm | src/app/components/user-registration/user-registration.component.ts:76-78 | after a successful registration the form cannot be submitted until filled in again |
| Ibge.NumberOf | src/app/components/ibge.service.ts:38 | a numeric id passes through `Number` unchanged |
| Ibge.Cities | src/app/components/ibge.service.ts:31-43 | a null or empty response gives only the "no city" entry; otherwise the "select a city" entry comes first, then the converted list; the first entry's id is always -1 |
| Ibge.Converted | src/app/components/ibge.service.ts:37-40 | each city keeps its position and name, with its id passed through `Number` |
| Ibge.PlaceholderIsUnique | src/app/components/ibge.service.ts:34-42 | when every real id is a non-negative number, the placeholder is the only entry with id -1 |
| Ibge.NamesSurvive | src/app/components/ibge.service.ts:37-42 | without the placeholder the list has the response's names in order |
| Formatters.CapitalizeFirstLetter | src/app/components/nav-bar/nav-bar.component.ts:201-203 | length is kept; the first character is upper-cased and every other one lower-cased |
| Formatters.CapitalizeFirstLetterIsFormatName | src/app/components/nav-bar/nav-bar.component.ts:201-203 | on a name without spaces the navigation bar and the intake form capitalise alike |
| NavBar.ProcessPhotoUrl | src/app/components/nav-bar/nav-bar.component.ts:90-100 | an empty URL or the default picture is kept; any other URL becomes its corrected path cut exactly at the first '?' (the whole path when there is none), followed by the timestamp query |
| NavBar.TimestampReadsBack | src/app/components/nav-bar/nav-bar.component.ts:99 | the timestamp parses back from the processed URL |
| NavBar.QueryDigits | src/app/components/nav-bar/nav-bar.component.ts:99 | the digits after "?t=" spell the clock value |
| NavBar.PlainUrlGainsTimestamp | src/app/components/nav-bar/nav-bar.component.ts:96-99 | a URL with no query and no "profile-photos" only gains the timestamp |
| NavBar.PhotoFromResponse | src/app/components/nav-bar/nav-bar.component.ts:121-127 | a falsy photo keeps the current picture; an absolute one is processed as it is, a relative one after the storage base URL is put in front |
| NavBar.RolesExclusive | src/app/components/nav-bar/nav-bar.component.ts:205-211 | no user is shown both the administrator and the employee menu |
| NavBar.ToggleMenu | src/app/components/nav-bar/nav-bar.component.ts:222-224 | only the menu flag changes, and it flips |
| NavBar.CloseMenu | src/app/components/nav-bar/nav-bar.component.ts:226-228 | the menu ends collapsed and nothing else changes |
| NavBar.MenuLaws | src/app/components/nav-bar/nav-bar.component.ts:222-228 | toggling twice restores the bar; closing is idempotent and erases a toggle |
| NavBar.ClearUserData | src/app/components/nav-bar/nav-bar.component.ts:72-76 | role and name are cleared and the default picture is shown; the login and menu flags are kept |
| NavBar.OnAuthStatus | src/app/components/nav-bar/nav-bar.component.ts:37-45 | the login flag follows the event; false clears the user data; true reloads the stored role and, when a stored username is present, its capitalised form |
| NavBar.LogoutHidesAdminMenu | src/app/components/nav-bar/nav-bar.component.ts:37-45 | after the statuses of a login and a logout the administrator menu, shown in between, is hidden and the default picture is back |

## Left out

- HTTP plumbing: every `subscribe` chain, the services that wrap `HttpClient`, and the request URLs and headers. Each response is an input value of the handler that receives it.
- Chart.js and jsPDF rendering on the reports page (`renderCharts`, `destroyCharts`, PDF export). They draw on a canvas through foreign libraries with floating-point percentages.
- Browser effects: `location.reload`, `doubleReload`, `alert`, `window.open`, the navigation bar's `uploadPhoto` and `isImageLoaded`, and `handleImageError`. The intake form's 409 replace dialog is kept only as "the state is left as it was". The confirmation and the re-submission that follows it are not modelled.
- Angular internals: validity propagation, change detection and router mechanics. Only the decisions the components take are modelled, for example which validators a control carries and where navigation is sent.
- IntakeForm.OnSubmit: `validateAge` depends on today's date. It is the parameter `ageOk`; an unparseable birth date gives a NaN age, which `validateAge` lets through, so a caller models that by passing true. `new Date(v).toISOString()` is the parameter `isoDate`, None where it throws a `RangeError`.
- Sorting.SortKey: the date sort key is compared as text, not through `Date.getTime`, because the clock and timezone are not modelled. A name inherited from `Object.prototype` is not modelled either: "constructor" and "toString" print the function's source text and "__proto__" prints "[object object]", where the model reads "undefined".
- Sorting.Sort: JavaScript's `sort` may order keys that compare equal in any way. The model is a stable insertion sort, so only the order between distinct keys is promised.
- Session.IsTokenValid: `atob` and `JSON.parse` are the parameter `decodeExp`, and `Date.now()` is `nowMillis`.
- NavBar.ProcessPhotoUrl: `Date.now()` is the parameter `nowMillis`.
- Text.Lower, Text.UpperChar, Text.LowerChar: upper and lower case are ASCII only, so accented letters keep their case.
- Text.ParseInt: reads optional leading white space, one optional sign and then the leading run of decimal digits, as `parseInt(s, 10)` does; a value too large for a double, which `parseInt` would round, is kept exact.
- Text.ToNumber: accepts only a trimmed text that is empty or one optional sign followed by decimal digits, all of it; `Number` also accepts fractions, exponents, "Infinity" and hexadecimal, binary and octal forms, so `Number("12.5")` is 12.5 (truthy) where the model gives None. Editor.OnInit and Editor.OnRoomChange therefore treat such an id or room value as no number at all, where the component would load or look up with the fractional value.
- Text.LexLess, Forms.ValidatorError, Formatters.FormatCpf, Formatters.FormatPhoneNumber: a string is a sequence of characters, while JavaScript's `length` and `<` count and compare UTF-16 code units. The two differ only for characters outside the Basic Multilingual Plane (emoji, for instance): such a character counts once here and twice in the browser for `minlength` and for the formatters' length checks, and `<` may order it differently.
- Labels.GenderLabel, Labels.EducationLabel, Labels.TurnLabel, Labels.AgeGroupLabel: the tables are plain object literals, so in JavaScript a key naming an inherited property ("constructor", "toString", "__proto__") yields that prototype member instead of the fallback; the model looks keys up in the literal table alone and returns the fallback for them.
- Sorting.NullableText, Sorting.NullableFlag, Sorting.PhotoText: an absent optional field is written as "null"; a property the back end leaves out entirely is `undefined` in the component and `String(undefined)` would give "undefined", which sorts after "null" and before "true". The model has one absence per field and chooses "null", the value the form posts for cleared fields.
- Directory.Normalize, Directory.WithDisplayNames: an absent `room_id` is read as `null`, so the room shows "Não alocado". If the back end left the property out entirely, it would be `undefined`, and `undefined !== null` would give `roomNames[undefined]`, i.e. no room name. The model has one absence per field, as above.
- Registration.OnSubmit: `AuthService.register` is not part of this model, because the service shown has no such method. The outcome of registering is a parameter.
- NavBar.OnAuthStatus: reloading the photo after a login uses `AuthService.getUser` and `processPhotoUrl`, which are not part of this model. The photo is left unchanged, and the username read from storage is a parameter.
- `isStepValid` in the editor reads a `step` field that no method of the component sets. `Editor.IsStepValid` takes the step as a parameter and is applied to the wizard's `currentStep`.
- Components with no logic to model: filter, home, main, notification, manage-users, edit-user, forgot-password, refresh, unauthorized.
- The reports page's start and end dates, room and gender filters are only sent to the server, so the model carries them but computes nothing from them.

=== FILE: appointment.dfy ===
/** The appointment record shared by the directory, the editor and the intake
    form, with its nested `additionalInfo` block. `null`/absent fields are `None`. */
module AppointmentModel {
  import opened Options

  /** Social and accommodation details of a sheltered person. */
  datatype AdditionalInfo = AdditionalInfo(
    ethnicity: string,
    addictions: string,
    is_accompanied: bool,
    benefits: string,
    is_lactating: bool,
    has_disability: bool,
    reason_for_accommodation: string,
    has_religion: bool,
    religion: string,
    has_chronic_disease: bool,
    chronic_disease: string,
    education_level: string,
    nationality: string,
    room_id: Option<int>,
    bed_id: Option<int>,
    stay_duration: Option<int>,
    roomDisplayName: Option<string>,
    bedDisplayName: Option<string>,
    exit_date: Option<string>)

  /** The `photo` field: `null`, a stored path or absolute URL, or a browser `File`
      (of which only the name and MIME type matter). */
  datatype Photo = NoPhoto | PhotoPath(path: string) | PhotoFile(fileName: string, mimeType: string)

  datatype Appointment = Appointment(
    id: int,
    name: string,
    last_name: string,
    cpf: string,
    date: string,
    arrival_date: string,
    time: string,
    birth_date: Option<string>,
    state: string,
    city: string,
    mother_name: string,
    phone: string,
    observation: string,
    gender: string,
    foreign_country: Option<bool>,
    noPhone: Option<bool>,
    isHidden: Option<bool>,
    replace: Option<bool>,
    showMore: Option<bool>,
    photo: Photo,
    photo_url: Option<string>,
    additionalInfo: Option<AdditionalInfo>,
    accommodation_mode: string)

  /** `!a.isHidden` is false only when the flag is `true`; an absent flag means visible. */
  predicate IsHidden(a: Appointment) { a.isHidden == Some(true) }

  /** `additionalInfo?.bed_id != null`: the appointment holds a bed. */
  predicate HoldsBed(a: Appointment) { a.additionalInfo.Some? && a.additionalInfo.value.bed_id.Some? }

  /** JavaScript truthiness of a nullable number: neither `null` nor 0. */
  predicate TruthyId(id: Option<int>) { id.Some? && id.value != 0 }

  /** The block the directory substitutes for a missing `additionalInfo`. */
  const ListDefaultInfo := AdditionalInfo(
    "", "", false, "", false, false, "", false, "", false, "", "", "",
    None, None, None, None, None, None)

  /** The block the editor substitutes for a missing `additionalInfo`
      (`initializeAdditionalInfo`). */
  const EditorDefaultInfo := AdditionalInfo(
    "", "", false, "", false, false, "", false, "", false, "", "", "Brasileiro",
    None, None, Some(0), None, None, Some(""))
}

=== FILE: cpf.dfy ===
/** The intake form's CPF validator (`FormComponent.validarCPF`): the Brazilian
    taxpayer number's two modulo-11 check digits, applied after every non-digit
    has been stripped. */
module Cpf {
  import opened Options
  import opened Text

  /** The validator's answer: `null` (no error) or `{ invalidCPF: true }`. */
  datatype CpfCheck = NoError | InvalidCpf

  /** `s.replace(/\D/g, '')`: the digits of s, in order. */
  function DigitsOnly(s: string): (r: string)
    ensures AllDigits(r) && |r| <= |s|
  {
    if s == [] then [] else (if IsDigit(s[0]) then [s[0]] else []) + DigitsOnly(s[1..])
  }

  /** Stripping distributes over concatenation. */
  lemma {:induction false} DigitsOnlyAppend(a: string, b: string)
    ensures DigitsOnly(a + b) == DigitsOnly(a) + DigitsOnly(b)
    decreases |a|
  {
    if a != [] {
      assert (a + b)[1..] == a[1..] + b;
      DigitsOnlyAppend(a[1..], b);
    } else {
      assert a + b == b;
    }
  }

  /** A string of digits is left as it is, so stripping is idempotent. */
  lemma {:induction false} DigitsOnlyOfDigits(s: string)
    requires AllDigits(s)
    ensures DigitsOnly(s) == s
    decreases |s|
  {
    if s != [] {
      DigitsOnlyOfDigits(s[1..]);
      assert s == [s[0]] + s[1..];
    }
  }

  /** A string without digits strips to the empty string. */
  lemma {:induction false} DigitsOnlyOfNonDigits(s: string)
    requires forall i :: 0 <= i < |s| ==> !IsDigit(s[i])
    ensures DigitsOnly(s) == ""
    decreases |s|
  {
    if s != [] {
      DigitsOnlyOfNonDigits(s[1..]);
    }
  }

  /** Σ_{j < n} d_j · (top − j). */
  function WeightedSum(d: string, n: nat, top: int): int
    requires n <= |d| && AllDigits(d)
  {
    if n == 0 then 0 else WeightedSum(d, n - 1, top) + DigitValue(d[n - 1]) * (top - (n - 1))
  }

  /** The expected check digit for a weighted sum: (10 · sum) mod 11, with a
      remainder of 10 read as 0. */
  function CheckDigit(sum: nat): (r: nat)
    ensures r <= 9
    ensures r == (sum * 10) % 11 || ((sum * 10) % 11 == 10 && r == 0)
  {
    var rest := (sum * 10) % 11;
    if rest == 10 || rest == 11 then 0 else rest
  }

  lemma {:induction false} WeightedSumNonNegative(d: string, n: nat, top: int)
    requires n <= |d| && AllDigits(d) && top >= n
    ensures WeightedSum(d, n, top) >= 0
  {
    if n > 0 {
      WeightedSumNonNegative(d, n - 1, top);
    }
  }

  /** Both check-digit equations of an eleven-digit string: digit 10 checks the
      first nine digits with weights 10..2, digit 11 checks the first ten with
      weights 11..2. */
  predicate CheckDigitsHold(d: string)
    requires |d| == 11 && AllDigits(d)
  {
    WeightedSumNonNegative(d, 9, 10);
    WeightedSumNonNegative(d, 10, 11);
    && CheckDigit(WeightedSum(d, 9, 10)) == DigitValue(d[9])
    && CheckDigit(WeightedSum(d, 10, 11)) == DigitValue(d[10])
  }

  /** The validator's verdict on a control value (None is `null`/`undefined`). */
  function Verdict(value: Option<string>): CpfCheck
  {
    if value.None? || value.value == "" then NoError
    else
      var d := DigitsOnly(value.value);
      if |d| == 11 && CheckDigitsHold(d) then NoError else InvalidCpf
  }

  /** `validarCPF`, computed with the source's two summing loops. */
  method ValidarCpf(value: Option<string>) returns (r: CpfCheck)
    ensures value.None? || value.value == "" ==> r == NoError
    ensures value.Some? && value.value != "" && |DigitsOnly(value.value)| != 11 ==> r == InvalidCpf
    ensures value.Some? && value.value != "" && |DigitsOnly(value.value)| == 11 ==>
      (r == NoError <==> CheckDigitsHold(DigitsOnly(value.value)))
    ensures r == Verdict(value)
  {
    if value.None? || value.value == "" {
      return NoError;
    }
    var d := DigitsOnly(value.value);
    if |d| != 11 {
      return InvalidCpf;
    }
    var soma := 0;
    var i := 1;
    while i <= 9
      invariant 1 <= i <= 10
      invariant soma == WeightedSum(d, i - 1, 10)
    {
      soma := soma + DigitValue(d[i - 1]) * (11 - i);
      i := i + 1;
    }
    WeightedSumNonNegative(d, 9, 10);
    var resto := CheckDigit(soma);
    if resto != DigitValue(d[9]) {
      return InvalidCpf;
    }
    soma := 0;
    i := 1;
    while i <= 10
      invariant 1 <= i <= 11
      invariant soma == WeightedSum(d, i - 1, 11)
    {
      soma := soma + DigitValue(d[i - 1]) * (12 - i);
      i := i + 1;
    }
    WeightedSumNonNegative(d, 10, 11);
    resto := CheckDigit(soma);
    if resto != DigitValue(d[10]) {
      return InvalidCpf;
    }
    return NoError;
  }

  /** On an eleven-digit input the verdict is exactly the check-digit test. */
  lemma VerdictOfElevenDigits(s: string)
    requires |s| == 11 && AllDigits(s)
    ensures Verdict(Some(s)) == (if CheckDigitsHold(s) then NoError else InvalidCpf)
  {
    DigitsOnlyOfDigits(s);
  }

  lemma StripsPieces(a: string, b: string, c: string, e: string)
    requires AllDigits(a) && AllDigits(b) && AllDigits(c) && AllDigits(e)
    ensures DigitsOnly(a + "." + b + "." + c + "-" + e) == a + b + c + e
  {
    DigitsOnlyOfDigits(a);
    DigitsOnlyOfDigits(b);
    DigitsOnlyOfDigits(c);
    DigitsOnlyOfDigits(e);
    DigitsOnlyOfNonDigits(".");
    DigitsOnlyOfNonDigits("-");
    var p1 := a + ".";
    DigitsOnlyAppend(a, ".");
    assert DigitsOnly(p1) == a;
    var p2 := p1 + b;
    DigitsOnlyAppend(p1, b);
    assert DigitsOnly(p2) == a + b;
    var p3 := p2 + ".";
    DigitsOnlyAppend(p2, ".");
    assert DigitsOnly(p3) == a + b;
    var p4 := p3 + c;
    DigitsOnlyAppend(p3, c);
    assert DigitsOnly(p4) == a + b + c;
    var p5 := p4 + "-";
    DigitsOnlyAppend(p4, "-");
    assert DigitsOnly(p5) == a + b + c;
    DigitsOnlyAppend(p5, e);
  }

  /** "123.456.789-09", the form test's valid example, strips to "12345678909". */
  lemma StripsFormattedExample(s: string, d: string)
    requires s == "123.456.789-09" && d == "12345678909"
    ensures DigitsOnly(s) == d
  {
    var a, b, c, e := "123", "456", "789", "09";
    FormattedPieces(s, a, b, c, e);
    PiecesDigits(a, b, c, e);
    StripsPieces(a, b, c, e);
    JoinedPieces(d, a, b, c, e);
  }

  lemma FormattedPieces(s: string, a: string, b: string, c: string, e: string)
    requires s == "123.456.789-09" && a == "123" && b == "456" && c == "789" && e == "09"
    ensures s == a + "." + b + "." + c + "-" + e
  {
  }

  lemma JoinedPieces(d: string, a: string, b: string, c: string, e: string)
    requires d == "12345678909" && a == "123" && b == "456" && c == "789" && e == "09"
    ensures d == a + b + c + e
  {
  }

  lemma PiecesDigits(a: string, b: string, c: string, e: string)
    requires a == "123" && b == "456" && c == "789" && e == "09"
    ensures AllDigits(a) && AllDigits(b) && AllDigits(c) && AllDigits(e)
  {
  }

  /** Stripping keeps a non-empty verdict input non-empty only through its
      digits: the verdict on a value is the verdict on its digits. */
  lemma VerdictOfStripped(s: string)
    requires DigitsOnly(s) != ""
    ensures Verdict(Some(s)) == Verdict(Some(DigitsOnly(s)))
  {
    DigitsOnlyOfDigits(DigitsOnly(s));
  }

  /** The check digits of "12345678909" hold. */
  lemma CheckDigitsOfFormattedExample(d: string)
    requires d == "12345678909"
    ensures CheckDigitsHold(d)
  {
    FormattedFirstSum(d);
    FormattedSecondSum(d);
  }

  // The example sums below unroll `WeightedSum` one digit at a time: each
  // assert is the partial sum after one more digit, so the solver never has
  // to expand the whole recursion at once.

  lemma FormattedFirstSum(d: string)
    requires d == "12345678909"
    ensures WeightedSum(d, 9, 10) == 210
  {
    assert WeightedSum(d, 1, 10) == 10;
    assert WeightedSum(d, 2, 10) == 28;
    assert WeightedSum(d, 3, 10) == 52;
    assert WeightedSum(d, 4, 10) == 80;
    assert WeightedSum(d, 5, 10) == 110;
    assert WeightedSum(d, 6, 10) == 140;
    assert WeightedSum(d, 7, 10) == 168;
    assert WeightedSum(d, 8, 10) == 192;
  }

  lemma FormattedSecondSum(d: string)
    requires d == "12345678909"
    ensures WeightedSum(d, 10, 11) == 255
  {
    assert WeightedSum(d, 1, 11) == 11;
    assert WeightedSum(d, 2, 11) == 31;
    assert WeightedSum(d, 3, 11) == 58;
    assert WeightedSum(d, 4, 11) == 90;
    assert WeightedSum(d, 5, 11) == 125;
    assert WeightedSum(d, 6, 11) == 161;
    assert WeightedSum(d, 7, 11) == 196;
    assert WeightedSum(d, 8, 11) == 228;
    assert WeightedSum(d, 9, 11) == 255;
  }

  /** The form test's valid example passes. */
  lemma AcceptsFormattedExample(s: string)
    requires s == "123.456.789-09"
    ensures Verdict(Some(s)) == NoError
  {
    var d := "12345678909";
    StripsFormattedExample(s, d);
    VerdictOfStripped(s);
    VerdictOfElevenDigits(d);
    CheckDigitsOfFormattedExample(d);
  }

  /** The check digits of the textbook CPF 111.444.777-35 hold. */
  lemma CheckDigitsOfTextbookExample(d: string)
    requires d == "11144477735"
    ensures CheckDigitsHold(d)
  {
    TextbookFirstSum(d);
    TextbookSecondSum(d);
  }

  lemma TextbookFirstSum(d: string)
    requires d == "11144477735"
    ensures WeightedSum(d, 9, 10) == 162
  {
    assert WeightedSum(d, 1, 10) == 10;
    assert WeightedSum(d, 2, 10) == 19;
    assert WeightedSum(d, 3, 10) == 27;
    assert WeightedSum(d, 4, 10) == 55;
    assert WeightedSum(d, 5, 10) == 79;
    assert WeightedSum(d, 6, 10) == 99;
    assert WeightedSum(d, 7, 10) == 127;
    assert WeightedSum(d, 8, 10) == 148;
  }

  lemma TextbookSecondSum(d: string)
    requires d == "11144477735"
    ensures WeightedSum(d, 10, 11) == 204
  {
    assert WeightedSum(d, 1, 11) == 11;
    assert WeightedSum(d, 2, 11) == 21;
    assert WeightedSum(d, 3, 11) == 30;
    assert WeightedSum(d, 4, 11) == 62;
    assert WeightedSum(d, 5, 11) == 90;
    assert WeightedSum(d, 6, 11) == 114;
    assert WeightedSum(d, 7, 11) == 149;
    assert WeightedSum(d, 8, 11) == 177;
    assert WeightedSum(d, 9, 11) == 198;
  }

  /** The textbook CPF passes. */
  lemma AcceptsTextbookExample(d: string)
    requires d == "11144477735"
    ensures Verdict(Some(d)) == NoError
  {
    CheckDigitsOfTextbookExample(d);
    VerdictOfElevenDigits(d);
  }

  /** The check digits of "12345678900" fail. */
  lemma CheckDigitsOfUnformattedExample(d: string)
    requires d == "12345678900"
    ensures !CheckDigitsHold(d)
  {
    UnformattedSums(d, "12345678909");
  }

  /** "12345678900" shares its first ten digits with "12345678909", and so
      both weighted sums. */
  lemma UnformattedSums(d: string, f: string)
    requires d == "12345678900" && f == "12345678909"
    ensures WeightedSum(d, 9, 10) == 210 && WeightedSum(d, 10, 11) == 255
  {
    assert d[..10] == f[..10];
    WeightedSumOfPrefix(d, f, 9, 10);
    WeightedSumOfPrefix(d, f, 10, 11);
    FormattedFirstSum(f);
    FormattedSecondSum(f);
  }

  /** A weighted sum reads only the first n digits. */
  lemma {:induction false} WeightedSumOfPrefix(a: string, b: string, n: nat, top: int)
    requires n <= |a| && n <= |b| && AllDigits(a) && AllDigits(b) && a[..n] == b[..n]
    ensures WeightedSum(a, n, top) == WeightedSum(b, n, top)
  {
    if n > 0 {
      assert a[n - 1] == a[..n][n - 1] == b[..n][n - 1] == b[n - 1];
      assert a[..n - 1] == a[..n][..n - 1] == b[..n][..n - 1] == b[..n - 1];
      WeightedSumOfPrefix(a, b, n - 1, top);
    }
  }

  /** The form test's invalid example fails on its second check digit. */
  lemma RejectsUnformattedExample(d: string)
    requires d == "12345678900"
    ensures Verdict(Some(d)) == InvalidCpf
  {
    CheckDigitsOfUnformattedExample(d);
    VerdictOfElevenDigits(d);
  }

  /** Σ_{j < n} (top − j), the sum of the weights. */
  function WeightTotal(n: nat, top: int): int
  {
    if n == 0 then 0 else WeightTotal(n - 1, top) + (top - (n - 1))
  }

  lemma {:induction false} WeightedSumOfRepeated(d: string, n: nat, top: int, v: nat)
    requires n <= |d| && AllDigits(d)
    requires forall j :: 0 <= j < |d| ==> DigitValue(d[j]) == v
    ensures WeightedSum(d, n, top) == v * WeightTotal(n, top)
  {
    if n > 0 {
      WeightedSumOfRepeated(d, n - 1, top, v);
      assert v * WeightTotal(n, top) == v * WeightTotal(n - 1, top) + v * (top - (n - 1));
    }
  }

  /** Strings of one repeated digit ("00000000000", "11111111111", ...) are not
      special-cased: every one of them passes both checks. */
  lemma RepeatedDigitsAccepted(c: char)
    requires IsDigit(c)
    ensures Verdict(Some(seq(11, _ => c))) == NoError
  {
    var d: string := seq(11, _ => c);
    var v := DigitValue(c);
    DigitsOnlyOfDigits(d);
    WeightedSumOfRepeated(d, 9, 10, v);
    WeightedSumOfRepeated(d, 10, 11, v);
    WeightTotals();
    RepeatedResidues(v);
    assert WeightedSum(d, 9, 10) == 54 * v;
    assert WeightedSum(d, 10, 11) == 65 * v;
  }

  lemma WeightTotals()
    ensures WeightTotal(9, 10) == 54 && WeightTotal(10, 11) == 65
  {
  }

  lemma RepeatedResidues(v: nat)
    requires v < 10
    ensures (540 * v) % 11 == v && (650 * v) % 11 == v
  {
    assert 540 * v == 11 * (49 * v) + v;
    assert 650 * v == 11 * (59 * v) + v;
  }
}

=== FILE: directory.dfy ===
/** The appointment directory page: normalisation of the fetched records, the
    visible/hidden search filters, the available-beds tally, the local bed
    occupancy toggle and the local update after hiding an appointment. */
module Directory {
  import opened Options
  import opened Text
  import opened Seqs
  import opened AppointmentModel

  const StorageBase := "http://127.0.0.1:8000/storage/"
  const TotalBeds := 12
  const Unallocated := "Não alocado"
  const BedPrefix := "Cama "
  const RoomNames: map<int, string> := map[1 := "Quarto A", 2 := "Quarto B", 3 := "Quarto C"]

  datatype Bed = Bed(id: int, isOccupied: bool)
  datatype Room = Room(id: int, name: string, beds: seq<Bed>)

  /** The component's fields. `selected` is the position in `appointments` of
      the record whose hide dialog is open. */
  datatype DirectoryState = DirectoryState(
    appointments: seq<Appointment>,
    filtered: seq<Appointment>,
    searchTerm: string,
    sortBy: string,
    rooms: seq<Room>,
    availableBeds: int,
    selected: Option<nat>,
    isHideModalOpen: bool)

  const InitialState := DirectoryState([], [], "", "name-asc", [], 0, None, false)

  /** The fixed room list `loadRooms` installs. */
  const InitialRooms := [
    Room(1, "Quarto A", [Bed(1, false), Bed(2, false)]),
    Room(2, "Quarto B", [Bed(3, false), Bed(4, true)]),
    Room(3, "Quarto C", [Bed(5, false), Bed(6, false)])]

  function LoadRooms(st: DirectoryState): (r: DirectoryState)
    ensures r.(rooms := st.rooms) == st
    ensures |r.rooms| == 3 && forall i :: 0 <= i < 3 ==> r.rooms[i].id == i + 1 && |r.rooms[i].beds| == 2
    ensures forall i :: 0 <= i < 3 ==> r.rooms[i].id in RoomNames && r.rooms[i].name == RoomNames[r.rooms[i].id]
    ensures forall i, j :: 0 <= i < 3 && 0 <= j < 2 ==>
      r.rooms[i].beds[j].id == 2 * i + j + 1 && (r.rooms[i].beds[j].isOccupied <==> r.rooms[i].beds[j].id == 4)
  {
    st.(rooms := InitialRooms)
  }

  // ---------------------------------------------------------------- normalisation

  /** `photo_url` after loading: derived from a non-empty string photo, kept otherwise. */
  function PhotoUrl(a: Appointment): (r: Option<string>)
    ensures a.photo.PhotoPath? && a.photo.path != "" ==>
      r.Some? && StartsWith(r.value, "http") &&
      (r.value == a.photo.path <==> StartsWith(a.photo.path, "http"))
    ensures a.photo.PhotoPath? && a.photo.path != "" && !StartsWith(a.photo.path, "http") ==>
      StartsWith(r.value, StorageBase) && r.value[|StorageBase|..] == a.photo.path
    ensures !(a.photo.PhotoPath? && a.photo.path != "") ==> r == a.photo_url
  {
    if a.photo.PhotoPath? && a.photo.path != "" then
      ResolveUrlIdempotent(StorageBase, a.photo.path);
      Some(ResolveUrl(StorageBase, a.photo.path))
    else a.photo_url
  }

  /** No room is named like the unallocated marker. */
  lemma RoomNameIsAllocated(k: int)
    requires k in RoomNames
    ensures RoomNames[k] != Unallocated
  {
    assert RoomNames[k][0] == 'Q';
  }

  /** "Cama " and the bed id for a truthy id, the unallocated marker otherwise. */
  function BedName(id: Option<int>): (r: string)
    ensures StartsWith(r, BedPrefix) <==> TruthyId(id)
    ensures !TruthyId(id) ==> r == Unallocated
  {
    if TruthyId(id) then BedPrefix + IntToString(id.value)
    else
      assert Unallocated[0] != BedPrefix[0];
      Unallocated
  }

  /** The room and bed display names added to an `additionalInfo` block. */
  function WithDisplayNames(info: AdditionalInfo): (r: AdditionalInfo)
    ensures r.(roomDisplayName := info.roomDisplayName, bedDisplayName := info.bedDisplayName) == info
    ensures r.roomDisplayName == Some(Unallocated) <==> info.room_id.None?
    ensures info.room_id.Some? && info.room_id.value in RoomNames ==>
      r.roomDisplayName == Some(RoomNames[info.room_id.value])
    ensures info.room_id.Some? && info.room_id.value !in RoomNames ==> r.roomDisplayName.None?
    ensures r.bedDisplayName.Some?
    ensures StartsWith(r.bedDisplayName.value, BedPrefix) <==> TruthyId(info.bed_id)
    ensures !TruthyId(info.bed_id) ==> r.bedDisplayName == Some(Unallocated)
  {
    var room :=
      if info.room_id.None? then Some(Unallocated)
      else if info.room_id.value in RoomNames then Some(RoomNames[info.room_id.value])
      else None;
    assert room != Some(Unallocated) <== info.room_id.Some? by {
      if info.room_id.Some? && info.room_id.value in RoomNames { RoomNameIsAllocated(info.room_id.value); }
    }
    info.(roomDisplayName := room, bedDisplayName := Some(BedName(info.bed_id)))
  }

  /** One fetched record as `loadAppointments` leaves it. */
  function Normalize(a: Appointment): (r: Appointment)
    ensures r.(photo_url := a.photo_url, additionalInfo := a.additionalInfo) == a
    ensures r.photo_url == PhotoUrl(a)
    ensures r.additionalInfo.Some?
    ensures a.additionalInfo.Some? ==>
      r.additionalInfo.value.(roomDisplayName := a.additionalInfo.value.roomDisplayName,
                              bedDisplayName := a.additionalInfo.value.bedDisplayName)
      == a.additionalInfo.value
    ensures a.additionalInfo.None? ==>
      && r.additionalInfo.value.room_id.None? && r.additionalInfo.value.bed_id.None?
      && r.additionalInfo.value.roomDisplayName == Some(Unallocated)
      && r.additionalInfo.value.bedDisplayName == Some(Unallocated)
    ensures IsHidden(r) == IsHidden(a) && HoldsBed(r) == HoldsBed(a)
  {
    var info := if a.additionalInfo.Some? then a.additionalInfo.value else ListDefaultInfo;
    a.(photo_url := PhotoUrl(a), additionalInfo := Some(WithDisplayNames(info)))
  }

  /** Normalising twice is the same as normalising once. */
  lemma NormalizeIdempotent(a: Appointment)
    ensures Normalize(Normalize(a)) == Normalize(a)
  {
    var n := Normalize(a);
    if a.photo.PhotoPath? && a.photo.path != "" {
      ResolveUrlIdempotent(StorageBase, a.photo.path);
    }
    assert PhotoUrl(n) == PhotoUrl(a);
    var info := n.additionalInfo.value;
    assert WithDisplayNames(info) == info;
  }

  /** The bed display name of a positive bed id reads back as that id. */
  lemma BedDisplayNameNamesTheBed(info: AdditionalInfo, n: nat)
    requires info.bed_id == Some(n) && n > 0
    ensures var name := WithDisplayNames(info).bedDisplayName.value;
      StartsWith(name, BedPrefix) && ParseInt(name[|BedPrefix|..]) == Some(n)
  {
    var name := WithDisplayNames(info).bedDisplayName.value;
    assert name == BedPrefix + NatToString(n);
    assert name[|BedPrefix|..] == NatToString(n) + [];
    ParseIntOfDecimal(n, []);
  }

  // ---------------------------------------------------------------- filters

  /** The appointments the list shows when no search is active. */
  function Visible(apps: seq<Appointment>): (r: seq<Appointment>)
    ensures forall a :: a in r <==> a in apps && !IsHidden(a)
    ensures forall a :: multiset(r)[a] == if IsHidden(a) then 0 else multiset(apps)[a]
    ensures IsSubsequence(r, apps)
  {
    FilterIsSubsequence(apps, a => !IsHidden(a));
    FilterCounts(apps, a => !IsHidden(a));
    Filter(apps, a => !IsHidden(a))
  }

  /** Case-insensitive match of the (untrimmed) term in the first or last name. */
  predicate Matches(a: Appointment, term: string) {
    Contains(Lower(a.name), Lower(term)) || Contains(Lower(a.last_name), Lower(term))
  }

  /** `loadAppointments` with the fetched list `data`. */
  function LoadAppointments(st: DirectoryState, data: seq<Appointment>): (r: DirectoryState)
    ensures r.(appointments := st.appointments, filtered := st.filtered, availableBeds := st.availableBeds) == st
    ensures |r.appointments| == |data|
    ensures forall k :: 0 <= k < |data| ==> r.appointments[k] == Normalize(data[k])
    ensures r.filtered == Visible(r.appointments)
    ensures forall a :: a in r.filtered <==> a in r.appointments && !IsHidden(a)
    ensures IsSubsequence(r.filtered, r.appointments)
    ensures r.availableBeds == AvailableBeds(r.appointments)
  {
    var apps := Map(data, Normalize);
    st.(appointments := apps, filtered := Visible(apps), availableBeds := AvailableBeds(apps))
  }

  /** `onSearch`: a term that is blank after trimming shows the visible
      appointments; any other term selects by name, hidden ones included. */
  function OnSearch(st: DirectoryState): (r: DirectoryState)
    ensures r.(filtered := st.filtered) == st
    ensures IsBlank(st.searchTerm) ==> r.filtered == Visible(st.appointments)
    ensures !IsBlank(st.searchTerm) ==>
      forall a :: a in r.filtered <==> a in st.appointments && Matches(a, st.searchTerm)
    ensures !IsBlank(st.searchTerm) ==>
      forall a :: multiset(r.filtered)[a] == if Matches(a, st.searchTerm) then multiset(st.appointments)[a] else 0
    ensures IsSubsequence(r.filtered, st.appointments)
  {
    TrimEmptyIffBlank(st.searchTerm);
    if Trim(st.searchTerm) == "" then st.(filtered := Visible(st.appointments))
    else
      var term := st.searchTerm;
      FilterIsSubsequence(st.appointments, a => Matches(a, term));
      FilterCounts(st.appointments, a => Matches(a, term));
      st.(filtered := Filter(st.appointments, a => Matches(a, term)))
  }

  /** `filterAppointments`: the same selection, but only the empty term counts
      as "no search"; the `!isHidden || searchTerm` guard always holds in the
      searching branch. */
  function FilterAppointments(st: DirectoryState): (r: DirectoryState)
    ensures r.(filtered := st.filtered) == st
    ensures st.searchTerm == "" ==> r.filtered == Visible(st.appointments)
    ensures st.searchTerm != "" ==>
      forall a :: a in r.filtered <==> a in st.appointments && Matches(a, st.searchTerm)
    ensures st.searchTerm != "" ==>
      forall a :: multiset(r.filtered)[a] == if Matches(a, st.searchTerm) then multiset(st.appointments)[a] else 0
    ensures IsSubsequence(r.filtered, st.appointments)
  {
    var term := st.searchTerm;
    FilterIsSubsequence(st.appointments, a => (!IsHidden(a) || term != "") && Matches(a, term));
    FilterCounts(st.appointments, a => (!IsHidden(a) || term != "") && Matches(a, term));
    if term != "" then
      st.(filtered := Filter(st.appointments, a => (!IsHidden(a) || term != "") && Matches(a, term)))
    else st.(filtered := Visible(st.appointments))
  }

  /** For a term with a non-space character both filters agree. */
  lemma FilterAgreesWithSearch(st: DirectoryState)
    requires !IsBlank(st.searchTerm)
    ensures FilterAppointments(st).filtered == OnSearch(st).filtered
  {
    var term := st.searchTerm;
    assert term != "";
    TrimEmptyIffBlank(term);
    FilterAgree(st.appointments, a => (!IsHidden(a) || term != "") && Matches(a, term), a => Matches(a, term));
  }

  /** They differ on a whitespace-only term: `onSearch` shows the visible list,
      `filterAppointments` searches for the spaces and finds hidden records too. */
  lemma FiltersDisagreeOnSpaces(a: Appointment)
    requires a.name == "Ana Maria" && IsHidden(a)
    ensures var st := InitialState.(appointments := [a], searchTerm := " ");
      OnSearch(st).filtered == [] && FilterAppointments(st).filtered == [a]
  {
    BlankSearchHidesHidden(a, " ");
    SpaceFilterFindsTwoWordName(a, " ");
  }

  lemma BlankSearchHidesHidden(a: Appointment, term: string)
    requires IsHidden(a) && term == " "
    ensures OnSearch(InitialState.(appointments := [a], searchTerm := term)).filtered == []
  {
    assert IsBlank(term);
    assert [a][1..] == [];
  }

  lemma SpaceFilterFindsTwoWordName(a: Appointment, term: string)
    requires a.name == "Ana Maria" && term == " "
    ensures FilterAppointments(InitialState.(appointments := [a], searchTerm := term)).filtered == [a]
  {
    assert Lower(term) == " ";
    var n := Lower(a.name);
    assert n[3..4] == " ";
    assert StartsWith(n[3..], " ");
    assert Contains(n[3..], " ");
    assert n[3..] == n[1..][1..][1..];
    assert Contains(n, " ");
    assert Matches(a, term);
    assert [a][1..] == [];
  }

  // ---------------------------------------------------------------- beds

  /** `calculateAvailableBeds`: the capacity minus the appointments holding a
      bed. Hidden appointments count, duplicates count, nothing is clamped. */
  function AvailableBeds(apps: seq<Appointment>): (r: int)
    ensures TotalBeds - |apps| <= r <= TotalBeds
  {
    TotalBeds - |Filter(apps, HoldsBed)|
  }

  lemma AvailableBedsAppend(apps: seq<Appointment>, a: Appointment)
    ensures AvailableBeds(apps + [a]) == AvailableBeds(apps) - (if HoldsBed(a) then 1 else 0)
  {
    FilterAppend(apps, [a], HoldsBed);
    assert [a][1..] == [];
  }

  /** n copies of a bed-holding appointment leave 12 − n beds, below zero from 13 on. */
  lemma {:induction false} AvailableBedsOfRepeated(a: Appointment, n: nat)
    requires HoldsBed(a)
    ensures AvailableBeds(seq(n, _ => a)) == TotalBeds - n
  {
    if n > 0 {
      AvailableBedsOfRepeated(a, n - 1);
      assert seq(n, _ => a) == seq(n - 1, _ => a) + [a];
      AvailableBedsAppend(seq(n - 1, _ => a), a);
    }
  }

  /** Hiding an appointment does not change the tally. */
  lemma HidingKeepsAvailableBeds(apps: seq<Appointment>, i: nat)
    requires i < |apps|
    ensures AvailableBeds(apps[i := apps[i].(isHidden := Some(true))]) == AvailableBeds(apps)
  {
    FilterCountUpdate(apps, i, apps[i].(isHidden := Some(true)), HoldsBed);
  }

  /** `calculateAvailableBeds` as a state update: it reads the appointments only. */
  function CalculateAvailableBeds(st: DirectoryState): (r: DirectoryState)
    ensures r.(availableBeds := st.availableBeds) == st
    ensures TotalBeds - |st.appointments| <= r.availableBeds <= TotalBeds
    ensures r.availableBeds == AvailableBeds(st.appointments)
    ensures r.availableBeds == TotalBeds - |Filter(st.appointments, HoldsBed)|
  {
    st.(availableBeds := AvailableBeds(st.appointments))
  }

  predicate RoomMatches(info: AdditionalInfo, room: Room) { info.room_id == Some(room.id) }

  predicate BedMatches(info: AdditionalInfo, bed: Bed) { info.bed_id == Some(bed.id) }

  /** Bed j of room i is the one `updateAvailableBeds` touches: the first bed
      with the appointment's bed id in the first room with its room id. */
  predicate IsTargetBed(rooms: seq<Room>, info: AdditionalInfo, i: int, j: int) {
    && 0 <= i < |rooms| && RoomMatches(info, rooms[i])
    && (forall k :: 0 <= k < i ==> !RoomMatches(info, rooms[k]))
    && 0 <= j < |rooms[i].beds| && BedMatches(info, rooms[i].beds[j])
    && (forall k :: 0 <= k < j ==> !BedMatches(info, rooms[i].beds[k]))
  }

  /** Bed j of room i with its occupancy set to v; every other field kept. */
  function SetOccupied(rooms: seq<Room>, i: nat, j: nat, v: bool): (r: seq<Room>)
    requires i < |rooms| && j < |rooms[i].beds|
    ensures |r| == |rooms|
    ensures forall k :: 0 <= k < |rooms| ==>
      r[k].id == rooms[k].id && r[k].name == rooms[k].name && |r[k].beds| == |rooms[k].beds|
    ensures forall k, l :: 0 <= k < |rooms| && 0 <= l < |rooms[k].beds| ==>
      r[k].beds[l].id == rooms[k].beds[l].id &&
      r[k].beds[l].isOccupied == (if k == i && l == j then v else rooms[k].beds[l].isOccupied)
  {
    var room := rooms[i];
    rooms[i := room.(beds := room.beds[j := Bed(room.beds[j].id, v)])]
  }

  /** `updateAvailableBeds(appointment, isFreeing)`: the first bed of the
      first matching room takes `!isFreeing` and, whenever such a bed is
      found, the tally is recomputed. A null `additionalInfo` would make the
      source throw a `TypeError`; the component never calls this method, and
      every record `Normalize` produces has the block, so the precondition
      excludes only that unreachable case. */
  function UpdateAvailableBeds(st: DirectoryState, a: Appointment, isFreeing: bool): (r: DirectoryState)
    requires a.additionalInfo.Some?
    ensures r.(rooms := st.rooms, availableBeds := st.availableBeds) == st
    ensures |r.rooms| == |st.rooms|
    ensures forall i :: 0 <= i < |st.rooms| ==>
      r.rooms[i].id == st.rooms[i].id && r.rooms[i].name == st.rooms[i].name &&
      |r.rooms[i].beds| == |st.rooms[i].beds|
    ensures forall i, j :: 0 <= i < |st.rooms| && 0 <= j < |st.rooms[i].beds| ==>
      r.rooms[i].beds[j].id == st.rooms[i].beds[j].id &&
      r.rooms[i].beds[j].isOccupied ==
        (if IsTargetBed(st.rooms, a.additionalInfo.value, i, j) then !isFreeing
         else st.rooms[i].beds[j].isOccupied)
    ensures (forall i, j :: !IsTargetBed(st.rooms, a.additionalInfo.value, i, j)) ==> r == st
    ensures r != st ==> r.availableBeds == AvailableBeds(st.appointments)
    ensures (exists i, j :: IsTargetBed(st.rooms, a.additionalInfo.value, i, j)) ==>
      r.availableBeds == AvailableBeds(st.appointments)
  {
    var info := a.additionalInfo.value;
    match FindIndex(st.rooms, room => RoomMatches(info, room))
    case None => st
    case Some(i) =>
      var room := st.rooms[i];
      match FindIndex(room.beds, bed => BedMatches(info, bed))
      case None =>
        assert forall i', j :: !IsTargetBed(st.rooms, info, i', j) by {
          forall i', j | IsTargetBed(st.rooms, info, i', j) ensures false {
            assert i' == i;
          }
        }
        st
      case Some(j) =>
        assert IsTargetBed(st.rooms, info, i, j);
        assert forall i', j' :: IsTargetBed(st.rooms, info, i', j') ==> i' == i && j' == j;
        st.(rooms := SetOccupied(st.rooms, i, j, !isFreeing), availableBeds := AvailableBeds(st.appointments))
  }

  // ---------------------------------------------------------------- hiding

  /** `openHideModal` for the record at position i. */
  function OpenHideModal(st: DirectoryState, i: nat): (r: DirectoryState)
    requires i < |st.appointments|
    ensures r.(selected := st.selected, isHideModalOpen := st.isHideModalOpen) == st
    ensures r.isHideModalOpen && r.selected == Some(i)
  {
    st.(selected := Some(i), isHideModalOpen := true)
  }

  function CloseHideModal(st: DirectoryState): (r: DirectoryState)
    ensures r.(selected := st.selected, isHideModalOpen := st.isHideModalOpen) == st
    ensures !r.isHideModalOpen && r.selected.None?
  {
    st.(selected := None, isHideModalOpen := false)
  }

  /** `confirmHide` with the outcome of the visibility request (`accepted`).
      Without a selection, or when the request fails, nothing changes; on
      success the record is flagged hidden, the list shows the visible records
      and the dialog closes. */
  function ConfirmHide(st: DirectoryState, accepted: bool): (r: DirectoryState)
    requires st.selected.Some? ==> st.selected.value < |st.appointments|
    ensures st.selected.None? || !accepted ==> r == st
    ensures st.selected.Some? && accepted ==>
      var i := st.selected.value;
      && |r.appointments| == |st.appointments|
      && IsHidden(r.appointments[i])
      && r.appointments[i].(isHidden := st.appointments[i].isHidden) == st.appointments[i]
      && (forall k :: 0 <= k < |st.appointments| && k != i ==> r.appointments[k] == st.appointments[k])
      && r.appointments[i] !in r.filtered
      && r.filtered == Visible(r.appointments)
      && (forall a :: a in r.filtered <==> a in r.appointments && !IsHidden(a))
      && !r.isHideModalOpen
      && AvailableBeds(r.appointments) == AvailableBeds(st.appointments)
      && r.(appointments := st.appointments, filtered := st.filtered, isHideModalOpen := st.isHideModalOpen) == st
  {
    if st.selected.None? || !accepted then st
    else
      var i := st.selected.value;
      var apps := st.appointments[i := st.appointments[i].(isHidden := Some(true))];
      HidingKeepsAvailableBeds(st.appointments, i);
      st.(appointments := apps, filtered := Visible(apps), isHideModalOpen := false)
  }
}

=== FILE: editor.dfy ===
/** The appointment editor (`EditListComponent`): which beds are taken, the
    bed list of the chosen room, the three-step wizard, loading one
    appointment and saving it back. HTTP calls are outputs (`Effect`) and
    their answers inputs. */
module Editor {
  import opened Options
  import opened Text
  import opened Seqs
  import opened AppointmentModel
  import Directory

  /** An `occupiedBeds` entry: the bed and the name of who holds it. */
  datatype OccupiedBed = OccupiedBed(bedId: int, occupantName: string)

  /** A bed as the bed service lists it. */
  datatype BedRow = BedRow(id: int, bed_number: string)

  /** A `filteredBeds` entry: the row plus availability and occupant. */
  datatype MergedBed = MergedBed(id: int, bed_number: string, is_available: bool, occupantName: string)

  /** The `occupiedBeds` entry of an appointment that holds a bed. */
  function Occupancy(a: Appointment): (e: OccupiedBed)
    requires HoldsBed(a)
    ensures e.bedId == a.additionalInfo.value.bed_id.value
    ensures e.occupantName == a.name + " " + a.last_name
  {
    OccupiedBed(a.additionalInfo.value.bed_id.value, a.name + " " + a.last_name)
  }

  /** `loadOccupiedBeds`: one entry per appointment holding a bed, in list
      order; hidden appointments are not skipped. */
  function OccupiedBeds(apps: seq<Appointment>): (r: seq<OccupiedBed>)
    ensures |r| <= |apps|
    ensures forall k :: 0 <= k < |apps| && HoldsBed(apps[k]) ==> Occupancy(apps[k]) in r
    ensures forall e :: e in r ==> exists k :: 0 <= k < |apps| && HoldsBed(apps[k]) && e == Occupancy(apps[k])
    ensures EntriesFollow(Filter(apps, HoldsBed), r)
    ensures Directory.AvailableBeds(apps) == Directory.TotalBeds - |r|
  {
    if apps == [] then []
    else
      var rest := OccupiedBeds(apps[1..]);
      var r := (if HoldsBed(apps[0]) then [Occupancy(apps[0])] else []) + rest;
      OccupiedBedsStep(apps, rest, r);
      OccupiedBedsMembersStep(apps, rest, r);
      r
  }

  /** Every bed holder has an entry and every entry has a bed holder. */
  predicate EntriesMatch(apps: seq<Appointment>, r: seq<OccupiedBed>) {
    && (forall k :: 0 <= k < |apps| && HoldsBed(apps[k]) ==> Occupancy(apps[k]) in r)
    && (forall e :: e in r ==> exists k :: 0 <= k < |apps| && HoldsBed(apps[k]) && e == Occupancy(apps[k]))
  }

  lemma OccupiedBedsMembersStep(apps: seq<Appointment>, rest: seq<OccupiedBed>, r: seq<OccupiedBed>)
    requires apps != []
    requires EntriesMatch(apps[1..], rest)
    requires r == (if HoldsBed(apps[0]) then [Occupancy(apps[0])] else []) + rest
    ensures EntriesMatch(apps, r)
  {
    assert forall k :: 1 <= k < |apps| ==> apps[k] == apps[1..][k - 1];
    forall e | e in r ensures exists k :: 0 <= k < |apps| && HoldsBed(apps[k]) && e == Occupancy(apps[k]) {
      if e !in rest {
        assert HoldsBed(apps[0]) && e == Occupancy(apps[0]);
      } else {
        var k :| 0 <= k < |apps[1..]| && HoldsBed(apps[1..][k]) && e == Occupancy(apps[1..][k]);
        assert apps[k + 1] == apps[1..][k];
      }
    }
  }

  /** The k-th entry is the occupancy of the k-th appointment in `kept`. */
  predicate EntriesFollow(kept: seq<Appointment>, r: seq<OccupiedBed>) {
    |r| == |kept| && forall k :: 0 <= k < |r| ==> HoldsBed(kept[k]) && r[k] == Occupancy(kept[k])
  }

  /** One step of `OccupiedBeds`: putting the head's entry, if any, in front of
      the tail's entries follows the filtered list. */
  lemma OccupiedBedsStep(apps: seq<Appointment>, rest: seq<OccupiedBed>, r: seq<OccupiedBed>)
    requires apps != []
    requires EntriesFollow(Filter(apps[1..], HoldsBed), rest)
    requires r == (if HoldsBed(apps[0]) then [Occupancy(apps[0])] else []) + rest
    ensures EntriesFollow(Filter(apps, HoldsBed), r)
  {
    var kept := Filter(apps, HoldsBed);
    var keptRest := Filter(apps[1..], HoldsBed);
    if HoldsBed(apps[0]) {
      assert kept == [apps[0]] + keptRest;
      forall k | 0 <= k < |r| ensures HoldsBed(kept[k]) && r[k] == Occupancy(kept[k]) {
        if k > 0 {
          assert r[k] == rest[k - 1] && kept[k] == keptRest[k - 1];
        }
      }
    } else {
      assert kept == keptRest && r == rest;
    }
  }

  /** Hiding an appointment does not free its bed in the editor's view. */
  lemma OccupiedBedsIgnoreHiding(apps: seq<Appointment>, i: nat, flag: Option<bool>)
    requires i < |apps|
    ensures OccupiedBeds(apps[i := apps[i].(isHidden := flag)]) == OccupiedBeds(apps)
  {
    OccupiedBedsIgnoreHidingFrom(apps, i, flag);
  }

  lemma {:induction false} OccupiedBedsIgnoreHidingFrom(apps: seq<Appointment>, i: nat, flag: Option<bool>)
    requires i < |apps|
    ensures OccupiedBeds(apps[i := apps[i].(isHidden := flag)]) == OccupiedBeds(apps)
  {
    var b := apps[i := apps[i].(isHidden := flag)];
    if i == 0 {
      assert b[1..] == apps[1..];
    } else {
      assert b[1..] == apps[1..][i - 1 := apps[i].(isHidden := flag)];
      OccupiedBedsIgnoreHidingFrom(apps[1..], i - 1, flag);
    }
  }

  /** A single appointment holding a bed gives exactly one entry. */
  lemma SingleHolderGivesOneEntry(a: Appointment)
    requires HoldsBed(a)
    ensures OccupiedBeds([a]) == [Occupancy(a)]
  {
    assert [a][1..] == [];
  }

  /** `occupiedBeds.find(o => o.bedId === id)`. */
  function FindOccupant(occ: seq<OccupiedBed>, id: int): (r: Option<OccupiedBed>)
    ensures r.None? <==> forall k :: 0 <= k < |occ| ==> occ[k].bedId != id
    ensures r.Some? ==> r.value.bedId == id
    ensures r.Some? ==> exists k :: (0 <= k < |occ| && occ[k] == r.value &&
                                     forall j :: 0 <= j < k ==> occ[j].bedId != id)
  {
    match FindIndex(occ, (o: OccupiedBed) => o.bedId == id)
    case None => None
    case Some(k) => Some(occ[k])
  }

  /** The `loadBeds` callback: every row keeps its id and number, is available
      iff nobody occupies it, and names its first occupant (or ""). */
  function MergeBeds(occ: seq<OccupiedBed>, rows: seq<BedRow>): (r: seq<MergedBed>)
    ensures |r| == |rows|
    ensures forall k :: 0 <= k < |rows| ==> r[k].id == rows[k].id && r[k].bed_number == rows[k].bed_number
    ensures forall k :: 0 <= k < |rows| ==>
      (r[k].is_available <==> forall e :: e in occ ==> e.bedId != rows[k].id)
    ensures forall k :: 0 <= k < |rows| ==>
      r[k].occupantName == (match FindOccupant(occ, rows[k].id) case None => "" case Some(o) => o.occupantName)
  {
    seq(|rows|, k requires 0 <= k < |rows| =>
      var found := FindOccupant(occ, rows[k].id);
      MergedBed(rows[k].id, rows[k].bed_number, found.None?,
                match found case None => "" case Some(o) => o.occupantName))
  }

  /** Composed with `loadOccupiedBeds`: a bed is offered as free exactly when
      no appointment, hidden or not, holds it. */
  lemma MergedAvailability(apps: seq<Appointment>, rows: seq<BedRow>, k: nat)
    requires k < |rows|
    ensures MergeBeds(OccupiedBeds(apps), rows)[k].is_available <==>
      forall i :: 0 <= i < |apps| && HoldsBed(apps[i]) ==> apps[i].additionalInfo.value.bed_id.value != rows[k].id
  {
    var occ := OccupiedBeds(apps);
    if !MergeBeds(occ, rows)[k].is_available {
      var e :| e in occ && e.bedId == rows[k].id;
      var i :| 0 <= i < |apps| && HoldsBed(apps[i]) && e == Occupancy(apps[i]);
    }
  }

  // ---------------------------------------------------------------- wizard

  /** `isStepValid`. */
  predicate IsStepValid(step: int) { 0 < step <= 3 }

  /** `nextStep`: `formValid` is the template form's validity. */
  function NextStep(current: int, formValid: bool): (r: int)
    ensures !formValid || current >= 3 ==> r == current
    ensures formValid && current < 3 ==> r == current + 1
    ensures r >= current
  {
    if formValid && current < 3 then current + 1 else current
  }

  function PrevStep(current: int): (r: int)
    ensures current > 1 ==> r == current - 1
    ensures current <= 1 ==> r == current
    ensures r <= current
  {
    if current > 1 then current - 1 else current
  }

  /** The wizard buttons; `GoTo` is `goToStep`, which checks nothing. */
  datatype StepAction = Next(formValid: bool) | Prev | GoTo(step: int)

  function RunSteps(current: int, actions: seq<StepAction>): int
    decreases |actions|
  {
    if actions == [] then current
    else
      var next := match actions[0]
        case Next(v) => NextStep(current, v)
        case Prev => PrevStep(current)
        case GoTo(s) => s;
      RunSteps(next, actions[1..])
  }

  /** Next and Prev alone keep the wizard on steps 1 to 3. */
  lemma {:induction false} StepsStayInRange(current: int, actions: seq<StepAction>)
    requires IsStepValid(current)
    requires forall k :: 0 <= k < |actions| ==> !actions[k].GoTo?
    ensures IsStepValid(RunSteps(current, actions))
    decreases |actions|
  {
    if actions != [] {
      var next := if actions[0].Next? then NextStep(current, actions[0].formValid) else PrevStep(current);
      assert IsStepValid(next);
      StepsStayInRange(next, actions[1..]);
    }
  }

  /** `goToStep` can leave the range. */
  lemma GoToIsUnchecked(current: int, s: int)
    ensures RunSteps(current, [GoTo(s)]) == s
  {
    assert [GoTo(s)][1..] == [];
  }

  /** A valid Next from step 1 or 2 is undone by Prev. */
  lemma NextThenPrev(current: int)
    requires 1 <= current < 3
    ensures RunSteps(current, [Next(true), Prev]) == current
  {
    assert [Next(true), Prev][1..] == [Prev];
    assert [Prev][1..] == [];
  }

  // ---------------------------------------------------------------- state

  /** A request the component issues, or a navigation. */
  datatype Effect =
    | NoEffect
    | Navigate(path: string)
    | FetchAppointment(id: int)
    | FetchBeds(roomId: int)
    | SendUpdate(id: int, payload: Appointment)

  datatype EditorState = EditorState(
    appointment: Appointment,
    occupied: seq<OccupiedBed>,
    filteredBeds: seq<MergedBed>,
    currentStep: int,
    isLoading: bool,
    isSaving: bool,
    showModal: bool,
    modalMessage: string,
    errorMessage: string)

  /** The editor always holds an `additionalInfo` block: the blank appointment
      starts with one and loading substitutes one for `null`. */
  predicate Ready(st: EditorState) { st.appointment.additionalInfo.Some? }

  datatype Transition = Transition(state: EditorState, effect: Effect)

  const AuthRequiredMessage := "Autenticação necessária. Faça login novamente."
  const LoadErrorMessage := "Erro ao carregar os dados do agendamento."
  const MissingIdMessage := "Erro interno: ID do agendamento não encontrado."
  const UpdatedMessage := "Agendamento atualizado com sucesso!"
  const UpdateErrorMessage := "Erro ao atualizar o agendamento. Tente novamente mais tarde."

  /** `ngOnInit`: the route's `id` parameter, read with `Number`, triggers a
      load when it is a non-zero number. `ngOnInit` also starts the
      states, rooms, nationalities and occupied-beds requests whatever the
      id; the occupied-beds answer is `OnOccupiedLoaded`, the other lists are
      not modelled, and only the appointment fetch is the returned effect. */
  function OnInit(st: EditorState, idParam: string, token: Option<string>): (t: Transition)
    ensures ToNumber(idParam).None? || ToNumber(idParam) == Some(0) ==> t == Transition(st, NoEffect)
    ensures ToNumber(idParam).Some? && ToNumber(idParam).value != 0 ==>
      t == StartLoad(st, ToNumber(idParam).value, token)
  {
    match ToNumber(idParam)
    case None => Transition(st, NoEffect)
    case Some(n) => if n == 0 then Transition(st, NoEffect) else StartLoad(st, n, token)
  }

  /** `loadAppointment` up to the request. Without a token the loading flag is
      left raised and the user is sent to the login page. */
  function StartLoad(st: EditorState, id: int, token: Option<string>): (t: Transition)
    ensures t.state.isLoading
    ensures token.None? || token.value == "" ==>
      t == Transition(st.(isLoading := true, errorMessage := AuthRequiredMessage), Navigate("/login"))
    ensures token.Some? && token.value != "" ==> t == Transition(st.(isLoading := true), FetchAppointment(id))
  {
    if token.None? || token.value == "" then
      Transition(st.(isLoading := true, errorMessage := AuthRequiredMessage), Navigate("/login"))
    else Transition(st.(isLoading := true), FetchAppointment(id))
  }

  /** The answer to the appointment request: a body (possibly `null`) or an error. */
  datatype LoadResponse = Loaded(body: Option<Appointment>) | LoadFailed

  /** The load callbacks; the loading flag drops in every case. */
  function OnLoaded(st: EditorState, resp: LoadResponse): (r: EditorState)
    ensures !r.isLoading
    ensures resp.LoadFailed? ==> r == st.(isLoading := false)
    ensures resp.Loaded? && resp.body.None? ==> r == st.(isLoading := false, errorMessage := LoadErrorMessage)
    ensures resp.Loaded? && resp.body.Some? ==>
      && Ready(r)
      && r.appointment.(additionalInfo := resp.body.value.additionalInfo) == resp.body.value
      && (resp.body.value.additionalInfo.Some? ==> r.appointment == resp.body.value)
      && (resp.body.value.additionalInfo.None? ==> r.appointment.additionalInfo == Some(EditorDefaultInfo))
      && r.(appointment := st.appointment) == st.(isLoading := false)
  {
    match resp
    case LoadFailed => st.(isLoading := false)
    case Loaded(body) =>
      match body
      case None => st.(isLoading := false, errorMessage := LoadErrorMessage)
      case Some(a) =>
        var info := if a.additionalInfo.Some? then a.additionalInfo else Some(EditorDefaultInfo);
        st.(appointment := a.(additionalInfo := info), isLoading := false)
  }

  /** A loaded appointment arrives with its bed and room unassigned when the
      server sent no details. */
  lemma LoadedDefaultsUnassigned(st: EditorState, a: Appointment)
    requires a.additionalInfo.None?
    ensures var r := OnLoaded(st, Loaded(Some(a)));
      r.appointment.additionalInfo.value.room_id.None? && r.appointment.additionalInfo.value.bed_id.None? &&
      r.appointment.additionalInfo.value.stay_duration == Some(0) &&
      r.appointment.additionalInfo.value.nationality == "Brasileiro" &&
      !HoldsBed(r.appointment)
  {
  }

  /** The answer to `getAppointments` during `loadOccupiedBeds`: the entries are
      rebuilt and, when a room is already chosen, its beds are requested. */
  function OnOccupiedLoaded(st: EditorState, apps: seq<Appointment>): (t: Transition)
    requires Ready(st)
    ensures t.state == st.(occupied := OccupiedBeds(apps))
    ensures TruthyId(st.appointment.additionalInfo.value.room_id) <==> t.effect.FetchBeds?
    ensures t.effect.FetchBeds? ==> t.effect.roomId == st.appointment.additionalInfo.value.room_id.value
    ensures !t.effect.FetchBeds? ==> t.effect.NoEffect?
  {
    var st1 := st.(occupied := OccupiedBeds(apps));
    var room := st.appointment.additionalInfo.value.room_id;
    if TruthyId(room) then Transition(st1, FetchBeds(room.value)) else Transition(st1, NoEffect)
  }

  /** The answer to `getBedsByRoomId`. */
  function OnBedsLoaded(st: EditorState, rows: seq<BedRow>): (r: EditorState)
    ensures r.(filteredBeds := st.filteredBeds) == st
    ensures r.filteredBeds == MergeBeds(st.occupied, rows)
    ensures forall k :: 0 <= k < |rows| ==>
      r.filteredBeds[k].id == rows[k].id && r.filteredBeds[k].bed_number == rows[k].bed_number &&
      r.filteredBeds[k].occupantName == (match FindOccupant(st.occupied, rows[k].id)
                                         case Some(o) => o.occupantName
                                         case None => "")
    ensures |r.filteredBeds| == |rows|
    ensures forall k :: 0 <= k < |rows| ==>
      (r.filteredBeds[k].is_available <==> FindOccupant(st.occupied, rows[k].id).None?)
  {
    st.(filteredBeds := MergeBeds(st.occupied, rows))
  }

  /** `onRoomChange`: the select's value read with `Number`; 0 or NaN is
      ignored, any other number becomes the room and its beds are requested. */
  function OnRoomChange(st: EditorState, value: string): (t: Transition)
    requires Ready(st)
    ensures ToNumber(value).None? || ToNumber(value) == Some(0) ==> t == Transition(st, NoEffect)
    ensures ToNumber(value).Some? && ToNumber(value).value != 0 ==>
      var n := ToNumber(value).value;
      && t.effect == FetchBeds(n)
      && Ready(t.state)
      && t.state.appointment.additionalInfo.value == st.appointment.additionalInfo.value.(room_id := Some(n))
      && t.state.(appointment := st.appointment) == st
      && t.state.appointment.(additionalInfo := st.appointment.additionalInfo) == st.appointment
  {
    match ToNumber(value)
    case None => Transition(st, NoEffect)
    case Some(n) =>
      if n == 0 then Transition(st, NoEffect)
      else
        var info := st.appointment.additionalInfo.value.(room_id := Some(n));
        Transition(st.(appointment := st.appointment.(additionalInfo := Some(info))), FetchBeds(n))
  }

  /** Choosing the placeholder option, whose value is empty, keeps the room. */
  lemma RoomChangeIgnoresPlaceholder(st: EditorState)
    requires Ready(st)
    ensures OnRoomChange(st, "") == Transition(st, NoEffect)
  {
    assert Trim("") == "";
  }

  /** `onSubmit` up to the request: a zero id opens the error modal and sends
      nothing; otherwise the appointment is sent with `isHidden` forced to false. */
  function OnSubmit(st: EditorState): (t: Transition)
    requires Ready(st)
    ensures st.appointment.id == 0 ==>
      t == Transition(st.(modalMessage := MissingIdMessage, showModal := true), NoEffect)
    ensures st.appointment.id != 0 ==>
      && t.state == st.(isSaving := true, showModal := false, modalMessage := "")
      && t.effect.SendUpdate? && t.effect.id == st.appointment.id
      && !IsHidden(t.effect.payload) && t.effect.payload.isHidden == Some(false)
      && t.effect.payload.(isHidden := st.appointment.isHidden) == st.appointment
  {
    if st.appointment.id == 0 then
      Transition(st.(modalMessage := MissingIdMessage, showModal := true), NoEffect)
    else
      var info := st.appointment.additionalInfo.value;
      var payload := st.appointment.(isHidden := Some(false), additionalInfo := Some(info.(exit_date := info.exit_date)));
      Transition(st.(isSaving := true, showModal := false, modalMessage := ""), SendUpdate(st.appointment.id, payload))
  }

  /** Saving a hidden appointment from the editor makes it visible again in the
      directory. */
  lemma SubmitUnhides(st: EditorState)
    requires Ready(st) && st.appointment.id != 0
    ensures var p := OnSubmit(st).effect.payload;
      Directory.Visible([p]) == [p]
  {
    var p := OnSubmit(st).effect.payload;
    assert [p][1..] == [];
  }

  /** The error text: the server's message for a 422 that carries a non-empty
      one, otherwise the generic text. */
  function UpdateErrorText(status: int, message: Option<string>): (r: string)
    ensures r != ""
    ensures status == 422 && message.Some? && message.value != "" ==> r == message.value
    ensures status != 422 || message.None? || message.value == "" ==> r == UpdateErrorMessage
  {
    if status == 422 && message.Some? && message.value != "" then message.value else UpdateErrorMessage
  }

  /** The answer to the update request. */
  datatype UpdateResponse = Updated | UpdateFailed(status: int, message: Option<string>)

  /** The update callbacks; `finalize` lowers the saving flag either way. */
  function OnUpdated(st: EditorState, resp: UpdateResponse): (t: Transition)
    ensures !t.state.isSaving && t.state.showModal
    ensures t.state.(isSaving := st.isSaving, showModal := st.showModal, modalMessage := st.modalMessage) == st
    ensures resp.Updated? ==> t.state.modalMessage == UpdatedMessage && t.effect == Navigate("/appointments-list")
    ensures resp.UpdateFailed? ==> t.state.modalMessage == UpdateErrorText(resp.status, resp.message) && t.effect.NoEffect?
  {
    match resp
    case Updated =>
      Transition(st.(showModal := true, modalMessage := UpdatedMessage, isSaving := false), Navigate("/appointments-list"))
    case UpdateFailed(status, message) =>
      Transition(st.(modalMessage := UpdateErrorText(status, message), showModal := true, isSaving := false), NoEffect)
  }

  /** A failed save never shows the success text unless the server itself sent
      it with a 422. */
  lemma FailedUpdateIsNotSuccess(st: EditorState, status: int, message: Option<string>)
    requires status != 422 || message != Some(UpdatedMessage)
    ensures OnUpdated(st, UpdateFailed(status, message)).state.modalMessage != UpdatedMessage
  {
  }

  /** `updateAppointment`: with a zero id no request is made; otherwise the
      appointment is sent as it is. */
  function UpdateAppointment(st: EditorState): (e: Effect)
    ensures st.appointment.id == 0 <==> e.NoEffect?
    ensures st.appointment.id != 0 ==> e == SendUpdate(st.appointment.id, st.appointment)
  {
    if st.appointment.id == 0 then NoEffect else SendUpdate(st.appointment.id, st.appointment)
  }
}

=== FILE: formatters.dfy ===
/** The display formatters: word capitalisation (`formatName` of the intake
    form, `formatString` of the directory and the editor, `capitalizeFirstLetter`
    of the navigation bar), `formatLabel`, `formatCpf` and `formatPhoneNumber`. */
module Formatters {
  import opened Options
  import opened Text
  import Seqs
  import Cpf
  import Forms

  // ---------------------------------------------------------------- words

  /** What capitalising the words of s between `sep` characters, and joining
      them with `joiner`, puts at position k. */
  function WordCaseAt(s: string, sep: char, joiner: char, k: nat): char
    requires k < |s|
  {
    if s[k] == sep then joiner
    else if k == 0 || s[k - 1] == sep then UpperChar(s[k])
    else LowerChar(s[k])
  }

  /** `s.split(sep).map(w => w.charAt(0).toUpperCase() + w.slice(1).toLowerCase()).join(joiner)`. */
  function CapitalizeWords(s: string, sep: char, joiner: char): (r: string)
    ensures |r| == |s|
    ensures forall k :: 0 <= k < |s| ==> r[k] == WordCaseAt(s, sep, joiner, k)
    decreases |s|
  {
    match IndexOfChar(s, sep)
    case None =>
      var r := Capitalize(s);
      assert forall k :: 0 <= k < |s| ==> r[k] == WordCaseAt(s, sep, joiner, k) by {
        forall k | 0 <= k < |s| ensures r[k] == WordCaseAt(s, sep, joiner, k) {
          assert s[k] != sep;
          if k > 0 { assert s[k - 1] != sep; }
        }
      }
      r
    case Some(i) =>
      var head := Capitalize(s[..i]);
      var tail := s[i + 1..];
      var rest := CapitalizeWords(tail, sep, joiner);
      var r := head + [joiner] + rest;
      assert forall k :: 0 <= k < |s| ==> r[k] == WordCaseAt(s, sep, joiner, k) by {
        forall k | 0 <= k < |s| ensures r[k] == WordCaseAt(s, sep, joiner, k) {
          if k < i {
            assert r[k] == head[k] && s[k] == s[..i][k] && s[k] != sep;
            if k > 0 { assert s[k - 1] == s[..i][k - 1] && s[k - 1] != sep; }
          } else if k > i {
            assert r[k] == rest[k - i - 1] && s[k] == tail[k - i - 1];
            if k > i + 1 { assert s[k - 1] == tail[k - i - 2]; }
          }
        }
      }
      r
  }

  /** A word without separator followed by a separator: the word is
      capitalised on its own and the rest independently. */
  lemma CapitalizeWordsCons(w: string, sep: char, joiner: char, t: string)
    requires sep !in w
    ensures CapitalizeWords(w + [sep] + t, sep, joiner) == Capitalize(w) + [joiner] + CapitalizeWords(t, sep, joiner)
  {
    var s := w + [sep] + t;
    var i := IndexOfChar(s, sep);
    assert s[|w|] == sep;
    assert i == Some(|w|);
    assert s[..|w|] == w && s[|w| + 1..] == t;
  }

  /** Without a separator the whole text is one word. */
  lemma CapitalizeWordsSingle(w: string, sep: char, joiner: char)
    requires sep !in w
    ensures CapitalizeWords(w, sep, joiner) == Capitalize(w)
  {
  }

  /** The capitalisation is exactly the split / map / join pipeline of the source. */
  lemma {:induction false} CapitalizeWordsIsPipeline(s: string, sep: char, joiner: char)
    ensures CapitalizeWords(s, sep, joiner) == Join(Seqs.Map(Split(s, sep), Capitalize), joiner)
    decreases |s|
  {
    match IndexOfChar(s, sep)
    case None =>
    case Some(i) =>
      var rest := Split(s[i + 1..], sep);
      CapitalizeWordsIsPipeline(s[i + 1..], sep, joiner);
      var m := Seqs.Map(Split(s, sep), Capitalize);
      assert Split(s, sep) == [s[..i]] + rest;
      assert m[1..] == Seqs.Map(rest, Capitalize);
      assert |m| >= 2;
  }

  /** `formatName`: every space-separated word capitalised, spaces kept. */
  function FormatName(v: string): (r: string)
    ensures |r| == |v|
    ensures forall k :: 0 <= k < |v| ==> (r[k] == ' ' <==> v[k] == ' ')
    ensures forall k :: 0 <= k < |v| && v[k] != ' ' && (k == 0 || v[k - 1] == ' ') ==>
      r[k] == UpperChar(v[k]) && !IsLowerAscii(r[k])
    ensures forall k :: 0 < k < |v| && v[k] != ' ' && v[k - 1] != ' ' ==>
      r[k] == LowerChar(v[k]) && !IsUpperAscii(r[k])
  {
    CapitalizeWords(v, ' ', ' ')
  }

  lemma FormatNameIdempotent(v: string)
    ensures FormatName(FormatName(v)) == FormatName(v)
  {
    var r := FormatName(v);
    var rr := FormatName(r);
    forall k | 0 <= k < |v| ensures rr[k] == r[k] {
      if v[k] != ' ' && (k == 0 || v[k - 1] == ' ') {
        assert r[k] != ' ' && (k == 0 || r[k - 1] == ' ');
      } else if v[k] != ' ' {
        assert r[k] != ' ' && r[k - 1] != ' ';
      }
    }
  }

  /** Three words separated by single separators are capitalised one by one. */
  lemma CapitalizeThreeWords(a: string, b: string, c: string, sep: char)
    requires sep !in a && sep !in b && sep !in c
    ensures CapitalizeWords(a + [sep] + (b + [sep] + c), sep, sep) ==
      Capitalize(a) + [sep] + (Capitalize(b) + [sep] + Capitalize(c))
  {
    CapitalizeWordsSingle(c, sep, sep);
    CapitalizeWordsCons(b, sep, sep, c);
    CapitalizeWordsCons(a, sep, sep, b + [sep] + c);
  }

  lemma CapitalizeLiteral(w: string, u: string)
    requires (w == "joão" && u == "João") || (w == "da" && u == "Da") || (w == "silva" && u == "Silva")
    ensures Capitalize(w) == u
  {
  }

  /** The intake form test's example: "joão da silva" becomes "João Da Silva". */
  lemma FormatNameExample(v: string)
    requires v == "joão da silva"
    ensures FormatName(v) == "João Da Silva"
  {
    assert v == "joão" + [' '] + ("da" + [' '] + "silva");
    assert "João" + [' '] + ("Da" + [' '] + "Silva") == "João Da Silva";
    CapitalizeThreeWords("joão", "da", "silva", ' ');
    CapitalizeLiteral("joão", "João");
    CapitalizeLiteral("da", "Da");
    CapitalizeLiteral("silva", "Silva");
  }

  /** And a single word "souza" becomes "Souza". */
  lemma FormatNameSingleWord(v: string)
    requires v == "souza"
    ensures FormatName(v) == "Souza"
  {
    assert Capitalize(v) == "Souza";
  }

  /** `formatString`: "" stays ""; otherwise the `_`-separated words are
      capitalised and joined with spaces. */
  function FormatString(v: string): (r: string)
    ensures |r| == |v|
    ensures '_' !in r
    ensures forall k :: 0 <= k < |v| ==> (v[k] == '_' ==> r[k] == ' ')
    ensures forall k :: 0 <= k < |v| && v[k] != '_' && (k == 0 || v[k - 1] == '_') ==> r[k] == UpperChar(v[k])
    ensures forall k :: 0 < k < |v| && v[k] != '_' && v[k - 1] != '_' ==> r[k] == LowerChar(v[k])
  {
    if v == "" then ""
    else
      var r := CapitalizeWords(v, '_', ' ');
      assert forall k :: 0 <= k < |r| ==> r[k] != '_';
      r
  }

  /** On text without spaces, `formatString` is `formatName` after turning
      underscores into spaces. */
  lemma FormatStringIsFormatNameOfSpaced(v: string)
    requires ' ' !in v
    ensures FormatString(v) == FormatName(ReplaceAllChar(v, '_', ' '))
  {
    var t := ReplaceAllChar(v, '_', ' ');
    var a, b := FormatString(v), FormatName(t);
    forall k | 0 <= k < |v| ensures a[k] == b[k] {
      assert v[k] != ' ';
      if v[k] == '_' {
        assert t[k] == ' ';
      } else {
        assert t[k] == v[k];
        if k > 0 {
          assert v[k - 1] != ' ';
          assert t[k - 1] == ' ' <==> v[k - 1] == '_';
        }
      }
    }
  }

  /** `formatLabel`: "" gives "Não informado"; otherwise underscores become
      spaces and every word character that follows a non-word character (or
      starts the text) is upper-cased (`replace(/\b\w/g, …)`). The effect on
      each character is stated by `FormatLabelAt`. */
  function FormatLabel(v: string): (r: string)
    ensures v == "" ==> r == "Não informado"
    ensures v != "" ==> |r| == |v|
  {
    if v == "" then "Não informado"
    else
      var t := ReplaceAllChar(v, '_', ' ');
      seq(|t|, k requires 0 <= k < |t| =>
        if IsWordChar(t[k]) && (k == 0 || !IsWordChar(t[k - 1])) then UpperChar(t[k]) else t[k])
  }

  /** Character k of a formatted label: an underscore becomes a space; a word
      character that starts a word (the text begins, or the previous input
      character is an underscore or no word character) is upper-cased; every
      other character is kept. The word characters of the result are those of
      the input, minus the underscores. */
  lemma FormatLabelAt(v: string, k: nat)
    requires k < |v|
    ensures var r := FormatLabel(v);
      var start := k == 0 || v[k - 1] == '_' || !IsWordChar(v[k - 1]);
      && (v[k] == '_' ==> r[k] == ' ')
      && (v[k] != '_' && IsWordChar(v[k]) && start ==> r[k] == UpperChar(v[k]))
      && (v[k] != '_' && !(IsWordChar(v[k]) && start) ==> r[k] == v[k])
      && (IsWordChar(r[k]) <==> v[k] != '_' && IsWordChar(v[k]))
  {
    var t := ReplaceAllChar(v, '_', ' ');
    assert t[k] == (if v[k] == '_' then ' ' else v[k]);
    if k > 0 {
      assert t[k - 1] == (if v[k - 1] == '_' then ' ' else v[k - 1]);
    }
  }

  /** On lower-case ASCII snake_case keys `formatLabel` and `formatString` agree. */
  lemma FormatLabelAgreesOnSnakeCase(v: string)
    requires v != ""
    requires forall k :: 0 <= k < |v| ==> IsLowerAscii(v[k]) || v[k] == '_'
    ensures FormatLabel(v) == FormatString(v)
  {
    var a, b := FormatLabel(v), FormatString(v);
    forall k | 0 <= k < |v| ensures a[k] == b[k] {
      FormatLabelAt(v, k);
      if v[k] != '_' {
        assert LowerChar(v[k]) == v[k];
      }
    }
  }

  /** A non-ASCII letter is not a word character, so the letter after it counts
      as a word start: "ação" becomes "AçãO". */
  lemma FormatLabelAfterAccent(v: string)
    requires v == "ação"
    ensures FormatLabel(v) == "AçãO"
  {
    var r := FormatLabel(v);
    forall k | 0 <= k < 4 ensures r[k] == "AçãO"[k] {
      FormatLabelAt(v, k);
    }
  }

  /** `capitalizeFirstLetter`. */
  function CapitalizeFirstLetter(s: string): (r: string)
    ensures |r| == |s|
    ensures |s| > 0 ==> r[0] == UpperChar(s[0]) && !IsLowerAscii(r[0])
    ensures forall k :: 1 <= k < |s| ==> r[k] == LowerChar(s[k]) && !IsUpperAscii(r[k])
  {
    Capitalize(s)
  }

  /** A name without spaces is capitalised the same way by the navigation bar
      and by the intake form. */
  lemma CapitalizeFirstLetterIsFormatName(s: string)
    requires ' ' !in s
    ensures CapitalizeFirstLetter(s) == FormatName(s)
  {
    var a, b := CapitalizeFirstLetter(s), FormatName(s);
    forall k | 0 <= k < |s| ensures a[k] == b[k] {
      assert s[k] != ' ';
      if k > 0 { assert s[k - 1] != ' '; }
    }
  }

  // ---------------------------------------------------------------- cpf / phone

  /** `formatCpf`: "" unless the value has exactly 11 characters. The pattern
      `(\d{3})(\d{3})(\d{3})(\d{2})` needs 11 consecutive digits, so on 11
      characters it matches only an all-digit value; anything else is returned
      unchanged. */
  function FormatCpf(cpf: Option<string>): (r: string)
    ensures cpf.None? || |cpf.value| != 11 ==> r == ""
    ensures cpf.Some? && |cpf.value| == 11 && !AllDigits(cpf.value) ==> r == cpf.value
    ensures cpf.Some? && |cpf.value| == 11 && AllDigits(cpf.value) ==>
      && |r| == 14 && r[3] == '.' && r[7] == '.' && r[11] == '-'
      && Cpf.DigitsOnly(r) == cpf.value
  {
    if cpf.None? || |cpf.value| != 11 then ""
    else
      var c := cpf.value;
      if !AllDigits(c) then c
      else
        var r := c[..3] + "." + c[3..6] + "." + c[6..9] + "-" + c[9..];
        Cpf.StripsPieces(c[..3], c[3..6], c[6..9], c[9..]);
        assert c[..3] + c[3..6] + c[6..9] + c[9..] == c;
        r
  }

  /** Formatting a CPF does not change the validator's verdict on it. */
  lemma FormatCpfKeepsVerdict(c: string)
    requires |c| == 11 && AllDigits(c)
    ensures Cpf.Verdict(Some(FormatCpf(Some(c)))) == Cpf.Verdict(Some(c))
  {
    var r := FormatCpf(Some(c));
    Cpf.VerdictOfStripped(r);
    Cpf.DigitsOnlyOfDigits(c);
  }

  /** `formatPhoneNumber`: "" below ten characters; otherwise "(DD) P-SSSS"
      with the first two characters, a middle part of 5 characters for an
      11-character value and 4 otherwise, and the last four characters. */
  function FormatPhoneNumber(phone: Option<string>): (r: string)
    ensures phone.None? || |phone.value| < 10 ==> r == ""
    ensures phone.Some? && |phone.value| >= 10 ==>
      var p := phone.value;
      var n := if |p| == 11 then 5 else 4;
      && |r| == 10 + n
      && r[0] == '(' && r[1..3] == p[..2] && r[3] == ')' && r[4] == ' '
      && r[5..5 + n] == p[2..2 + n] && r[5 + n] == '-' && r[6 + n..] == p[|p| - 4..]
  {
    if phone.None? || |phone.value| < 10 then ""
    else
      var p := phone.value;
      var prefix := if |p| == 11 then p[2..7] else p[2..6];
      "(" + p[..2] + ") " + prefix + "-" + p[|p| - 4..]
  }

  /** For 10 and 11 characters the punctuation can be removed again to give the
      input back, so no character is lost or reordered. */
  lemma FormatPhoneNumberRoundTrip(p: string)
    requires |p| == 10 || |p| == 11
    ensures var r := FormatPhoneNumber(Some(p));
      var n := |p| - 6;
      r[1..3] + r[5..5 + n] + r[6 + n..] == p
  {
    var n := |p| - 6;
    assert p == p[..2] + p[2..2 + n] + p[|p| - 4..];
  }

  /** An eleven-digit number, formatted by the directory, passes the intake
      form's phone pattern. */
  lemma FormattedMobilePassesPattern(p: string)
    requires |p| == 11 && AllDigits(p)
    ensures Forms.ContainsPhoneMask(FormatPhoneNumber(Some(p)))
  {
    var r := FormatPhoneNumber(Some(p));
    assert r[1] == p[0] && r[2] == p[1];
    assert forall k :: 5 <= k < 10 ==> r[k] == r[5..10][k - 5] == p[2..7][k - 5];
    assert forall k :: 11 <= k < 15 ==> r[k] == r[11..][k - 11] == p[7..][k - 11];
    assert Forms.PhoneMaskAt(r, 0);
  }
}

=== FILE: forms.dfy ===
/** The part of Angular's reactive-forms semantics the components depend on:
    which validators a control carries, whether it is enabled, and the error
    keys the built-in validators report for a value. */
module Forms {
  import opened Options
  import opened Text

  /** The built-in validators the components attach. `PhonePattern` is
      `Validators.pattern(/\(\d{2}\) \d{5}-\d{4}/)`; `EmailFormat` is `Validators.email`. */
  datatype Validator = Required | MinLength(n: nat) | PhonePattern | EmailFormat

  /** The error keys of a control's `errors` object, in validator order. */
  datatype ErrorKey = RequiredError | MinLengthError(requiredLength: nat) | PatternError | EmailError

  /** A control's enabled flag and its validators, in the order they were set. */
  datatype Control = Control(enabled: bool, validators: seq<Validator>)

  /** Angular's notion of an empty input: `null`/`undefined` or length 0. */
  predicate IsEmptyInput(v: Option<string>) { v.None? || v.value == "" }

  /** `(dd) ddddd-dddd` starting at position i of s. */
  predicate PhoneMaskAt(s: string, i: nat) {
    && i + 15 <= |s|
    && s[i] == '(' && IsDigit(s[i + 1]) && IsDigit(s[i + 2]) && s[i + 3] == ')' && s[i + 4] == ' '
    && (forall k :: i + 5 <= k < i + 10 ==> IsDigit(s[k]))
    && s[i + 10] == '-'
    && (forall k :: i + 11 <= k < i + 15 ==> IsDigit(s[k]))
  }

  /** A pattern given as a RegExp object is matched unanchored, so the value only
      has to contain the mask somewhere. */
  predicate ContainsPhoneMask(s: string) {
    exists i: nat | i < |s| :: PhoneMaskAt(s, i)
  }

  /** The error one validator reports for a value; `emailOk` is the outcome of
      Angular's e-mail regular expression, which is not modelled. Every validator
      but `Required` accepts the empty input. */
  function ValidatorError(val: Validator, v: Option<string>, emailOk: bool): (r: Option<ErrorKey>)
    ensures IsEmptyInput(v) ==> (r.Some? <==> val == Required)
    ensures val.MinLength? && !IsEmptyInput(v) ==> (r.Some? <==> |v.value| < val.n)
  {
    match val
    case Required => if IsEmptyInput(v) then Some(RequiredError) else None
    case MinLength(n) => if !IsEmptyInput(v) && |v.value| < n then Some(MinLengthError(n)) else None
    case PhonePattern => if !IsEmptyInput(v) && !ContainsPhoneMask(v.value) then Some(PatternError) else None
    case EmailFormat => if !IsEmptyInput(v) && !emailOk then Some(EmailError) else None
  }

  /** The keys of the merged `errors` object of a control with validators `vs`. */
  function Errors(vs: seq<Validator>, v: Option<string>, emailOk: bool): (r: seq<ErrorKey>)
    ensures |r| <= |vs|
    ensures r == [] <==> forall k :: 0 <= k < |vs| ==> ValidatorError(vs[k], v, emailOk).None?
  {
    if vs == [] then []
    else
      match ValidatorError(vs[0], v, emailOk)
      case None => Errors(vs[1..], v, emailOk)
      case Some(e) => [e] + Errors(vs[1..], v, emailOk)
  }

  /** A concrete phone number in the mask passes the pattern. */
  lemma MaskedPhoneMatches()
    ensures ContainsPhoneMask("(11) 91234-5678")
  {
    assert PhoneMaskAt("(11) 91234-5678", 0);
  }
}

=== FILE: guard.dfy ===
/** `AuthGuard.canActivate`: whether a route may open, and where the router is
    sent when it may not. */
module Guard {
  import opened Options
  import Session
  import Routes

  /** The guard's answer and the navigation it starts, if any. */
  datatype Decision = Decision(allowed: bool, navigateTo: Option<string>)

  /** A stored role counts only when it is truthy, i.e. present and not "". */
  predicate HasRole(s: Session.Session) {
    Session.Role(s).Some? && Session.Role(s).value != ""
  }

  /** `canActivate`: a visitor who is not logged in goes to `/login`; a
      logged-in user whose truthy role is missing from the route's
      `expectedRoles` goes to `/home`; everyone else is let through. */
  function CanActivate(s: Session.Session, route: Routes.Route): (d: Decision)
    ensures d.allowed <==> d.navigateTo.None?
    ensures !Session.IsLoggedIn(s) ==> d.navigateTo == Some("/login")
    ensures Session.IsLoggedIn(s) && !d.allowed ==> d.navigateTo == Some("/home")
  {
    if !Session.IsLoggedIn(s) then Decision(false, Some("/login"))
    else if route.expectedRoles.Some? && HasRole(s) && Session.Role(s).value !in route.expectedRoles.value then
      Decision(false, Some("/home"))
    else Decision(true, None)
  }

  /** The guard admits exactly the logged-in users whose role is absent, empty,
      or listed (or the route lists no roles). */
  lemma AllowedIff(s: Session.Session, route: Routes.Route)
    ensures CanActivate(s, route).allowed <==>
      && Session.IsLoggedIn(s)
      && (route.expectedRoles.None? || !HasRole(s) || Session.Role(s).value in route.expectedRoles.value)
  {
  }

  /** After the demo login every guarded route of the table opens. */
  lemma AdminOpensEveryRoute(s: Session.Session, i: nat)
    requires i < |Routes.Table|
    ensures CanActivate(Session.Login(s, "admin", "admin").session, Routes.Table[i]).allowed
  {
    if Routes.Table[i].expectedRoles.Some? {
      Routes.AdminInEveryRolesList(i);
    }
  }

  /** After logout every route sends the visitor to the login page. */
  lemma LoggedOutGoesToLogin(s: Session.Session, route: Routes.Route)
    ensures CanActivate(Session.Logout(s), route) == Decision(false, Some("/login"))
  {
  }

  /** An employee is turned back to `/home` from the four administrator pages. */
  lemma EmployeeKeptFromAdminPages(s: Session.Session, i: nat)
    requires Session.IsLoggedIn(s) && Session.Role(s) == Some("employee")
    requires 12 <= i <= 15
    ensures CanActivate(s, Routes.Table[i]) == Decision(false, Some("/home"))
  {
    Routes.AdminOnlyPages(i);
    assert Routes.Table[i].expectedRoles.value == ["admin"];
  }

  /** A logged-in user with no stored role (or an empty one) passes every
      roles check, the administrator pages included. */
  lemma MissingRolePassesEveryCheck(s: Session.Session, route: Routes.Route)
    requires Session.IsLoggedIn(s) && !HasRole(s)
    ensures CanActivate(s, route).allowed
  {
  }
}

=== FILE: ibge.dfy ===
/** `IbgeService.getCidadesPorEstado`: the city list a state's response is
    turned into, with a placeholder entry in front. */
module Ibge {
  import opened Options
  import Text

  const NoCityName := "Nenhuma cidade encontrada"
  const SelectCityName := "Selecione uma cidade"

  /** A city's `id` as the service returns it: a JSON number or a string. */
  datatype RawId = NumberId(n: int) | TextId(s: string)

  datatype RawCity = RawCity(id: RawId, nome: string)

  /** An entry of the mapped list; an id of None is `NaN`. */
  datatype City = City(id: Option<int>, nome: string)

  /** `Number(cidade.id)`. */
  function NumberOf(id: RawId): (r: Option<int>)
    ensures id.NumberId? ==> r == Some(id.n)
  {
    match id
    case NumberId(n) => Some(n)
    case TextId(s) => Text.ToNumber(s)
  }

  /** `cidades.map(...)`: each city with its id passed through `Number`. */
  function Converted(xs: seq<RawCity>): (r: seq<City>)
    ensures |r| == |xs|
    ensures forall k :: 0 <= k < |xs| ==> r[k] == City(NumberOf(xs[k].id), xs[k].nome)
  {
    seq(|xs|, k requires 0 <= k < |xs| => City(NumberOf(xs[k].id), xs[k].nome))
  }

  /** The `map` step: a null or empty response becomes the single "no city"
      entry; otherwise the "select a city" entry comes first, followed by
      every city in order with its id passed through `Number`. */
  function Cities(response: Option<seq<RawCity>>): (r: seq<City>)
    ensures |r| >= 1 && r[0].id == Some(-1)
    ensures response.None? || response.value == [] ==> r == [City(Some(-1), NoCityName)]
    ensures response.Some? && response.value != [] ==>
      && |r| == |response.value| + 1
      && r[0].nome == SelectCityName
      && r[1..] == Converted(response.value)
  {
    if response.None? || response.value == [] then [City(Some(-1), NoCityName)]
    else [City(Some(-1), SelectCityName)] + Converted(response.value)
  }

  /** When every real city has a non-negative numeric id, the placeholder is
      the only entry with id -1, so a form can tell it from a real choice. */
  lemma PlaceholderIsUnique(xs: seq<RawCity>, k: nat)
    requires forall j :: 0 <= j < |xs| ==> xs[j].id.NumberId? && xs[j].id.n >= 0
    requires k < |Cities(Some(xs))|
    ensures Cities(Some(xs))[k].id == Some(-1) <==> k == 0
  {
    if k > 0 {
      var r := Cities(Some(xs));
      assert r[k] == r[1..][k - 1] == Converted(xs)[k - 1];
    }
  }

  /** Dropping the placeholder gives back the response's names in order. */
  lemma NamesSurvive(xs: seq<RawCity>)
    requires xs != []
    ensures var r := Cities(Some(xs));
      |r| - 1 == |xs| && forall k :: 0 <= k < |xs| ==> r[1..][k].nome == xs[k].nome
  {
  }
}

=== FILE: intake_form.dfy ===
/** The intake form (`FormComponent`): its controls and validators, the two
    checkbox listeners that enable or disable fields, name capitalisation, the
    state/city name lookups and the checks `onSubmit` makes before it posts. */
module IntakeForm {
  import opened Options
  import opened Text
  import opened Forms
  import Cpf
  import Formatters

  /** A control's current value together with its enabled flag and validators. */
  datatype Field = Field(value: Option<string>, control: Control)

  /** The form group. The CPF control additionally runs the CPF validator and
      the birth-date control the age check; `foreignCountry` and `noPhone` are
      the two checkboxes. */
  datatype Form = Form(
    name: Field, last_name: Field, cpf: Field, birth_date: Field,
    mother_name: Field, gender: Field, arrival_date: Field, time: Field,
    state: Field, city: Field, phone: Field, observation: Field,
    foreignCountry: bool, noPhone: bool)

  /** An IBGE state or city as the selects list them. */
  datatype Place = Place(id: int, nome: string)

  /** A chosen photo file: its name and MIME type. */
  datatype FileInfo = FileInfo(fileName: string, mimeType: string)

  const RequiredFieldsMessage := "Por favor, preencha todos os campos obrigatórios."
  const InvalidFileMessage := "Arquivo inválido. Apenas arquivos .jpg, .jpeg e .png são aceitos."
  const NotAnImageMessage := "O arquivo selecionado deve ser uma imagem (JPEG, PNG)."
  const SubmitSuccessMessage := "Agendamento realizado com sucesso!"
  const SubmitErrorMessage := "Erro ao processar o agendamento."

  const RequiredControl := Control(true, [Required])
  const FreeControl := Control(true, [])
  const PhoneControl := Control(true, [Required, PhonePattern])

  /** `initializeForm` with every value empty: phone, state and city start
      without validators, because the listeners only run on a change. */
  function InitialForm(): (f: Form)
    ensures !f.foreignCountry && !f.noPhone
    ensures f.state.control == FreeControl && f.city.control == FreeControl && f.phone.control == FreeControl
  {
    var e := Some("");
    Form(
      Field(e, RequiredControl), Field(e, RequiredControl), Field(e, RequiredControl), Field(e, RequiredControl),
      Field(e, RequiredControl), Field(e, RequiredControl), Field(e, RequiredControl), Field(e, RequiredControl),
      Field(e, FreeControl), Field(e, FreeControl), Field(e, FreeControl), Field(e, FreeControl),
      false, false)
  }

  // ---------------------------------------------------------------- validity

  /** A disabled control is never invalid; an enabled one is valid when none of
      its validators reports an error. */
  predicate FieldValid(f: Field) {
    !f.control.enabled || Errors(f.control.validators, f.value, true) == []
  }

  /** `registerForm.valid`; `ageOk` is the outcome of the clock-dependent age check. */
  predicate FormValid(f: Form, ageOk: bool) {
    && FieldValid(f.name) && FieldValid(f.last_name)
    && FieldValid(f.cpf) && (f.cpf.control.enabled ==> Cpf.Verdict(f.cpf.value) == Cpf.NoError)
    && FieldValid(f.birth_date) && (f.birth_date.control.enabled ==> ageOk)
    && FieldValid(f.mother_name) && FieldValid(f.gender) && FieldValid(f.arrival_date)
    && FieldValid(f.time) && FieldValid(f.state) && FieldValid(f.city)
    && FieldValid(f.phone) && FieldValid(f.observation)
  }

  /** The form test's first case: an untouched form is invalid. */
  lemma InitialFormInvalid(ageOk: bool)
    ensures !FormValid(InitialForm(), ageOk)
  {
    assert ValidatorError(Required, Some(""), true).Some?;
  }

  /** A valid form carries a CPF whose digits pass both check digits. */
  lemma ValidFormHasCheckedCpf(f: Form, ageOk: bool)
    requires FormValid(f, ageOk) && f.cpf.control == RequiredControl
    ensures f.cpf.value.Some? && |Cpf.DigitsOnly(f.cpf.value.value)| == 11
    ensures Cpf.CheckDigitsHold(Cpf.DigitsOnly(f.cpf.value.value))
  {
    assert ValidatorError(Required, f.cpf.value, true).None?;
  }

  // ---------------------------------------------------------------- listeners

  /** `toggleLocationFields(isForeign)`. */
  function ToggleLocationFields(f: Form, isForeign: bool): (r: Form)
    ensures r.(state := f.state, city := f.city) == f
    ensures r.state.value == f.state.value && r.city.value == f.city.value
    ensures isForeign ==> !r.state.control.enabled && !r.city.control.enabled
    ensures isForeign ==> r.state.control.validators == [] && r.city.control.validators == []
    ensures !isForeign ==> r.state.control == RequiredControl && r.city.control == RequiredControl
  {
    var c := if isForeign then Control(false, []) else RequiredControl;
    f.(state := f.state.(control := c), city := f.city.(control := c))
  }

  /** `togglePhoneField(noPhone)`. */
  function TogglePhoneField(f: Form, noPhone: bool): (r: Form)
    ensures r.(phone := f.phone) == f
    ensures r.phone.value == f.phone.value
    ensures noPhone ==> !r.phone.control.enabled && r.phone.control.validators == []
    ensures !noPhone ==> r.phone.control == PhoneControl
  {
    var c := if noPhone then Control(false, []) else PhoneControl;
    f.(phone := f.phone.(control := c))
  }

  /** Ticking or unticking "foreign country": the value changes and the listener runs. */
  function SetForeignCountry(f: Form, isForeign: bool): (r: Form)
    ensures r.foreignCountry == isForeign
    ensures r == ToggleLocationFields(f, isForeign).(foreignCountry := isForeign)
  {
    ToggleLocationFields(f.(foreignCountry := isForeign), isForeign)
  }

  /** Ticking or unticking "no phone". */
  function SetNoPhone(f: Form, noPhone: bool): (r: Form)
    ensures r.noPhone == noPhone
    ensures r == TogglePhoneField(f, noPhone).(noPhone := noPhone)
  {
    TogglePhoneField(f.(noPhone := noPhone), noPhone)
  }

  /** The listeners touch disjoint controls, so their order does not matter, and
      each only depends on its last input. */
  lemma TogglesCommuteAndSettle(f: Form, a: bool, b: bool, a2: bool)
    ensures SetForeignCountry(SetNoPhone(f, b), a) == SetNoPhone(SetForeignCountry(f, a), b)
    ensures SetForeignCountry(SetForeignCountry(f, a2), a) == SetForeignCountry(f, a)
  {
  }

  /** A foreign applicant's form is valid whatever state and city say. */
  lemma ForeignIgnoresLocation(f: Form, ageOk: bool, s: Option<string>, c: Option<string>)
    ensures var g := SetForeignCountry(f, true);
      FormValid(g, ageOk) <==> FormValid(g.(state := g.state.(value := s), city := g.city.(value := c)), ageOk)
  {
  }

  /** With a phone, only a value containing the "(dd) ddddd-dddd" mask is accepted. */
  lemma PhoneRequiresMask(f: Form, v: string)
    requires v != ""
    ensures var g := SetNoPhone(f, false).(phone := Field(Some(v), PhoneControl));
      FieldValid(g.phone) <==> ContainsPhoneMask(v)
  {
    var vs := PhoneControl.validators;
    assert vs[0] == Required && vs[1] == PhonePattern;
    assert ValidatorError(Required, Some(v), true).None?;
  }

  // ---------------------------------------------------------------- names

  /** `formatName(field)`: a non-empty value is capitalised word by word; an
      empty or missing value is left alone. */
  function FormatNameField(fld: Field): (r: Field)
    ensures r.control == fld.control
    ensures fld.value.None? || fld.value.value == "" ==> r == fld
    ensures fld.value.Some? && fld.value.value != "" ==> r.value == Some(Formatters.FormatName(fld.value.value))
  {
    if fld.value.Some? && fld.value.value != "" then fld.(value := Some(Formatters.FormatName(fld.value.value)))
    else fld
  }

  /** `getStateName` / `getCityName`: the name of the first place whose id, as
      text, equals the selected value; "" when none does. */
  function PlaceName(places: seq<Place>, id: Option<string>): (r: string)
    ensures (forall k :: 0 <= k < |places| ==> Some(IntToString(places[k].id)) != id) ==> r == ""
    ensures forall k :: (0 <= k < |places| && Some(IntToString(places[k].id)) == id &&
                         (forall j :: 0 <= j < k ==> Some(IntToString(places[j].id)) != id))
                        ==> r == places[k].nome
  {
    if places == [] then ""
    else if Some(IntToString(places[0].id)) == id then places[0].nome
    else PlaceName(places[1..], id)
  }

  /** With distinct ids, selecting a place's id gives back its name. */
  lemma PlaceNameOfListedId(places: seq<Place>, k: nat)
    requires k < |places|
    requires forall i, j :: 0 <= i < j < |places| ==> places[i].id != places[j].id
    ensures PlaceName(places, Some(IntToString(places[k].id))) == places[k].nome
  {
    forall j | 0 <= j < k ensures Some(IntToString(places[j].id)) != Some(IntToString(places[k].id)) {
      if IntToString(places[j].id) == IntToString(places[k].id) {
        IntToStringInjective(places[j].id, places[k].id);
      }
    }
  }

  // ---------------------------------------------------------------- submit

  /** The multipart body `onSubmit` posts. */
  datatype Payload = Payload(
    name: string, last_name: string, cpf: string, mother_name: string, gender: string,
    birth_date: string, arrival_date: string, time: string, state: string, city: string,
    phone: string, observation: string, photo: Option<FileInfo>)

  /** The component fields `onSubmit` reads and writes. */
  datatype IntakeState = IntakeState(
    form: Form, selectedFile: Option<FileInfo>, invalidFile: bool,
    errorMessage: string, successMessage: string, successModalOpen: bool,
    states: seq<Place>, cities: seq<Place>)

  /** What one call of `onSubmit` leaves behind, and the request it sends, if any. */
  datatype SubmitResult = SubmitResult(state: IntakeState, request: Option<Payload>)

  /** `FormData.append` of a control value: `null` becomes the text "null". */
  function FormText(v: Option<string>): string { v.GetOr("null") }

  /** `value || ''`. */
  function OrEmpty(v: Option<string>): string { v.GetOr("") }

  predicate AcceptedImage(file: FileInfo) {
    file.mimeType == "image/jpeg" || file.mimeType == "image/png" || file.mimeType == "image/jpg"
  }

  /** The CPF stripped to its digits and, with "no phone" ticked, the phone
      cleared: the two patches `onSubmit` makes before converting the dates. */
  function CleanedForm(f: Form): (r: Form)
    ensures r.(cpf := f.cpf, phone := f.phone) == f
    ensures r.cpf.control == f.cpf.control && r.phone.control == f.phone.control
    ensures r.cpf.value == Some(Cpf.DigitsOnly(f.cpf.value.GetOr("")))
    ensures r.phone.value == if f.noPhone then None else f.phone.value
  {
    var phone := if f.noPhone then None else f.phone.value;
    f.(cpf := f.cpf.(value := Some(Cpf.DigitsOnly(f.cpf.value.GetOr("")))), phone := f.phone.(value := phone))
  }

  /** The form as `onSubmit` leaves it once both dates are converted: the CPF
      and phone patches of `CleanedForm`, then each date replaced by its ISO
      text. */
  function Patched(f: Form, isoDate: string -> Option<string>): (r: Form)
    ensures r.(birth_date := f.birth_date, arrival_date := f.arrival_date) == CleanedForm(f)
    ensures r.birth_date.control == f.birth_date.control && r.arrival_date.control == f.arrival_date.control
    ensures r.birth_date.value == isoDate(FormText(f.birth_date.value))
    ensures r.arrival_date.value == isoDate(FormText(f.arrival_date.value))
  {
    var c := CleanedForm(f);
    c.(birth_date := c.birth_date.(value := isoDate(FormText(f.birth_date.value))),
       arrival_date := c.arrival_date.(value := isoDate(FormText(f.arrival_date.value))))
  }

  /** Both dates survive `new Date(v).toISOString()`; an unparseable one
      makes it throw a `RangeError`. */
  predicate DatesConvert(f: Form, isoDate: string -> Option<string>) {
    isoDate(FormText(f.birth_date.value)).Some? && isoDate(FormText(f.arrival_date.value)).Some?
  }

  /** The chosen photo, if any, is a JPEG or PNG image. */
  predicate PhotoAccepted(file: Option<FileInfo>) {
    file.Some? ==> AcceptedImage(file.value)
  }

  /** `onSubmit` up to the request. `ageOk` is the age check, `isoDate` the
      `new Date(v).toISOString().split('T')[0]` conversion, None where it
      throws, and `token` the stored `authToken`. The CPF is stripped to its
      digits and, with "no phone" ticked, the phone cleared before the dates
      are converted and the body is built. */
  function OnSubmit(st: IntakeState, ageOk: bool, isoDate: string -> Option<string>, token: Option<string>): (r: SubmitResult)
    ensures !FormValid(st.form, ageOk) ==>
      r.request.None? && r.state == st.(errorMessage := RequiredFieldsMessage)
    ensures FormValid(st.form, ageOk) && st.invalidFile ==>
      r.request.None? && r.state == st.(errorMessage := InvalidFileMessage)
    ensures FormValid(st.form, ageOk) && !st.invalidFile && !DatesConvert(st.form, isoDate) ==>
      r.request.None? && r.state == st.(form := CleanedForm(st.form))
    ensures FormValid(st.form, ageOk) && !st.invalidFile && DatesConvert(st.form, isoDate) && !PhotoAccepted(st.selectedFile) ==>
      r.request.None? && r.state.errorMessage == NotAnImageMessage
      && r.state == st.(form := Patched(st.form, isoDate), errorMessage := NotAnImageMessage)
    ensures token.None? || token.value == "" ==> r.request.None?
    ensures (FormValid(st.form, ageOk) && !st.invalidFile && DatesConvert(st.form, isoDate) &&
             PhotoAccepted(st.selectedFile)) ==> r.state == st.(form := Patched(st.form, isoDate))
    ensures (FormValid(st.form, ageOk) && !st.invalidFile && DatesConvert(st.form, isoDate) &&
             PhotoAccepted(st.selectedFile) && token.Some? && token.value != "") ==> r.request.Some?
    ensures r.request.Some? ==>
      && FormValid(st.form, ageOk) && !st.invalidFile && DatesConvert(st.form, isoDate)
      && PhotoAccepted(st.selectedFile)
      && r.state.errorMessage == st.errorMessage
      && r.state == st.(form := Patched(st.form, isoDate))
      && r.request.value.cpf == Cpf.DigitsOnly(st.form.cpf.value.GetOr(""))
      && r.request.value.state == PlaceName(st.states, st.form.state.value)
      && r.request.value.city == PlaceName(st.cities, st.form.city.value)
      && (st.form.noPhone ==> r.request.value.phone == "")
      && (!st.form.noPhone ==> r.request.value.phone == OrEmpty(st.form.phone.value))
      && r.request.value.photo == st.selectedFile
    ensures r.request.Some? ==>
      var body := r.request.value;
      && body.name == FormText(st.form.name.value) && body.last_name == FormText(st.form.last_name.value)
      && body.mother_name == FormText(st.form.mother_name.value) && body.gender == FormText(st.form.gender.value)
      && body.time == FormText(st.form.time.value) && body.observation == OrEmpty(st.form.observation.value)
      && Some(body.birth_date) == isoDate(FormText(st.form.birth_date.value))
      && Some(body.arrival_date) == isoDate(FormText(st.form.arrival_date.value))
  {
    if !FormValid(st.form, ageOk) then
      SubmitResult(st.(errorMessage := RequiredFieldsMessage), None)
    else if st.invalidFile then
      SubmitResult(st.(errorMessage := InvalidFileMessage), None)
    else
      var f := CleanedForm(st.form);
      var birth := isoDate(FormText(f.birth_date.value));
      var arrival := isoDate(FormText(f.arrival_date.value));
      if birth.None? || arrival.None? then
        SubmitResult(st.(form := f), None)
      else
        var patched := f.(birth_date := f.birth_date.(value := birth), arrival_date := f.arrival_date.(value := arrival));
        var st1 := st.(form := patched);
        if !PhotoAccepted(st.selectedFile) then
          SubmitResult(st1.(errorMessage := NotAnImageMessage), None)
        else if token.None? || token.value == "" then
          SubmitResult(st1, None)
        else
          var body := Payload(
            FormText(f.name.value), FormText(f.last_name.value), f.cpf.value.value, FormText(f.mother_name.value),
            FormText(f.gender.value), birth.value, arrival.value, FormText(f.time.value),
            PlaceName(st.states, f.state.value), PlaceName(st.cities, f.city.value),
            OrEmpty(f.phone.value), OrEmpty(f.observation.value), st.selectedFile);
          SubmitResult(st1, Some(body))
  }

  /** A posted CPF always passes the validator again: eleven digits whose check
      digits hold. */
  lemma PostedCpfIsValid(st: IntakeState, ageOk: bool, isoDate: string -> Option<string>, token: Option<string>)
    requires st.form.cpf.control == RequiredControl
    requires OnSubmit(st, ageOk, isoDate, token).request.Some?
    ensures var cpf := OnSubmit(st, ageOk, isoDate, token).request.value.cpf;
      |cpf| == 11 && AllDigits(cpf) && Cpf.Verdict(Some(cpf)) == Cpf.NoError
  {
    ValidFormHasCheckedCpf(st.form, ageOk);
    var cpf := Cpf.DigitsOnly(st.form.cpf.value.value);
    Cpf.VerdictOfElevenDigits(cpf);
  }

  /** `registerForm.reset()`: every value becomes `null`, and since the two
      checkboxes change to `null` their listeners run with a falsy argument,
      so state and city become required and the phone required with its mask. */
  function ResetForm(f: Form): (r: Form)
    ensures !r.foreignCountry && !r.noPhone
    ensures r.state.control == RequiredControl && r.city.control == RequiredControl
    ensures r.phone.control == PhoneControl
    ensures r.name.value.None? && r.last_name.value.None? && r.cpf.value.None? && r.birth_date.value.None?
    ensures r.mother_name.value.None? && r.gender.value.None? && r.arrival_date.value.None? && r.time.value.None?
    ensures r.state.value.None? && r.city.value.None? && r.phone.value.None? && r.observation.value.None?
    ensures r.name.control == f.name.control && r.last_name.control == f.last_name.control
    ensures r.cpf.control == f.cpf.control && r.birth_date.control == f.birth_date.control
    ensures r.mother_name.control == f.mother_name.control && r.gender.control == f.gender.control
    ensures r.arrival_date.control == f.arrival_date.control && r.time.control == f.time.control
    ensures r.observation.control == f.observation.control
  {
    var n := None;
    var cleared := Form(
      f.name.(value := n), f.last_name.(value := n), f.cpf.(value := n), f.birth_date.(value := n),
      f.mother_name.(value := n), f.gender.(value := n), f.arrival_date.(value := n), f.time.(value := n),
      f.state.(value := n), f.city.(value := n), f.phone.(value := n), f.observation.(value := n),
      false, false);
    SetNoPhone(SetForeignCountry(cleared, false), false)
  }

  /** The server's answer to the post. */
  datatype PostResponse = PostOk | PostFailed(status: int)

  /** The response handlers. A 409 asks the browser whether to replace the
      existing appointment; only the declined answer, which changes nothing,
      is modelled. `reset()` clears the controls only: the chosen photo stays
      attached and is sent again with the next submission. */
  function OnPostResponse(st: IntakeState, resp: PostResponse): (r: IntakeState)
    ensures resp.PostOk? ==>
      r.successMessage == SubmitSuccessMessage && r.successModalOpen &&
      r.form == ResetForm(st.form) && r.errorMessage == st.errorMessage
    ensures resp.PostOk? ==>
      r.(successMessage := st.successMessage, form := st.form, successModalOpen := st.successModalOpen) == st
    ensures resp.PostOk? ==> r.selectedFile == st.selectedFile && r.invalidFile == st.invalidFile
    ensures resp.PostFailed? && resp.status == 409 ==> r == st
    ensures resp.PostFailed? && resp.status != 409 ==> r == st.(errorMessage := SubmitErrorMessage)
  {
    match resp
    case PostOk => st.(successMessage := SubmitSuccessMessage, form := ResetForm(st.form), successModalOpen := true)
    case PostFailed(status) => if status == 409 then st else st.(errorMessage := SubmitErrorMessage)
  }

  /** After a successful post the form is invalid again until refilled. */
  lemma ResetFormIsInvalid(st: IntakeState, ageOk: bool)
    requires st.form.name.control == RequiredControl
    ensures !FormValid(OnPostResponse(st, PostOk).form, ageOk)
  {
    assert ValidatorError(Required, None, true).Some?;
  }
}

=== FILE: labels.dfy ===
/** The display-label tables of the directory and the reports page. Each is a
    `table[key] || fallback` lookup; no stored label is empty, so the fallback
    is taken exactly for keys outside the table. */
module Labels {
  const NotInformed := "Não informado"

  const GenderLabels: map<string, string> :=
    map["male" := "Masculino", "female" := "Feminino", "other" := "Outro"]

  const EducationLabels: map<string, string> :=
    map["fundamental" := "Ensino Fundamental", "medio" := "Ensino Médio",
        "tecnico" := "Curso Técnico", "superior" := "Ensino Superior",
        "pos_graduacao" := "Pós-Graduação", "mestrado" := "Mestrado",
        "doutorado" := "Doutorado"]

  const TurnLabels: map<string, string> :=
    map["manha" := "Manhã (06:00 - 12:00)", "tarde" := "Tarde (12:00 - 18:00)",
        "noite" := "Noite (18:00 - 23:59)", "madrugada" := "Madrugada (00:00 - 06:00)"]

  const AgeGroupLabels: map<string, string> :=
    map["idosos" := "Idosos (60+)", "adultos" := "Adultos (18-59)"]

  /** `table[key] || fallback`. */
  function Lookup(table: map<string, string>, key: string, fallback: string): string {
    if key in table && table[key] != "" then table[key] else fallback
  }

  /** `getGenderLabel` of the directory and `getTranslatedGender` of the
      reports page, which share one table. */
  function GenderLabel(gender: string): (r: string)
    ensures r == NotInformed <==> gender !in GenderLabels
    ensures gender in GenderLabels ==> r == GenderLabels[gender]
  {
    Lookup(GenderLabels, gender, NotInformed)
  }

  function EducationLabel(level: string): (r: string)
    ensures r == NotInformed <==> level !in EducationLabels
    ensures level in EducationLabels ==> r == EducationLabels[level]
  {
    Lookup(EducationLabels, level, NotInformed)
  }

  /** Unknown shift keys are shown as they are. */
  function TurnLabel(key: string): (r: string)
    ensures r == key <==> key !in TurnLabels
    ensures key in TurnLabels ==> r == TurnLabels[key]
  {
    Lookup(TurnLabels, key, key)
  }

  /** Unknown age groups are shown as they are. */
  function AgeGroupLabel(group: string): (r: string)
    ensures r == group <==> group !in AgeGroupLabels
    ensures group in AgeGroupLabels ==> r == AgeGroupLabels[group]
  {
    Lookup(AgeGroupLabels, group, group)
  }
}

=== FILE: login.dfy ===
/** `LoginComponent`: the form's validators, the submit handler, the choice of
    error text and where a signed-in user is sent. */
module Login {
  import opened Options
  import Text
  import Seqs
  import Forms
  import Session
  import Routes
  import Guard

  const FillAllFieldsMessage := "Por favor, preencha todos os campos corretamente"
  const BadCredentialsMessage := "Usuário ou senha inválidos"
  const NoConnectionMessage := "Não foi possível conectar ao servidor. Verifique sua conexão."
  const GenericLoginMessage := "Ocorreu um erro durante o login. Por favor, tente novamente mais tarde."

  const RequiredText := "Este campo é obrigatório"
  const InvalidValueText := "Valor inválido"

  /** The two controls: a username of at least 3 and a password of at least 6 characters. */
  const UsernameControl := Forms.Control(true, [Forms.Required, Forms.MinLength(3)])
  const PasswordControl := Forms.Control(true, [Forms.Required, Forms.MinLength(6)])

  /** The `error.error` part of what a failed login throws: nothing, a bare
      string (the shape `AuthService.login` rejects with), or an object that may
      carry an `errors` map (its values, each a list of messages) and a `message`. */
  datatype ErrorBody =
    | NoBody
    | TextBody(text: string)
    | ObjectBody(errors: Option<seq<seq<string>>>, message: Option<string>)

  /** A thrown error: its `status` (None when there is none) and its `error` part. */
  datatype LoginFailure = LoginFailure(status: Option<int>, body: ErrorBody)

  /** The component's fields that `onLogin` touches, plus the session it drives. */
  datatype LoginState = LoginState(loginError: Option<string>, loading: bool, touched: bool,
                                   session: Session.Session)

  predicate HasErrorsMap(e: LoginFailure) { e.body.ObjectBody? && e.body.errors.Some? }

  predicate HasMessage(e: LoginFailure) {
    e.body.ObjectBody? && e.body.message.Some? && e.body.message.value != ""
  }

  /** `handleLoginError`: the first that applies of a server `errors` map (its
      messages joined by newlines), status 401, status 0, the server's message,
      and a generic text. */
  function HandleLoginError(e: LoginFailure): (r: string)
    ensures HasErrorsMap(e) ==> r == Text.Join(Seqs.Flatten(e.body.errors.value), '\n')
    ensures !HasErrorsMap(e) && e.status == Some(401) ==> r == BadCredentialsMessage
    ensures !HasErrorsMap(e) && e.status == Some(0) ==> r == NoConnectionMessage
    ensures !HasErrorsMap(e) && e.status != Some(401) && e.status != Some(0) ==>
      r == (if HasMessage(e) then e.body.message.value else GenericLoginMessage)
    ensures !HasErrorsMap(e) ==> r != ""
  {
    if HasErrorsMap(e) then Text.Join(Seqs.Flatten(e.body.errors.value), '\n')
    else if e.status == Some(401) then BadCredentialsMessage
    else if e.status == Some(0) then NoConnectionMessage
    else if HasMessage(e) then e.body.message.value
    else GenericLoginMessage
  }

  /** What `AuthService.login` rejects with: `{ error: <text> }`, no status. */
  function ServiceRejection(error: string): LoginFailure {
    LoginFailure(None, TextBody(error))
  }

  /** The service's rejection has neither a status nor an object body, so the
      user always sees the generic text, never "invalid credentials". */
  lemma ServiceRejectionIsGeneric(error: string)
    ensures HandleLoginError(ServiceRejection(error)) == GenericLoginMessage
  {
  }

  /** A server `errors` map wins over every status. */
  lemma ErrorsMapWins(status: Option<int>, errors: seq<seq<string>>, message: Option<string>)
    ensures HandleLoginError(LoginFailure(status, ObjectBody(Some(errors), message)))
         == Text.Join(Seqs.Flatten(errors), '\n')
  {
  }

  /** `redirectUser`: staff go to the appointment list, every other role home. */
  function RedirectUser(role: string): (r: string)
    ensures r == "/appointments-list" <==> role == "admin" || role == "employee"
    ensures r != "/appointments-list" ==> r == "/home"
  {
    if role == "admin" || role == "employee" then "/appointments-list" else "/home"
  }

  /** The page staff are sent to admits them. */
  lemma StaffRedirectIsAdmitted(s: Session.Session)
    requires Session.IsLoggedIn(s) && Session.Role(s).Some?
    requires RedirectUser(Session.Role(s).value) == "/appointments-list"
    ensures Routes.Table[10].path == [Routes.Lit("appointments-list")]
    ensures Guard.CanActivate(s, Routes.Table[10]).allowed
  {
    Routes.TableAt(10);
  }

  /** `checkAuthStatus`, run by the constructor: a logged-in user with a truthy
      role is redirected at once. */
  function CheckAuthStatus(s: Session.Session): (r: Option<string>)
    ensures r.Some? <==> Session.IsLoggedIn(s) && Guard.HasRole(s)
    ensures r.Some? ==> r.value == RedirectUser(Session.Role(s).value)
  {
    if Session.IsLoggedIn(s) && Guard.HasRole(s) then Some(RedirectUser(Session.Role(s).value)) else None
  }

  /** The login form is valid when neither control reports an error. */
  predicate FormValid(username: string, password: string) {
    && Forms.Errors(UsernameControl.validators, Some(username), true) == []
    && Forms.Errors(PasswordControl.validators, Some(password), true) == []
  }

  lemma FormValidIff(username: string, password: string)
    ensures FormValid(username, password) <==> |username| >= 3 && |password| >= 6
  {
    var uv := UsernameControl.validators;
    var pv := PasswordControl.validators;
    assert uv[0] == Forms.Required && uv[1] == Forms.MinLength(3);
    assert pv[0] == Forms.Required && pv[1] == Forms.MinLength(6);
  }

  /** `onLogin`, run to completion. An invalid form is marked touched and gets
      the fill-in message without calling the service; otherwise the service's
      answer is awaited, a rejection is turned into a message, and loading ends
      false either way. */
  function OnLogin(st: LoginState, username: string, password: string): (r: LoginState)
    ensures !FormValid(username, password) ==>
      r == st.(loginError := Some(FillAllFieldsMessage), touched := true)
    ensures FormValid(username, password) ==> !r.loading && r.touched == st.touched
    ensures FormValid(username, password) ==>
      match Session.Login(st.session, username, password)
      case Resolved(s) => r.session == s && r.loginError.None?
      case Rejected(e, s) => r.session == s && r.loginError == Some(HandleLoginError(ServiceRejection(e)))
  {
    if !FormValid(username, password) then
      st.(loginError := Some(FillAllFieldsMessage), touched := true)
    else
      match Session.Login(st.session, username, password)
      case Resolved(s) => st.(loginError := None, loading := false, session := s)
      case Rejected(e, s) => st.(loginError := Some(HandleLoginError(ServiceRejection(e))), loading := false, session := s)
  }

  /** The form demands a six-character password while the service accepts only
      "admin", so no submission through this form ever logs in: the session is
      left as it was and the generic error is shown. */
  lemma NoFormLoginSucceeds(st: LoginState, username: string, password: string)
    ensures OnLogin(st, username, password).session == st.session
    ensures !Session.IsLoggedIn(st.session) ==> !Session.IsLoggedIn(OnLogin(st, username, password).session)
    ensures FormValid(username, password) ==>
      OnLogin(st, username, password).loginError == Some(GenericLoginMessage)
  {
    FormValidIff(username, password);
  }

  /** The text shown for one error key. */
  function ErrorText(key: Forms.ErrorKey): (r: string)
    ensures key == Forms.RequiredError ==> r == RequiredText
    ensures key.MinLengthError? ==> r == "Mínimo de " + Text.NatToString(key.requiredLength) + " caracteres"
    ensures key.PatternError? || key.EmailError? ==> r == InvalidValueText
  {
    match key
    case RequiredError => RequiredText
    case MinLengthError(n) => "Mínimo de " + Text.NatToString(n) + " caracteres"
    case _ => InvalidValueText
  }

  /** `getFormControlErrors`: nothing unless the control is invalid (enabled
      with some error) and dirty or touched; then one text per error key. */
  function ControlErrors(c: Forms.Control, v: Option<string>, dirty: bool, touched: bool): (r: seq<string>)
    ensures var keys := Forms.Errors(c.validators, v, true);
      if c.enabled && keys != [] && (dirty || touched) then
        |r| == |keys| && forall k :: 0 <= k < |keys| ==> r[k] == ErrorText(keys[k])
      else r == []
  {
    var keys := Forms.Errors(c.validators, v, true);
    if c.enabled && keys != [] && (dirty || touched) then Seqs.Map(keys, ErrorText) else []
  }

  /** An untouched, pristine control shows nothing whatever its value. */
  lemma PristineShowsNothing(c: Forms.Control, v: Option<string>)
    ensures ControlErrors(c, v, false, false) == []
  {
  }

  /** A touched empty username shows exactly the required text. */
  lemma EmptyUsernameShowsRequired()
    ensures ControlErrors(UsernameControl, Some(""), false, true) == [RequiredText]
  {
    var vs := UsernameControl.validators;
    assert vs[0] == Forms.Required && vs[1] == Forms.MinLength(3);
    assert Forms.Errors(vs[1..], Some(""), true) == [];
  }
}

=== FILE: navbar.dfy ===
/** `NavBarComponent`: the signed-in user's role, name and photo URL as the
    bar shows them, and the collapsible menu. */
module NavBar {
  import opened Options
  import Text
  import Formatters
  import Session

  const DefaultPhoto := "assets/img/default-user.png"
  const PhotoBaseUrl := "http://localhost:8000/storage/"

  datatype NavState = NavState(userRole: Option<string>, userName: Option<string>, userPhotoUrl: string,
                               isLoggedIn: bool, isMenuCollapsed: bool)

  /** The bar as constructed. */
  const InitialNav := NavState(None, None, DefaultPhoto, false, true)

  /** A URL `processPhotoUrl` returns untouched: empty, or the default picture. */
  predicate KeepsPhoto(url: string) {
    url == "" || Text.Contains(url, "default-user.png")
  }

  /** The cache-busting query `processPhotoUrl` appends. */
  function TimestampQuery(nowMillis: nat): string {
    ['?'] + TimestampField(nowMillis)
  }

  function TimestampField(nowMillis: nat): string {
    "t=" + Text.NatToString(nowMillis)
  }

  /** `processPhotoUrl`, with `Date.now()` as `nowMillis`: the first
      "profile-photos" becomes "photos", any query string is dropped and a
      fresh timestamp query is appended. */
  function ProcessPhotoUrl(url: string, nowMillis: nat): (r: string)
    ensures KeepsPhoto(url) ==> r == url
    ensures !KeepsPhoto(url) ==>
      var c := Text.ReplaceFirst(url, "profile-photos", "photos");
      var q := Text.FirstField(r, '?');
      && '?' !in q && Text.StartsWith(c, q) && (|q| == |c| || c[|q|] == '?')
      && r == q + TimestampQuery(nowMillis)
  {
    if KeepsPhoto(url) then url
    else
      var c := Text.ReplaceFirst(url, "profile-photos", "photos");
      var clean := Text.FirstField(c, '?');
      var r := clean + TimestampQuery(nowMillis);
      assert Text.FirstField(r, '?') == clean by {
        assert r == clean + ['?'] + TimestampField(nowMillis);
        Text.FirstFieldOfJoin(clean, '?', TimestampField(nowMillis));
      }
      r
  }

  /** The timestamp can be read back from a processed URL with `parseInt`. */
  lemma TimestampReadsBack(url: string, nowMillis: nat)
    requires !KeepsPhoto(url)
    ensures var r := ProcessPhotoUrl(url, nowMillis);
      var q := Text.FirstField(r, '?');
      Text.ParseInt(r[|q| + 3..]) == Some(nowMillis)
  {
    var r := ProcessPhotoUrl(url, nowMillis);
    QueryDigits(Text.FirstField(r, '?'), nowMillis);
  }

  lemma QueryDigits(q: string, nowMillis: nat)
    ensures Text.ParseInt((q + TimestampQuery(nowMillis))[|q| + 3..]) == Some(nowMillis)
  {
    var digits := Text.NatToString(nowMillis);
    assert (q + TimestampQuery(nowMillis))[|q| + 3..] == digits + [];
    Text.ParseIntOfDecimal(nowMillis, []);
  }

  /** A plain storage URL only gains the timestamp. */
  lemma PlainUrlGainsTimestamp(url: string, nowMillis: nat)
    requires !KeepsPhoto(url) && '?' !in url && !Text.Contains(url, "profile-photos")
    ensures ProcessPhotoUrl(url, nowMillis) == url + TimestampQuery(nowMillis)
  {
    assert Text.IndexOfChar(url, '?').None?;
  }

  /** The photo `fetchUpdatedUserInfo` shows for a response's `photo`: a
      relative path is resolved against the storage base URL before
      processing; a falsy photo leaves the current one. */
  function PhotoFromResponse(current: string, photo: Option<string>, nowMillis: nat): (r: string)
    ensures photo.None? || photo.value == "" ==> r == current
    ensures photo.Some? && photo.value != "" && Text.StartsWith(photo.value, "http") ==>
      r == ProcessPhotoUrl(photo.value, nowMillis)
    ensures photo.Some? && photo.value != "" && !Text.StartsWith(photo.value, "http") ==>
      r == ProcessPhotoUrl(PhotoBaseUrl + photo.value, nowMillis)
  {
    if photo.None? || photo.value == "" then current
    else ProcessPhotoUrl(Text.ResolveUrl(PhotoBaseUrl, photo.value), nowMillis)
  }

  predicate IsAdmin(st: NavState) { st.userRole == Some("admin") }

  predicate IsEmployee(st: NavState) { st.userRole == Some("employee") }

  /** A user is never shown both the administrator and the employee menu. */
  lemma RolesExclusive(st: NavState)
    ensures !(IsAdmin(st) && IsEmployee(st))
  {
  }

  /** `toggleMenu`. */
  function ToggleMenu(st: NavState): (r: NavState)
    ensures r.isMenuCollapsed != st.isMenuCollapsed
    ensures r.(isMenuCollapsed := st.isMenuCollapsed) == st
  {
    st.(isMenuCollapsed := !st.isMenuCollapsed)
  }

  /** `closeMenu`. */
  function CloseMenu(st: NavState): (r: NavState)
    ensures r.isMenuCollapsed && r.(isMenuCollapsed := st.isMenuCollapsed) == st
  {
    st.(isMenuCollapsed := true)
  }

  /** Toggling twice restores the menu; closing after either is the same. */
  lemma MenuLaws(st: NavState)
    ensures ToggleMenu(ToggleMenu(st)) == st
    ensures CloseMenu(CloseMenu(st)) == CloseMenu(st)
    ensures CloseMenu(ToggleMenu(st)) == CloseMenu(st)
  {
  }

  /** `clearUserData`. */
  function ClearUserData(st: NavState): (r: NavState)
    ensures r.userRole.None? && r.userName.None? && r.userPhotoUrl == DefaultPhoto
    ensures r.isLoggedIn == st.isLoggedIn && r.isMenuCollapsed == st.isMenuCollapsed
  {
    st.(userRole := None, userName := None, userPhotoUrl := DefaultPhoto)
  }

  /** The `authStatus$` listener: false clears the user data; true reloads the
      role from storage and, when a stored user is present, its capitalised
      username (`storedUsername`; the photo reload is left out). */
  function OnAuthStatus(st: NavState, loggedIn: bool, s: Session.Session, storedUsername: Option<string>): (r: NavState)
    ensures r.isLoggedIn == loggedIn && r.isMenuCollapsed == st.isMenuCollapsed
    ensures !loggedIn ==> r == ClearUserData(st).(isLoggedIn := false)
    ensures loggedIn ==> r.userRole == Session.Role(s) && r.userPhotoUrl == st.userPhotoUrl
    ensures loggedIn ==>
      r.userName == (if storedUsername.Some? then Some(Formatters.CapitalizeFirstLetter(storedUsername.value)) else st.userName)
  {
    if !loggedIn then ClearUserData(st).(isLoggedIn := false)
    else
      var withRole := st.(isLoggedIn := true, userRole := Session.Role(s));
      match storedUsername
      case None => withRole
      case Some(u) => withRole.(userName := Some(Formatters.CapitalizeFirstLetter(u)))
  }

  /** Replaying the statuses a login and a logout emit leaves a bar that shows
      no administrator menu and the default photo. */
  lemma LogoutHidesAdminMenu(st: NavState, s: Session.Session, u: Option<string>)
    ensures var s1 := Session.Login(s, "admin", "admin").session;
      var s2 := Session.Logout(s1);
      var afterIn := OnAuthStatus(st, s1.emitted[|s1.emitted| - 1], s1, u);
      var afterOut := OnAuthStatus(afterIn, s2.emitted[|s2.emitted| - 1], s2, u);
      IsAdmin(afterIn) && !IsAdmin(afterOut) && afterOut.userPhotoUrl == DefaultPhoto && !afterOut.isLoggedIn
  {
  }
}

=== FILE: options.dfy ===
/** The optional-value wrapper every other module uses for JavaScript's
    `null` / `undefined` (None) versus a present value (Some). */
module Options {

  datatype Option<+T> = None | Some(value: T) {

    /** The wrapped value, or `default` when absent (JavaScript's `x ?? default`). */
    function GetOr(default: T): T {
      match this
      case Some(v) => v
      case None => default
    }
  }
}

=== FILE: registration.dfy ===
/** `UserRegistrationComponent`: the registration form's validators (the
    e-mail rule follows the chosen role), the password-match check, the payload
    it posts and the message chosen for each outcome. */
module Registration {
  import opened Options
  import Forms

  const SuccessMessage := "Usuário registrado com sucesso!"
  const InvalidDataMessage := "Dados inválidos. Verifique os campos."
  const RegisterErrorMessage := "Erro ao registrar. Tente novamente."

  /** The six control values (None after a reset) and the e-mail control's
      current validators; the other controls' validators never change. */
  datatype RegisterForm = RegisterForm(
    name: Option<string>, username: Option<string>, email: Option<string>,
    password: Option<string>, confirmPassword: Option<string>, role: Option<string>,
    emailValidators: seq<Forms.Validator>)

  const NameValidators: seq<Forms.Validator> := [Forms.Required]
  const UsernameValidators: seq<Forms.Validator> := [Forms.Required, Forms.MinLength(3)]
  const PasswordValidators: seq<Forms.Validator> := [Forms.Required, Forms.MinLength(6)]
  const ConfirmValidators: seq<Forms.Validator> := [Forms.Required]
  const RoleValidators: seq<Forms.Validator> := [Forms.Required]

  /** The form as built: every value "", and no e-mail validator until the role changes. */
  const InitialForm := RegisterForm(Some(""), Some(""), Some(""), Some(""), Some(""), Some(""), [])

  /** The e-mail validators the role listener installs. */
  function EmailValidatorsFor(role: Option<string>): (r: seq<Forms.Validator>)
    ensures r != [] <==> role == Some("admin")
  {
    if role == Some("admin") then [Forms.Required, Forms.EmailFormat] else []
  }

  /** A new role value, with the e-mail validators its listener sets. */
  function SetRole(f: RegisterForm, role: Option<string>): (r: RegisterForm)
    ensures r.role == role && r.(role := f.role, emailValidators := f.emailValidators) == f
  {
    f.(role := role, emailValidators := EmailValidatorsFor(role))
  }

  /** `passwordMatchValidator`: the group error, raised when the two password
      values differ under `===` (so `null` and "" differ). */
  predicate PasswordMismatch(f: RegisterForm) {
    f.password != f.confirmPassword
  }

  /** The form is valid when no control reports an error and the passwords match;
      `emailOk` is the outcome of Angular's e-mail pattern. */
  predicate FormValid(f: RegisterForm, emailOk: bool) {
    && Forms.Errors(NameValidators, f.name, emailOk) == []
    && Forms.Errors(UsernameValidators, f.username, emailOk) == []
    && Forms.Errors(f.emailValidators, f.email, emailOk) == []
    && Forms.Errors(PasswordValidators, f.password, emailOk) == []
    && Forms.Errors(ConfirmValidators, f.confirmPassword, emailOk) == []
    && Forms.Errors(RoleValidators, f.role, emailOk) == []
    && !PasswordMismatch(f)
  }

  /** A valid form has two equal passwords of at least six characters. */
  lemma ValidFormPasswords(f: RegisterForm, emailOk: bool)
    requires FormValid(f, emailOk)
    ensures f.password == f.confirmPassword && f.password.Some? && |f.password.value| >= 6
  {
    assert Forms.ValidatorError(PasswordValidators[0], f.password, emailOk).None?;
    assert Forms.ValidatorError(PasswordValidators[1], f.password, emailOk).None?;
  }

  /** With an empty e-mail, a form otherwise in order is valid exactly when the
      chosen role is not "admin". */
  lemma EmailRuleFollowsRole(f: RegisterForm, role: string, emailOk: bool)
    requires FormValid(f.(emailValidators := []), emailOk) && f.email == Some("") && role != ""
    ensures FormValid(SetRole(f, Some(role)), emailOk) <==> role != "admin"
  {
    var g := SetRole(f, Some(role));
    assert Forms.Errors(RoleValidators, g.role, emailOk) == [] by {
      assert Forms.ValidatorError(RoleValidators[0], g.role, emailOk).None?;
    }
    if role == "admin" {
      assert Forms.ValidatorError(g.emailValidators[0], g.email, emailOk).Some?;
    }
  }

  /** What the posted body holds: every form value under its control's name,
      plus `password_confirmation`, and no `confirmPassword`. */
  function Payload(f: RegisterForm): (r: map<string, Option<string>>)
    ensures r.Keys == {"name", "username", "email", "password", "role", "password_confirmation"}
    ensures "confirmPassword" !in r
    ensures r["password_confirmation"] == f.confirmPassword
    ensures r["name"] == f.name && r["username"] == f.username && r["email"] == f.email
    ensures r["password"] == f.password && r["role"] == f.role
  {
    var all := map["name" := f.name, "username" := f.username, "email" := f.email,
                   "password" := f.password, "confirmPassword" := f.confirmPassword, "role" := f.role];
    var withConfirmation := all["password_confirmation" := all["confirmPassword"]];
    withConfirmation - {"confirmPassword"}
  }

  /** `registerForm.reset()`: every value null; the role listener then runs
      with null and clears the e-mail validators. */
  function ResetForm(f: RegisterForm): (r: RegisterForm)
    ensures r.name.None? && r.username.None? && r.email.None? && r.role.None?
    ensures r.password.None? && r.confirmPassword.None? && r.emailValidators == []
  {
    SetRole(RegisterForm(None, None, None, None, None, f.role, f.emailValidators), None)
  }

  /** A reset form is invalid: the required name is empty. */
  lemma ResetFormIsInvalid(f: RegisterForm, emailOk: bool)
    ensures !FormValid(ResetForm(f), emailOk)
  {
    assert Forms.ValidatorError(NameValidators[0], None, emailOk).Some?;
  }

  /** The per-field lists of a 422 response's `errors` object. */
  datatype FieldErrors = FieldErrors(username: Option<seq<string>>, email: Option<seq<string>>,
                                     password: Option<seq<string>>)

  /** How the register call settles. In a failure, `body` is `error.error`
      (None when absent) and, inside it, the optional `errors` object. */
  datatype RegisterOutcome =
    | Registered
    | RegisterFailed(status: Option<int>, body: Option<Option<FieldErrors>>)

  /** The component's fields `onSubmit` touches. */
  datatype RegistrationState = RegistrationState(
    form: RegisterForm, successMessage: Option<string>, errorMessage: Option<string>,
    isModalVisible: bool, isErrorModalVisible: bool, isLoading: bool)

  /** The state after a submit, and the body posted, if any. */
  datatype SubmitStep = SubmitStep(state: RegistrationState, request: Option<map<string, Option<string>>>)

  /** `list[0]`, None for `undefined` when the list is empty. */
  function FirstMessage(list: seq<string>): (r: Option<string>)
    ensures r.Some? <==> |list| > 0
    ensures r.Some? ==> r.value == list[0]
  {
    if list == [] then None else Some(list[0])
  }

  /** The 422 message: the first username error, else the first e-mail error,
      else the first password error, else the generic invalid-data text. A
      field whose list is present but empty yields `undefined`. */
  function Message422(errors: Option<FieldErrors>): (r: Option<string>)
    ensures errors.None? ==> r == Some(InvalidDataMessage)
    ensures errors.Some? && errors.value.username.Some? ==> r == FirstMessage(errors.value.username.value)
    ensures errors.Some? && errors.value.username.None? && errors.value.email.Some? ==>
      r == FirstMessage(errors.value.email.value)
    ensures errors.Some? && errors.value.username.None? && errors.value.email.None? ==>
      r == (if errors.value.password.Some? then FirstMessage(errors.value.password.value)
            else Some(InvalidDataMessage))
  {
    match errors
    case None => Some(InvalidDataMessage)
    case Some(fe) =>
      if fe.username.Some? then FirstMessage(fe.username.value)
      else if fe.email.Some? then FirstMessage(fe.email.value)
      else if fe.password.Some? then FirstMessage(fe.password.value)
      else Some(InvalidDataMessage)
  }

  /** A username error is reported whatever else the server says. */
  lemma UsernameErrorWins(u: string, rest: seq<string>, email: Option<seq<string>>, password: Option<seq<string>>)
    ensures Message422(Some(FieldErrors(Some([u] + rest), email, password))) == Some(u)
  {
  }

  /** `onSubmit`, run to completion. An invalid form changes nothing and sends
      nothing. Otherwise the payload is posted; success shows the success modal
      and resets the form; a 422 picks a field message, any other failure the
      generic one, and both show the error modal — except that a 422 without
      `error.error` throws inside the handler, so no message or modal is set.
      Loading ends false in every case. */
  function OnSubmit(st: RegistrationState, emailOk: bool, outcome: RegisterOutcome): (r: SubmitStep)
    ensures !FormValid(st.form, emailOk) ==> r == SubmitStep(st, None)
    ensures FormValid(st.form, emailOk) ==> r.request == Some(Payload(st.form)) && !r.state.isLoading
    ensures FormValid(st.form, emailOk) && outcome.Registered? ==>
      && r.state.successMessage == Some(SuccessMessage) && r.state.isModalVisible
      && r.state.form == ResetForm(st.form) && r.state.errorMessage.None?
    ensures FormValid(st.form, emailOk) && outcome.RegisterFailed? ==>
      && r.state.form == st.form && r.state.successMessage == st.successMessage
      && (r.state.isErrorModalVisible <==> outcome.status != Some(422) || outcome.body.Some? || st.isErrorModalVisible)
      && (outcome.status != Some(422) ==> r.state.errorMessage == Some(RegisterErrorMessage))
      && (outcome.status == Some(422) && outcome.body.Some? ==> r.state.errorMessage == Message422(outcome.body.value))
      && (outcome.status == Some(422) && outcome.body.None? ==> r.state.errorMessage.None?)
  {
    if !FormValid(st.form, emailOk) then SubmitStep(st, None)
    else
      var sending := st.(isLoading := true, errorMessage := None);
      var after :=
        match outcome
        case Registered =>
          sending.(successMessage := Some(SuccessMessage), isModalVisible := true, form := ResetForm(st.form))
        case RegisterFailed(status, body) =>
          if status == Some(422) then
            match body
            case None => sending
            case Some(errors) => sending.(errorMessage := Message422(errors), isErrorModalVisible := true)
          else sending.(errorMessage := Some(RegisterErrorMessage), isErrorModalVisible := true);
      SubmitStep(after.(isLoading := false), Some(Payload(st.form)))
  }

  /** Every posted body carries two equal passwords. */
  lemma PostedPasswordsAgree(st: RegistrationState, emailOk: bool, outcome: RegisterOutcome)
    requires OnSubmit(st, emailOk, outcome).request.Some?
    ensures var body := OnSubmit(st, emailOk, outcome).request.value;
      body["password"] == body["password_confirmation"] && body["password"].Some?
  {
    ValidFormPasswords(st.form, emailOk);
  }

  /** After a successful registration the form cannot be submitted again until
      it is filled in anew. */
  lemma SuccessLeavesInvalidForm(st: RegistrationState, emailOk: bool)
    requires FormValid(st.form, emailOk)
    ensures !FormValid(OnSubmit(st, emailOk, Registered).state.form, emailOk)
  {
    ResetFormIsInvalid(st.form, emailOk);
  }
}

=== FILE: reports.dfy ===
/** The reports page (`ReportsComponent`) without its charts and PDF export:
    bucketing arrival times into shifts, the filtered age table, and the
    filter state the buttons drive. */
module Reports {
  import opened Options
  import opened Text
  import opened Seqs
  import Labels

  /** The four keys of `turnoData`, in their declaration order. */
  datatype Shift = Manha | Tarde | Noite | Madrugada

  const AllShifts: seq<Shift> := [Manha, Tarde, Noite, Madrugada]

  function ShiftKey(s: Shift): (k: string)
    ensures k in Labels.TurnLabels
  {
    match s
    case Manha => "manha"
    case Tarde => "tarde"
    case Noite => "noite"
    case Madrugada => "madrugada"
  }

  /** Where a shift sits in `AllShifts`. */
  function ShiftIndex(s: Shift): (i: nat)
    ensures i < 4 && AllShifts[i] == s
    ensures forall j :: 0 <= j < 4 && AllShifts[j] == s ==> j == i
  {
    match s
    case Manha => 0
    case Tarde => 1
    case Noite => 2
    case Madrugada => 3
  }

  /** The shift whose key is `key`, if any. */
  function ShiftOfKey(key: string): (r: Option<Shift>)
    ensures r.Some? ==> ShiftKey(r.value) == key
    ensures forall s: Shift :: ShiftKey(s) == key <==> r == Some(s)
    ensures r.Some? <==> key in Labels.TurnLabels
  {
    if key == "manha" then Some(Manha)
    else if key == "tarde" then Some(Tarde)
    else if key == "noite" then Some(Noite)
    else if key == "madrugada" then Some(Madrugada)
    else None
  }

  /** The shift of an hour: a `NaN` hour fails every comparison and so lands in
      the night bucket, like hours below 6 or above 23. */
  function ShiftOfHour(hour: Option<int>): (s: Shift)
    ensures s == Manha <==> hour.Some? && 6 <= hour.value < 12
    ensures s == Tarde <==> hour.Some? && 12 <= hour.value < 18
    ensures s == Noite <==> hour.Some? && 18 <= hour.value <= 23
    ensures s == Madrugada <==> hour.None? || hour.value < 6 || hour.value > 23
  {
    if hour.Some? && 6 <= hour.value < 12 then Manha
    else if hour.Some? && 12 <= hour.value < 18 then Tarde
    else if hour.Some? && 18 <= hour.value <= 23 then Noite
    else Madrugada
  }

  /** `parseInt(time.split(':')[0], 10)`. */
  function HourOf(time: string): Option<int> {
    ParseInt(FirstField(time, ':'))
  }

  function ShiftOf(time: string): Shift {
    ShiftOfHour(HourOf(time))
  }

  /** A time written "HH:MM", with any number of hour digits and leading zeros,
      falls in the shift of the hour those digits spell. */
  lemma ShiftOfClockTime(hh: string, rest: string)
    requires hh != [] && AllDigits(hh)
    ensures ShiftOf(hh + ":" + rest) == ShiftOfHour(Some(DigitsValue(hh)))
  {
    assert ':' !in hh by {
      forall k | 0 <= k < |hh| ensures hh[k] != ':' { assert IsDigit(hh[k]); }
    }
    FirstFieldOfJoin(hh, ':', rest);
    assert hh + ":" + rest == hh + [':'] + rest;
    ParseIntOfDigits(hh);
  }

  /** A time that does not start with a digit cannot be parsed and counts as night. */
  lemma UnparseableTimeIsNight(time: string)
    requires time == "" || time[0] == ':'
    ensures ShiftOf(time) == Madrugada
  {
    if time != "" {
      assert IndexOfChar(time, ':') == Some(0);
    }
  }

  /** The parsed hour of every time, in order. */
  function Hours(times: seq<string>): (r: seq<Option<int>>)
    ensures |r| == |times|
  {
    if times == [] then [] else Hours(times[..|times| - 1]) + [HourOf(times[|times| - 1])]
  }

  lemma {:induction false} HoursAt(times: seq<string>, i: nat)
    requires i < |times|
    ensures Hours(times)[i] == HourOf(times[i])
  {
    if i < |times| - 1 {
      HoursAt(times[..|times| - 1], i);
    }
  }

  /** How many of `hours` fall in shift s. */
  function Occurrences(hours: seq<Option<int>>, s: Shift): (n: nat)
    ensures n <= |hours|
  {
    if hours == [] then 0
    else Occurrences(hours[..|hours| - 1], s) + (if ShiftOfHour(hours[|hours| - 1]) == s then 1 else 0)
  }

  /** Counting one more hour adds one to its own shift only. */
  lemma OccurrencesExtend(hours: seq<Option<int>>, i: nat, s: Shift)
    requires i < |hours|
    ensures Occurrences(hours[..i + 1], s) == Occurrences(hours[..i], s) + (if ShiftOfHour(hours[i]) == s then 1 else 0)
  {
    assert hours[..i + 1][..i] == hours[..i];
  }

  /** How many of `times` fall in shift s. */
  function ShiftCount(times: seq<string>, s: Shift): (n: nat)
    ensures n <= |times|
  {
    Occurrences(Hours(times), s)
  }

  /** Every hour is in one of the four shifts. */
  lemma {:induction false} OccurrencesSum(hours: seq<Option<int>>)
    ensures Occurrences(hours, Manha) + Occurrences(hours, Tarde) + Occurrences(hours, Noite) +
            Occurrences(hours, Madrugada) == |hours|
  {
    if hours != [] {
      OccurrencesSum(hours[..|hours| - 1]);
    }
  }

  /** Every time lands in exactly one shift. */
  lemma ShiftCountsSum(times: seq<string>)
    ensures ShiftCount(times, Manha) + ShiftCount(times, Tarde) + ShiftCount(times, Noite) +
            ShiftCount(times, Madrugada) == |times|
  {
    OccurrencesSum(Hours(times));
  }

  /** A `turnoCounts` entry; `text` is its `label`. */
  datatype TurnoEntry = TurnoEntry(text: string, count: nat)

  function Entry(times: seq<string>, s: Shift): TurnoEntry {
    TurnoEntry(Labels.TurnLabel(ShiftKey(s)), ShiftCount(times, s))
  }

  /** `processTurnoCounts` with `filters.turn` = turn: all four shifts in key
      order when no turn is chosen; otherwise the one whose key is the turn,
      or nothing when no key matches. */
  function TurnoCounts(times: seq<string>, turn: string): (r: seq<TurnoEntry>)
    ensures turn == "" ==> |r| == 4
    ensures turn == "" ==> forall k :: 0 <= k < 4 ==>
      r[k].text == Labels.TurnLabel(ShiftKey(AllShifts[k])) && r[k].count == ShiftCount(times, AllShifts[k])
    ensures turn != "" ==> (|r| == 1 <==> turn in Labels.TurnLabels) && |r| <= 1
    ensures turn != "" && |r| == 1 ==> r[0].text == Labels.TurnLabels[turn]
  {
    if turn == "" then [Entry(times, Manha), Entry(times, Tarde), Entry(times, Noite), Entry(times, Madrugada)]
    else
      match ShiftOfKey(turn)
      case None => []
      case Some(s) => [Entry(times, s)]
  }

  /** Without a turn filter the counts cover every time once. */
  lemma AllTurnsCoverEveryTime(times: seq<string>)
    ensures var r := TurnoCounts(times, "");
      r[0].count + r[1].count + r[2].count + r[3].count == |times|
  {
    ShiftCountsSum(times);
  }

  /** Filtering on a shift gives that shift's entry of the unfiltered table. */
  lemma FilteredTurnIsEntryOfAll(times: seq<string>, k: nat)
    requires k < 4
    ensures TurnoCounts(times, ShiftKey(AllShifts[k])) == [TurnoCounts(times, "")[k]]
  {
  }

  /** The counting loop of `processTurnoCounts`, one counter per shift. */
  method CountShifts(timeData: seq<string>) returns (manha: nat, tarde: nat, noite: nat, madrugada: nat)
    ensures manha == ShiftCount(timeData, Manha) && tarde == ShiftCount(timeData, Tarde)
    ensures noite == ShiftCount(timeData, Noite) && madrugada == ShiftCount(timeData, Madrugada)
  {
    manha, tarde, noite, madrugada := 0, 0, 0, 0;
    ghost var hours := Hours(timeData);
    var i := 0;
    while i < |timeData|
      invariant 0 <= i <= |timeData|
      invariant manha == Occurrences(hours[..i], Manha)
      invariant tarde == Occurrences(hours[..i], Tarde)
      invariant noite == Occurrences(hours[..i], Noite)
      invariant madrugada == Occurrences(hours[..i], Madrugada)
    {
      var shift := ShiftAt(timeData, i);
      OccurrencesExtend(hours, i, Manha);
      OccurrencesExtend(hours, i, Tarde);
      OccurrencesExtend(hours, i, Noite);
      OccurrencesExtend(hours, i, Madrugada);
      match shift {
        case Manha => manha := manha + 1;
        case Tarde => tarde := tarde + 1;
        case Noite => noite := noite + 1;
        case Madrugada => madrugada := madrugada + 1;
      }
      i := i + 1;
    }
    assert hours[..i] == hours;
  }

  /** The shift of the i-th time, read off its hour. */
  method ShiftAt(timeData: seq<string>, i: nat) returns (shift: Shift)
    requires i < |timeData|
    ensures shift == ShiftOfHour(Hours(timeData)[i])
  {
    var hour := HourOf(timeData[i]);
    HoursAt(timeData, i);
    shift := ShiftOfHour(hour);
  }

  /** `processTurnoCounts`: the counts, then the keys kept by the turn filter. */
  method ProcessTurnoCounts(timeData: seq<string>, turn: string) returns (r: seq<TurnoEntry>)
    ensures r == TurnoCounts(timeData, turn)
  {
    var manha, tarde, noite, madrugada := CountShifts(timeData);
    var counts := [manha, tarde, noite, madrugada];
    var all := seq(4, k requires 0 <= k < 4 => TurnoEntry(Labels.TurnLabel(ShiftKey(AllShifts[k])), counts[k]));
    assert forall k :: 0 <= k < 4 ==> all[k] == Entry(timeData, AllShifts[k]);
    if turn == "" {
      assert all == [Entry(timeData, Manha), Entry(timeData, Tarde), Entry(timeData, Noite), Entry(timeData, Madrugada)];
      r := all;
    } else {
      r := KeepTurn(timeData, all, turn);
    }
  }

  /** `Object.keys(turnoData).filter(key => key === turn)`, mapped to entries. */
  method KeepTurn(timeData: seq<string>, all: seq<TurnoEntry>, turn: string) returns (r: seq<TurnoEntry>)
    requires |all| == 4 && forall k :: 0 <= k < 4 ==> all[k] == Entry(timeData, AllShifts[k])
    requires turn != ""
    ensures r == TurnoCounts(timeData, turn)
  {
    r := [];
    var k := 0;
    var wanted := ShiftOfKey(turn);
    while k < 4
      invariant 0 <= k <= 4
      invariant r == if wanted.Some? && ShiftIndex(wanted.value) < k then [Entry(timeData, wanted.value)] else []
    {
      if ShiftKey(AllShifts[k]) == turn {
        r := r + [all[k]];
      }
      k := k + 1;
    }
  }

  // ---------------------------------------------------------------- age table

  /** An `age_counts` row. */
  datatype AgeCount = AgeCount(group: string, count: int)

  /** The age filter of `applyFilters`: the rows whose group is the label of the
      chosen age group (or the chosen text itself when it is not a known key). */
  function FilterAgeCounts(rows: seq<AgeCount>, ageGroup: string): (r: seq<AgeCount>)
    ensures forall x :: x in r <==> x in rows && x.group == Labels.AgeGroupLabel(ageGroup)
    ensures forall x :: multiset(r)[x] == if x.group == Labels.AgeGroupLabel(ageGroup) then multiset(rows)[x] else 0
    ensures IsSubsequence(r, rows)
  {
    FilterIsSubsequence(rows, (x: AgeCount) => x.group == Labels.AgeGroupLabel(ageGroup));
    FilterCounts(rows, (x: AgeCount) => x.group == Labels.AgeGroupLabel(ageGroup));
    Filter(rows, (x: AgeCount) => x.group == Labels.AgeGroupLabel(ageGroup))
  }

  /** With no age group chosen only rows with an empty group survive, so the
      server's labelled rows all disappear. */
  lemma NoAgeGroupDropsLabelledRows(rows: seq<AgeCount>)
    requires forall k :: 0 <= k < |rows| ==> rows[k].group != ""
    ensures FilterAgeCounts(rows, "") == []
  {
    assert Labels.AgeGroupLabel("") == "";
    FilterNone(rows, (x: AgeCount) => x.group == Labels.AgeGroupLabel(""));
  }

  /** Choosing "idosos" keeps exactly the rows labelled "Idosos (60+)". */
  lemma ElderlyFilter(rows: seq<AgeCount>, x: AgeCount)
    ensures x in FilterAgeCounts(rows, "idosos") <==> x in rows && x.group == "Idosos (60+)"
  {
  }

  // ---------------------------------------------------------------- state

  datatype Filters = Filters(room: string, gender: string, ageGroup: string,
                             startDate: string, endDate: string, turn: string)

  const NoFilters := Filters("", "", "", "", "", "")

  datatype BedCounts = BedCounts(a: int, b: int, c: int)

  const NoBeds := BedCounts(0, 0, 0)

  /** A `gender_counts` row. */
  datatype GenderCount = GenderCount(gender: string, count: int)

  datatype ReportsState = ReportsState(
    isLoading: bool, isFilterApplied: bool, showCharts: bool, activeFilter: string,
    filters: Filters, genderCounts: seq<GenderCount>, ageCounts: seq<AgeCount>,
    turnoCounts: seq<TurnoEntry>, bedCounts: BedCounts)

  const InitialState := ReportsState(false, false, false, "", NoFilters, [], [], [], NoBeds)

  /** The body of `/api/reports`; absent members are `None`. */
  datatype ReportsResponse = ReportsResponse(
    bed_counts: Option<BedCounts>, gender_counts: Option<seq<GenderCount>>,
    age_counts: Option<seq<AgeCount>>, time_data: Option<seq<string>>)

  /** `viewAllReports` up to the request. */
  function ViewAllReports(st: ReportsState): (r: ReportsState)
    ensures r.activeFilter == "all" && r.isFilterApplied && r.isLoading
    ensures r.(activeFilter := st.activeFilter, isFilterApplied := st.isFilterApplied, isLoading := st.isLoading) == st
  {
    st.(activeFilter := "all", isFilterApplied := true, isLoading := true)
  }

  /** The answer to `viewAllReports`; `None` is a failed request. Missing
      members fall back to zeros and empty tables. */
  function OnAllReports(st: ReportsState, resp: Option<ReportsResponse>): (r: ReportsState)
    ensures !r.isLoading
    ensures resp.None? ==> r == st.(isLoading := false)
    ensures resp.Some? ==>
      && r.bedCounts == resp.value.bed_counts.GetOr(NoBeds)
      && r.ageCounts == resp.value.age_counts.GetOr([])
      && r.genderCounts == resp.value.gender_counts.GetOr([])
      && r.turnoCounts == TurnoCounts(resp.value.time_data.GetOr([]), st.filters.turn)
      && r.(bedCounts := st.bedCounts, ageCounts := st.ageCounts, genderCounts := st.genderCounts,
            turnoCounts := st.turnoCounts) == st.(isLoading := false)
  {
    match resp
    case None => st.(isLoading := false)
    case Some(d) =>
      st.(bedCounts := d.bed_counts.GetOr(NoBeds), genderCounts := d.gender_counts.GetOr([]),
          ageCounts := d.age_counts.GetOr([]),
          turnoCounts := TurnoCounts(d.time_data.GetOr([]), st.filters.turn), isLoading := false)
  }

  /** `applyFilters` up to the request. */
  function ApplyFilters(st: ReportsState): (r: ReportsState)
    ensures r.isLoading && r.(isLoading := st.isLoading) == st
  {
    st.(isLoading := true)
  }

  /** The answer to `applyFilters`. The age rows are filtered without a
      fallback, so a response without `age_counts` throws after the bed and
      gender tables were replaced, and the page stays in its loading state. */
  function OnFilteredReports(st: ReportsState, resp: Option<ReportsResponse>): (r: ReportsState)
    ensures resp.None? ==> r == st.(isLoading := false)
    ensures resp.Some? ==> r.bedCounts == resp.value.bed_counts.GetOr(NoBeds)
    ensures resp.Some? ==> r.genderCounts == resp.value.gender_counts.GetOr([])
    ensures resp.Some? && resp.value.age_counts.None? ==>
      r.isLoading == st.isLoading && r.ageCounts == st.ageCounts && r.turnoCounts == st.turnoCounts
    ensures resp.Some? && resp.value.age_counts.Some? ==>
      && !r.isLoading
      && r.ageCounts == FilterAgeCounts(resp.value.age_counts.value, st.filters.ageGroup)
      && r.turnoCounts == TurnoCounts(resp.value.time_data.GetOr([]), st.filters.turn)
    ensures r.filters == st.filters && r.activeFilter == st.activeFilter && r.showCharts == st.showCharts
  {
    match resp
    case None => st.(isLoading := false)
    case Some(d) =>
      var st1 := st.(bedCounts := d.bed_counts.GetOr(NoBeds), genderCounts := d.gender_counts.GetOr([]));
      match d.age_counts
      case None => st1
      case Some(rows) =>
        st1.(ageCounts := FilterAgeCounts(rows, st.filters.ageGroup),
             turnoCounts := TurnoCounts(d.time_data.GetOr([]), st.filters.turn), isLoading := false)
  }

  /** A filtered load that answers with an age table always ends the loading
      state; one without leaves it exactly as `applyFilters` set it. */
  lemma FilteredLoadWithoutAgesHangs(st: ReportsState, d: ReportsResponse)
    requires d.age_counts.None?
    ensures OnFilteredReports(ApplyFilters(st), Some(d)).isLoading
  {
  }

  /** `setActiveFilter`. */
  function SetActiveFilter(st: ReportsState, filter: string): (r: ReportsState)
    ensures r.activeFilter == filter && r.isFilterApplied && r.isLoading
    ensures r.(activeFilter := st.activeFilter, isFilterApplied := st.isFilterApplied, isLoading := st.isLoading) == st
  {
    ApplyFilters(st.(activeFilter := filter, isFilterApplied := true))
  }

  /** `resetFilters` (chart teardown left out). */
  function ResetFilters(st: ReportsState): (r: ReportsState)
    ensures r.filters == NoFilters && r.activeFilter == "" && !r.isFilterApplied && !r.showCharts
    ensures r.(filters := st.filters, activeFilter := st.activeFilter, isFilterApplied := st.isFilterApplied,
               showCharts := st.showCharts) == st
  {
    st.(filters := NoFilters, activeFilter := "", isFilterApplied := false, showCharts := false)
  }

  /** After a reset the next report load lists all four shifts again. */
  lemma ResetShowsAllShifts(st: ReportsState, d: ReportsResponse)
    ensures |OnAllReports(ResetFilters(st), Some(d)).turnoCounts| == 4
  {
  }

  /** `toggleChartView`: showing the charts loads everything, hiding them resets. */
  function ToggleChartView(st: ReportsState): (r: ReportsState)
    ensures r.showCharts != st.showCharts
    ensures st.showCharts ==> r.filters == NoFilters && r.activeFilter == "" && !r.isFilterApplied
    ensures !st.showCharts ==> r.activeFilter == "all" && r.isFilterApplied && r.isLoading && r.filters == st.filters
  {
    if !st.showCharts then ViewAllReports(st.(showCharts := true)) else ResetFilters(st)
  }

  /** Showing and then hiding the charts leaves no filter behind. */
  lemma ToggleTwiceClearsFilters(st: ReportsState)
    requires !st.showCharts
    ensures var r := ToggleChartView(ToggleChartView(st));
      !r.showCharts && r.filters == NoFilters && r.activeFilter == "" && !r.isFilterApplied
  {
  }
}

=== FILE: routes.dfy ===
/** The application's route table as data, with the router's first-match
    lookup over URL segments. */
module Routes {
  import opened Options

  /** One segment of a route path: a literal, a `:param` placeholder, or the
      `**` wildcard. */
  datatype Segment = Lit(text: string) | Param | Wildcard

  /** A route: its path split on '/', whether `AuthGuard` protects it, the
      `data.expectedRoles` list, and where it redirects to, if it does. */
  datatype Route = Route(path: seq<Segment>, guarded: bool, expectedRoles: Option<seq<string>>,
                         redirectTo: Option<string>)

  function Public(name: string): Route { Route([Lit(name)], false, None, None) }

  function Guarded(path: seq<Segment>, roles: seq<string>): Route { Route(path, true, Some(roles), None) }

  const Staff: seq<string> := ["admin", "employee"]
  const AdminOnly: seq<string> := ["admin"]

  /** The ten unguarded pages. */
  const PublicPages: seq<string> := ["home", "appointments", "contacts", "about", "jobs",
    "partnerships", "filter", "login", "forgot-password", "unauthorized"]

  /** The guarded routes, `refresh` last with no roles list. */
  const ProtectedRoutes: seq<Route> := [
    Guarded([Lit("appointments-list")], Staff),
    Guarded([Lit("edit"), Param], Staff),
    Guarded([Lit("reports")], AdminOnly),
    Guarded([Lit("user-registration")], AdminOnly),
    Guarded([Lit("manage-users")], AdminOnly),
    Guarded([Lit("edit-user"), Param], AdminOnly),
    Guarded([Lit("edit-list"), Param], Staff),
    Route([Lit("refresh")], true, None, None)
  ]

  /** The three redirects; the empty path has no segment. */
  const Redirects: seq<Route> := [
    Route([], false, None, Some("/login")),
    Route([Wildcard], false, None, Some("home")),
    Route([Lit("api"), Lit("login")], false, None, Some("/login"))
  ]

  /** The table, in declaration order: the public pages, the guarded routes,
      the redirects. */
  const Table: seq<Route> := [
    Public("home"), Public("appointments"), Public("contacts"), Public("about"), Public("jobs"),
    Public("partnerships"), Public("filter"), Public("login"), Public("forgot-password"), Public("unauthorized")
  ] + ProtectedRoutes + Redirects

  const WildcardIndex := 19
  const ApiLoginIndex := 20

  /** Where each entry of the table comes from. */
  lemma TableAt(i: nat)
    requires i < 21
    ensures |Table| == 21
    ensures i < 10 ==> Table[i] == Public(PublicPages[i])
    ensures 10 <= i < 18 ==> Table[i] == ProtectedRoutes[i - 10]
    ensures 18 <= i ==> Table[i] == Redirects[i - 18]
  {
  }

  /** Every guarded path is one literal other than "api", optionally followed
      by a placeholder. */
  lemma ProtectedShape(k: nat)
    requires k < |ProtectedRoutes|
    ensures var p := ProtectedRoutes[k].path;
      && 1 <= |p| <= 2 && p[0].Lit? && p[0].text != "api"
      && (|p| == 2 ==> p[1] == Param)
  {
  }

  /** A route without children must consume the whole URL: segment by segment,
      a literal matches itself, a placeholder any non-empty segment, and the
      wildcard everything that is left. */
  predicate Matches(path: seq<Segment>, url: seq<string>)
    decreases |path|
  {
    if path == [] then url == []
    else if path[0] == Wildcard then true
    else
      && url != []
      && (match path[0] case Lit(t) => url[0] == t case Param => url[0] != "" case Wildcard => true)
      && Matches(path[1..], url[1..])
  }

  /** A one-literal path matches exactly the one-segment URL naming it. */
  lemma MatchesPublic(name: string, url: seq<string>)
    ensures Matches(Public(name).path, url) <==> url == [name]
  {
    if url != [] && url[0] == name && url[1..] == [] {
      assert url == [name];
    }
  }

  /** The index of the first route whose path matches the URL. */
  function FirstMatch(routes: seq<Route>, url: seq<string>): (r: Option<nat>)
    ensures r.None? <==> forall i :: 0 <= i < |routes| ==> !Matches(routes[i].path, url)
    ensures r.Some? ==> r.value < |routes| && Matches(routes[r.value].path, url)
    ensures r.Some? ==> forall i :: 0 <= i < r.value ==> !Matches(routes[i].path, url)
  {
    if routes == [] then None
    else if Matches(routes[0].path, url) then Some(0)
    else match FirstMatch(routes[1..], url)
      case None => None
      case Some(k) => Some(k + 1)
  }

  /** The route the router picks for a URL. */
  function Resolve(url: seq<string>): (r: nat)
    ensures r <= WildcardIndex && Matches(Table[r].path, url)
    ensures forall i :: 0 <= i < r ==> !Matches(Table[i].path, url)
  {
    TableAt(WildcardIndex);
    FirstMatch(Table, url).value
  }

  /** The wildcard catches every URL, so the `api/login` redirect after it is
      never selected, even for the URL it names. */
  lemma ApiLoginUnreachable()
    ensures Matches(Table[ApiLoginIndex].path, ["api", "login"])
    ensures Resolve(["api", "login"]) == WildcardIndex
  {
    var url := ["api", "login"];
    forall i | 0 <= i < WildcardIndex ensures !Matches(Table[i].path, url) {
      ApiLoginMisses(i);
    }
    TableAt(ApiLoginIndex);
    assert url[1..] == ["login"];
    assert Matches(Table[ApiLoginIndex].path, url);
  }

  lemma ApiLoginMisses(i: nat)
    requires i < WildcardIndex
    ensures !Matches(Table[i].path, ["api", "login"])
  {
    TableAt(i);
    var url := ["api", "login"];
    if i < 10 {
      MatchesPublic(PublicPages[i], url);
    } else if i < 18 {
      ProtectedShape(i - 10);
    }
  }

  /** The empty URL redirects to the login page. */
  lemma EmptyUrlGoesToLogin()
    ensures Resolve([]) == 18 && Table[18].redirectTo == Some("/login")
  {
    forall i | 0 <= i < 18 ensures !Matches(Table[i].path, []) {
      EmptyUrlMisses(i);
    }
    TableAt(18);
    assert Matches(Table[18].path, []);
  }

  lemma EmptyUrlMisses(i: nat)
    requires i < 18
    ensures !Matches(Table[i].path, [])
  {
    TableAt(i);
    if i >= 10 {
      ProtectedShape(i - 10);
    }
  }

  /** A single-segment URL that names no route falls through to the wildcard,
      which sends it to the home page. */
  lemma UnknownUrlGoesHome(s: string)
    requires s !in PublicPages
    requires forall k :: 0 <= k < |ProtectedRoutes| ==> ProtectedRoutes[k].path != [Lit(s)]
    ensures Resolve([s]) == WildcardIndex && Table[WildcardIndex].redirectTo == Some("home")
  {
    forall i | 0 <= i < WildcardIndex ensures !Matches(Table[i].path, [s]) {
      UnknownMisses(s, i);
    }
    TableAt(WildcardIndex);
  }

  lemma UnknownMisses(s: string, i: nat)
    requires s !in PublicPages
    requires forall k :: 0 <= k < |ProtectedRoutes| ==> ProtectedRoutes[k].path != [Lit(s)]
    requires i < WildcardIndex
    ensures !Matches(Table[i].path, [s])
  {
    TableAt(i);
    if i < 10 {
      MatchesPublic(PublicPages[i], [s]);
    } else if i < 18 {
      UnknownMissesProtected(s, i - 10);
    }
  }

  lemma UnknownMissesProtected(s: string, k: nat)
    requires k < |ProtectedRoutes| && ProtectedRoutes[k].path != [Lit(s)]
    ensures !Matches(ProtectedRoutes[k].path, [s])
  {
    var p := ProtectedRoutes[k].path;
    if |p| == 1 {
      assert p == [p[0]];
    } else {
      assert [s][1..] == [];
    }
  }

  /** "admin" is in every roles list, so an administrator passes every guard. */
  lemma AdminInEveryRolesList(i: nat)
    requires i < |Table| && Table[i].expectedRoles.Some?
    ensures "admin" in Table[i].expectedRoles.value
  {
    TableAt(i);
    if 10 <= i < 18 {
      assert Staff[0] == "admin" && AdminOnly[0] == "admin";
    }
  }

  /** The pages only administrators may open: reports, user-registration,
      manage-users and edit-user/:id. */
  lemma AdminOnlyPages(i: nat)
    requires i < |Table|
    ensures Table[i].expectedRoles == Some(["admin"]) <==> 12 <= i <= 15
  {
    TableAt(i);
  }

  /** The guard protects exactly the eight entries after the public pages;
      `refresh` is the one guarded entry without a roles list, and the
      appointment list, `edit/:id` and `edit-list/:id` admit both staff roles. */
  lemma GuardedEntries(i: nat)
    requires i < |Table|
    ensures Table[i].guarded <==> 10 <= i < 18
    ensures Table[i].guarded && Table[i].expectedRoles.None? <==> i == 17
    ensures Table[i].expectedRoles == Some(["admin", "employee"]) <==> i == 10 || i == 11 || i == 16
  {
    TableAt(i);
  }
}

=== FILE: seqs.dfy ===
/** Sequence combinators behind JavaScript's `Array.prototype.filter`, `map`
    and `find`/`findIndex`, with the facts the component models use about them. */
module Seqs {
  import opened Options

  /** `xs.filter(p)`: the elements satisfying p, in their original order. */
  function Filter<T(!new)>(xs: seq<T>, p: T -> bool): (r: seq<T>)
    ensures |r| <= |xs|
    ensures forall x :: x in r <==> x in xs && p(x)
  {
    if xs == [] then [] else (if p(xs[0]) then [xs[0]] else []) + Filter(xs[1..], p)
  }

  /** A filter keeps every occurrence of a kept element and none of the others. */
  lemma {:induction false} FilterCounts<T(!new)>(xs: seq<T>, p: T -> bool)
    ensures forall x :: multiset(Filter(xs, p))[x] == if p(x) then multiset(xs)[x] else 0
    decreases |xs|
  {
    if xs != [] {
      FilterCounts(xs[1..], p);
      assert xs == [xs[0]] + xs[1..];
    }
  }

  /** Nothing survives a filter that rejects every element. */
  lemma {:induction false} FilterNone<T(!new)>(xs: seq<T>, p: T -> bool)
    requires forall k :: 0 <= k < |xs| ==> !p(xs[k])
    ensures Filter(xs, p) == []
  {
    if xs != [] {
      FilterNone(xs[1..], p);
    }
  }

  /** idx sends every position of s, in strictly increasing order, to an equal
      element of t. */
  ghost predicate IsIndexMap<T>(idx: seq<nat>, s: seq<T>, t: seq<T>) {
    && |idx| == |s|
    && (forall k :: 0 <= k < |idx| ==> idx[k] < |t| && s[k] == t[idx[k]])
    && (forall k, l :: 0 <= k < l < |idx| ==> idx[k] < idx[l])
  }

  /** s is obtained from t by deleting elements. */
  ghost predicate IsSubsequence<T>(s: seq<T>, t: seq<T>) {
    exists idx: seq<nat> :: IsIndexMap(idx, s, t)
  }

  /** The positions of xs whose element satisfies p, in increasing order. */
  function FilterIndices<T(!new)>(xs: seq<T>, p: T -> bool): (idx: seq<nat>)
    ensures |idx| == |Filter(xs, p)|
  {
    if xs == [] then []
    else
      var shifted := Succ(FilterIndices(xs[1..], p));
      if p(xs[0]) then [0] + shifted else shifted
  }

  /** Every index moved one place on. */
  function Succ(idx: seq<nat>): (r: seq<nat>)
    ensures |r| == |idx| && forall k :: 0 <= k < |idx| ==> r[k] == idx[k] + 1
  {
    seq(|idx|, k requires 0 <= k < |idx| => idx[k] + 1)
  }

  /** Each index points into xs at the element the filter kept there. */
  lemma {:induction false} FilterIndexAt<T(!new)>(xs: seq<T>, p: T -> bool, k: nat)
    requires k < |FilterIndices(xs, p)|
    ensures FilterIndices(xs, p)[k] < |xs| && Filter(xs, p)[k] == xs[FilterIndices(xs, p)[k]]
    decreases |xs|
  {
    var rest := FilterIndices(xs[1..], p);
    var tail := Filter(xs[1..], p);
    var idx := FilterIndices(xs, p);
    if p(xs[0]) {
      assert idx == [0] + Succ(rest);
      assert Filter(xs, p) == [xs[0]] + tail;
      if k > 0 {
        FilterIndexAt(xs[1..], p, k - 1);
        assert idx[k] == rest[k - 1] + 1;
        assert xs[1..][rest[k - 1]] == xs[rest[k - 1] + 1];
      }
    } else {
      assert idx == Succ(rest);
      assert Filter(xs, p) == tail;
      FilterIndexAt(xs[1..], p, k);
      assert xs[1..][rest[k]] == xs[rest[k] + 1];
    }
  }

  /** The indices increase strictly. */
  lemma {:induction false} FilterIndicesIncrease<T(!new)>(xs: seq<T>, p: T -> bool)
    ensures forall k, l :: 0 <= k < l < |FilterIndices(xs, p)| ==> FilterIndices(xs, p)[k] < FilterIndices(xs, p)[l]
    decreases |xs|
  {
    if xs != [] {
      var rest := FilterIndices(xs[1..], p);
      FilterIndicesIncrease(xs[1..], p);
      var shifted := Succ(rest);
      forall k, l | 0 <= k < l < |shifted| ensures shifted[k] < shifted[l] {
        assert rest[k] < rest[l];
      }
      if p(xs[0]) {
        var idx := [0] + shifted;
        assert FilterIndices(xs, p) == idx;
        forall k, l | 0 <= k < l < |idx| ensures idx[k] < idx[l] {
          assert idx[l] == shifted[l - 1];
          if k > 0 {
            assert idx[k] == shifted[k - 1];
          }
        }
      } else {
        assert FilterIndices(xs, p) == shifted;
      }
    }
  }

  /** A filter keeps the surviving elements in their original order. */
  lemma FilterIsSubsequence<T(!new)>(xs: seq<T>, p: T -> bool)
    ensures IsSubsequence(Filter(xs, p), xs)
  {
    var r := Filter(xs, p);
    var idx := FilterIndices(xs, p);
    forall k | 0 <= k < |idx| ensures idx[k] < |xs| && r[k] == xs[idx[k]] {
      FilterIndexAt(xs, p, k);
    }
    FilterIndicesIncrease(xs, p);
    assert IsIndexMap(idx, r, xs);
  }

  lemma {:induction false} FilterAppend<T(!new)>(xs: seq<T>, ys: seq<T>, p: T -> bool)
    ensures Filter(xs + ys, p) == Filter(xs, p) + Filter(ys, p)
    decreases |xs|
  {
    if xs == [] {
      assert xs + ys == ys;
    } else {
      assert (xs + ys)[1..] == xs[1..] + ys;
      FilterAppend(xs[1..], ys, p);
    }
  }

  /** Filters with predicates that agree on every element give the same result. */
  lemma {:induction false} FilterAgree<T(!new)>(xs: seq<T>, p: T -> bool, q: T -> bool)
    requires forall k :: 0 <= k < |xs| ==> p(xs[k]) == q(xs[k])
    ensures Filter(xs, p) == Filter(xs, q)
    decreases |xs|
  {
    if xs != [] {
      FilterAgree(xs[1..], p, q);
    }
  }

  /** Replacing one element by another that p judges the same way keeps the
      number of elements the filter keeps. */
  lemma {:induction false} FilterCountUpdate<T(!new)>(xs: seq<T>, i: nat, y: T, p: T -> bool)
    requires i < |xs| && p(xs[i]) == p(y)
    ensures |Filter(xs[i := y], p)| == |Filter(xs, p)|
    decreases |xs|
  {
    if i == 0 {
      assert xs[i := y][1..] == xs[1..];
    } else {
      assert xs[i := y][1..] == xs[1..][i - 1 := y];
      FilterCountUpdate(xs[1..], i - 1, y, p);
    }
  }

  /** `xs.map(f)`. */
  function Map<T, U>(xs: seq<T>, f: T -> U): (r: seq<U>)
    ensures |r| == |xs|
    ensures forall k :: 0 <= k < |xs| ==> r[k] == f(xs[k])
  {
    seq(|xs|, k requires 0 <= k < |xs| => f(xs[k]))
  }

  /** `xs.findIndex(p)`; None stands for `-1`. */
  function FindIndex<T>(xs: seq<T>, p: T -> bool): (r: Option<nat>)
    ensures r.None? <==> forall k :: 0 <= k < |xs| ==> !p(xs[k])
    ensures r.Some? ==> r.value < |xs| && p(xs[r.value])
    ensures r.Some? ==> forall k :: 0 <= k < r.value ==> !p(xs[k])
  {
    if xs == [] then None
    else if p(xs[0]) then Some(0)
    else match FindIndex(xs[1..], p)
      case None => None
      case Some(k) => Some(k + 1)
  }

  /** `xss.flat()`: the inner sequences one after another. */
  function Flatten<T>(xss: seq<seq<T>>): (r: seq<T>)
    ensures forall k, j :: 0 <= k < |xss| && 0 <= j < |xss[k]| ==> xss[k][j] in r
    ensures forall x :: x in r ==> exists k :: 0 <= k < |xss| && x in xss[k]
  {
    if xss == [] then [] else xss[0] + Flatten(xss[1..])
  }
}

=== FILE: session.dfy ===
/** `AuthService`: the demo login, logout and the token/role read back from
    the browser's local storage, with the stream of authentication-status
    events it emits. */
module Session {
  import opened Options
  import Text

  /** The browser's local storage: key to stored string. */
  type Storage = map<string, string>

  const TokenKey := "authToken"
  const RoleKey := "userRole"

  /** The fixed token the demo login stores. */
  const DemoToken := "token"

  const InvalidCredentials := "Invalid credentials"

  /** Local storage together with every value pushed on `authStatus$`, oldest first. */
  datatype Session = Session(storage: Storage, emitted: seq<bool>)

  /** How the promise `login` returns settles. */
  datatype LoginOutcome =
    | Resolved(session: Session)
    | Rejected(error: string, session: Session)

  /** `getToken`: the stored token, None for `null`. */
  function Token(s: Session): (r: Option<string>)
    ensures r.Some? <==> TokenKey in s.storage
    ensures r.Some? ==> r.value == s.storage[TokenKey]
  {
    if TokenKey in s.storage then Some(s.storage[TokenKey]) else None
  }

  /** `getUserRole`: the stored role, None for `null`. */
  function Role(s: Session): (r: Option<string>)
    ensures r.Some? <==> RoleKey in s.storage
    ensures r.Some? ==> r.value == s.storage[RoleKey]
  {
    if RoleKey in s.storage then Some(s.storage[RoleKey]) else None
  }

  /** `isLoggedIn`: a token is stored and it is not the empty string. */
  predicate IsLoggedIn(s: Session) {
    Token(s).Some? && Token(s).value != ""
  }

  /** `login`: only `admin`/`admin` is accepted; it stores the demo token and
      the admin role and emits `true`. Anything else rejects with
      "Invalid credentials" and touches nothing. The double page reload that
      follows a success is left out. */
  function Login(s: Session, username: string, password: string): (r: LoginOutcome)
    ensures r.Resolved? <==> username == "admin" && password == "admin"
    ensures r.Resolved? ==>
      && Token(r.session) == Some(DemoToken)
      && Role(r.session) == Some("admin")
      && r.session.emitted == s.emitted + [true]
    ensures r.Resolved? ==>
      forall k :: k in s.storage && k != TokenKey && k != RoleKey ==>
        k in r.session.storage && r.session.storage[k] == s.storage[k]
    ensures r.Resolved? ==> r.session.storage.Keys == s.storage.Keys + {TokenKey, RoleKey}
    ensures r.Rejected? ==> r.error == InvalidCredentials && r.session == s
  {
    if username == "admin" && password == "admin" then
      Resolved(Session(s.storage[TokenKey := DemoToken][RoleKey := "admin"], s.emitted + [true]))
    else
      Rejected(InvalidCredentials, s)
  }

  /** `logout`: clears every key of local storage and emits `false`. */
  function Logout(s: Session): (r: Session)
    ensures !IsLoggedIn(r) && Role(r).None? && |r.storage| == 0
    ensures r.emitted == s.emitted + [false]
  {
    Session(map[], s.emitted + [false])
  }

  /** A successful login logs the user in as administrator. */
  lemma LoginLogsIn(s: Session)
    ensures Login(s, "admin", "admin").Resolved?
    ensures IsLoggedIn(Login(s, "admin", "admin").session)
  {
  }

  /** Logging out after a login leaves nothing of it behind, and the status
      stream reports the login and then the logout. */
  lemma LoginThenLogout(s: Session, username: string, password: string)
    ensures var after := Logout(Login(s, username, password).session);
      && !IsLoggedIn(after) && Role(after).None?
      && (username == "admin" && password == "admin" ==> after.emitted == s.emitted + [true, false])
      && (username != "admin" || password != "admin" ==> after.emitted == s.emitted + [false])
  {
  }

  /** `getAuthHeaders`: the bearer authorisation and the JSON content type. A
      missing token is concatenated as the text "null". */
  function AuthHeaders(s: Session): (r: map<string, string>)
    ensures r.Keys == {"Authorization", "Content-Type"}
    ensures r["Content-Type"] == "application/json"
    ensures Text.StartsWith(r["Authorization"], "Bearer ")
    ensures r["Authorization"][|"Bearer "|..] == Token(s).GetOr("null")
  {
    map["Authorization" := "Bearer " + Token(s).GetOr("null"), "Content-Type" := "application/json"]
  }

  /** `isTokenValid`. The token's second dot-separated part is base64 JSON;
      `decodeExp` stands for `JSON.parse(atob(part)).exp` (None when either
      throws or there is no number), and `nowMillis` for `Date.now()`. A token
      without a second part hands `undefined` to `atob`, which throws, so the
      answer is false. The comparison `exp > now / 1000` is written without
      division. */
  function IsTokenValid(s: Session, decodeExp: string -> Option<int>, nowMillis: int): (r: bool)
    ensures r ==> IsLoggedIn(s)
    ensures r <==>
      && IsLoggedIn(s)
      && |Text.Split(Token(s).value, '.')| >= 2
      && decodeExp(Text.Split(Token(s).value, '.')[1]).Some?
      && decodeExp(Text.Split(Token(s).value, '.')[1]).value * 1000 > nowMillis
  {
    if !IsLoggedIn(s) then false
    else
      var parts := Text.Split(Token(s).value, '.');
      if |parts| < 2 then false
      else match decodeExp(parts[1])
        case None => false
        case Some(exp) => exp * 1000 > nowMillis
  }

  /** The token the demo login stores has no dot, so it never passes the
      expiry check, whatever the decoder and the clock say. */
  lemma DemoTokenNeverValid(s: Session, decodeExp: string -> Option<int>, nowMillis: int)
    ensures !IsTokenValid(Login(s, "admin", "admin").session, decodeExp, nowMillis)
  {
    assert '.' !in DemoToken;
    assert Text.Split(DemoToken, '.') == [DemoToken];
  }
}

=== FILE: sorting.dfy ===
/** `sortFilteredAppointments`: the `sortBy` value "<field>-<order>" selects a
    field, compared as lower-cased text, and a direction; the comparator never
    reports a tie. */
module Sorting {
  import opened Options
  import opened Text
  import opened AppointmentModel
  import Directory

  /** The two halves of `sortBy.split('-')`; `order` is absent when there is no '-'. */
  datatype SortSpec = SortSpec(key: string, order: Option<string>)

  function ParseSortBy(sortBy: string): (r: SortSpec)
    ensures r.key == Split(sortBy, '-')[0]
    ensures r.order.Some? <==> |Split(sortBy, '-')| > 1
    ensures r.order.Some? ==> r.order.value == Split(sortBy, '-')[1]
  {
    match IndexOfChar(sortBy, '-')
    case None => SortSpec(sortBy, None)
    case Some(i) => SortSpec(sortBy[..i], Some(FirstField(sortBy[i + 1..], '-')))
  }

  /** The key has no '-'; without a '-' the whole value is the key, and
      otherwise key, '-' and order spell the start of the value again. */
  lemma ParseSortByRebuilds(sortBy: string)
    ensures var r := ParseSortBy(sortBy);
      && '-' !in r.key
      && (r.order.None? <==> '-' !in sortBy)
      && (r.order.None? ==> r.key == sortBy)
      && (r.order.Some? ==> StartsWith(sortBy, r.key + "-" + r.order.value))
  {
    match IndexOfChar(sortBy, '-')
    case None =>
    case Some(i) =>
      var order := FirstField(sortBy[i + 1..], '-');
      assert ParseSortBy(sortBy) == SortSpec(sortBy[..i], Some(order));
      RebuildAround(sortBy, i, order);
  }

  lemma RebuildAround(s: string, i: nat, tail: string)
    requires i < |s| && s[i] == '-' && StartsWith(s[i + 1..], tail)
    ensures StartsWith(s, s[..i] + "-" + tail)
  {
    var n := i + 1 + |tail|;
    assert s[i + 1..][..|tail|] == s[i + 1..n];
    assert s[..n] == s[..i] + [s[i]] + s[i + 1..n];
  }

  /** The properties of an appointment record. */
  const Fields: set<string> := {
    "id", "name", "last_name", "cpf", "date", "arrival_date", "time", "birth_date", "state", "city",
    "mother_name", "phone", "observation", "gender", "foreign_country", "noPhone", "isHidden",
    "replace", "showMore", "photo", "photo_url", "additionalInfo", "accommodation_mode"}

  /** No ASCII capital: what `toLowerCase` leaves. */
  predicate NoUpper(s: string) { forall i :: 0 <= i < |s| ==> !IsUpperAscii(s[i]) }

  /** `String(v).toLowerCase()` for a nullable text. */
  function NullableText(v: Option<string>): (r: string)
    ensures NoUpper(r)
  {
    if v.Some? then Lower(v.value) else "null"
  }

  /** `String(v)` for a nullable flag. */
  function NullableFlag(v: Option<bool>): (r: string)
    ensures NoUpper(r)
    ensures r == "true" <==> v == Some(true)
  {
    match v
    case None => "null"
    case Some(b) => if b then "true" else "false"
  }

  /** `String(photo).toLowerCase()`: a browser `File` prints as "[object File]". */
  function PhotoText(p: Photo): (r: string)
    ensures NoUpper(r)
  {
    match p
    case NoPhoto => "null"
    case PhotoPath(path) => Lower(path)
    case PhotoFile(_, _) => "[object file]"
  }

  /** `String(a[key]).toLowerCase()`: each property prints as its text, a
      nullable one as "null" when absent, the nested block as "[object object]";
      a key that names no property reads `undefined`. */
  function SortKey(a: Appointment, key: string): (r: string)
    ensures NoUpper(r)
    ensures key !in Fields ==> r == "undefined"
  {
    match key
    case "id" => IntToString(a.id)
    case "name" => Lower(a.name)
    case "last_name" => Lower(a.last_name)
    case "cpf" => Lower(a.cpf)
    case "date" => Lower(a.date)
    case "arrival_date" => Lower(a.arrival_date)
    case "time" => Lower(a.time)
    case "birth_date" => NullableText(a.birth_date)
    case "state" => Lower(a.state)
    case "city" => Lower(a.city)
    case "mother_name" => Lower(a.mother_name)
    case "phone" => Lower(a.phone)
    case "observation" => Lower(a.observation)
    case "gender" => Lower(a.gender)
    case "foreign_country" => NullableFlag(a.foreign_country)
    case "noPhone" => NullableFlag(a.noPhone)
    case "isHidden" => NullableFlag(a.isHidden)
    case "replace" => NullableFlag(a.replace)
    case "showMore" => NullableFlag(a.showMore)
    case "photo" => PhotoText(a.photo)
    case "photo_url" => NullableText(a.photo_url)
    case "additionalInfo" => if a.additionalInfo.Some? then "[object object]" else "null"
    case "accommodation_mode" => Lower(a.accommodation_mode)
    case _ => "undefined"
  }

  /** The comparator: with order "asc", 1 iff x > y; with any other order
      (descending), 1 iff x < y; −1 otherwise. */
  function Compare(order: Option<string>, x: string, y: string): (r: int)
    ensures r == 1 || r == -1
    ensures x == y ==> r == -1
    ensures order == Some("asc") ==> (r == 1 <==> LexLess(y, x))
    ensures order != Some("asc") ==> (r == 1 <==> LexLess(x, y))
  {
    LexLessIrreflexive(x);
    if order == Some("asc") then (if LexLess(y, x) then 1 else -1)
    else (if LexLess(x, y) then 1 else -1)
  }

  /** On distinct keys the comparator is antisymmetric; on equal keys it
      answers −1 both ways, so it never reports a tie. */
  lemma CompareAntisymmetric(order: Option<string>, x: string, y: string)
    ensures x != y ==> Compare(order, x, y) == -Compare(order, y, x)
    ensures x == y ==> Compare(order, x, y) == Compare(order, y, x) == -1
  {
    if x != y {
      LexLessTotal(x, y);
      if LexLess(x, y) { LexLessAsymmetric(x, y); } else { LexLessAsymmetric(y, x); }
    }
  }

  /** The key function of a property name: `a => String(a[key]).toLowerCase()`. */
  function By(key: string): (keyOf: Appointment -> string)
    ensures forall a :: keyOf(a) == SortKey(a, key)
  {
    (a: Appointment) => SortKey(a, key)
  }

  /** a must come before b: its key is strictly smaller (ascending) or
      strictly greater (descending). */
  predicate Prec(asc: bool, keyOf: Appointment -> string, a: Appointment, b: Appointment) {
    if asc then LexLess(keyOf(a), keyOf(b)) else LexLess(keyOf(b), keyOf(a))
  }

  lemma PrecTransitive(asc: bool, keyOf: Appointment -> string, a: Appointment, b: Appointment, c: Appointment)
    requires Prec(asc, keyOf, a, b) && Prec(asc, keyOf, b, c)
    ensures Prec(asc, keyOf, a, c)
  {
    if asc {
      LexLessTransitive(keyOf(a), keyOf(b), keyOf(c));
    } else {
      LexLessTransitive(keyOf(c), keyOf(b), keyOf(a));
    }
  }

  /** No element must come before an earlier one. */
  predicate Ordered(asc: bool, keyOf: Appointment -> string, s: seq<Appointment>) {
    forall i, j :: 0 <= i < j < |s| ==> !Prec(asc, keyOf, s[j], s[i])
  }

  function Insert(asc: bool, keyOf: Appointment -> string, a: Appointment, s: seq<Appointment>): (r: seq<Appointment>)
    ensures multiset(r) == multiset(s) + multiset{a}
  {
    if s == [] then [a]
    else if Prec(asc, keyOf, a, s[0]) then [a] + s
    else
      var tail := Insert(asc, keyOf, a, s[1..]);
      assert s == [s[0]] + s[1..];
      assert multiset([s[0]] + tail) == multiset([s[0]]) + multiset(tail);
      [s[0]] + tail
  }

  /** If neither the inserted element nor any element of s must come before b,
      no element of the result must either. */
  lemma {:induction false} InsertKeepsBound(asc: bool, keyOf: Appointment -> string, a: Appointment, s: seq<Appointment>, b: Appointment)
    requires !Prec(asc, keyOf, a, b)
    requires forall k :: 0 <= k < |s| ==> !Prec(asc, keyOf, s[k], b)
    ensures forall k :: 0 <= k < |Insert(asc, keyOf, a, s)| ==> !Prec(asc, keyOf, Insert(asc, keyOf, a, s)[k], b)
  {
    if s != [] && !Prec(asc, keyOf, a, s[0]) {
      var tail := Insert(asc, keyOf, a, s[1..]);
      assert forall k :: 0 <= k < |s[1..]| ==> s[1..][k] == s[k + 1];
      InsertKeepsBound(asc, keyOf, a, s[1..], b);
      assert forall k :: 0 < k < |tail| + 1 ==> ([s[0]] + tail)[k] == tail[k - 1];
    }
  }

  lemma {:induction false} InsertOrdered(asc: bool, keyOf: Appointment -> string, a: Appointment, s: seq<Appointment>)
    requires Ordered(asc, keyOf, s)
    ensures Ordered(asc, keyOf, Insert(asc, keyOf, a, s))
  {
    if s == [] {
    } else if Prec(asc, keyOf, a, s[0]) {
      PrependOrdered(asc, keyOf, a, s);
    } else {
      var tail := Insert(asc, keyOf, a, s[1..]);
      InsertOrdered(asc, keyOf, a, s[1..]);
      assert forall k :: 0 <= k < |s[1..]| ==> !Prec(asc, keyOf, s[1..][k], s[0]) by {
        forall k | 0 <= k < |s[1..]| ensures !Prec(asc, keyOf, s[1..][k], s[0]) {
          assert s[1..][k] == s[k + 1];
        }
      }
      InsertKeepsBound(asc, keyOf, a, s[1..], s[0]);
      ConsOrdered(asc, keyOf, s[0], tail);
    }
  }

  /** Putting a in front of an ordered list it must precede keeps it ordered. */
  lemma PrependOrdered(asc: bool, keyOf: Appointment -> string, a: Appointment, s: seq<Appointment>)
    requires Ordered(asc, keyOf, s) && s != [] && Prec(asc, keyOf, a, s[0])
    ensures Ordered(asc, keyOf, [a] + s)
  {
    forall k | 0 <= k < |s| ensures !Prec(asc, keyOf, s[k], a) {
      if Prec(asc, keyOf, s[k], a) {
        PrecTransitive(asc, keyOf, s[k], a, s[0]);
        if k == 0 {
          LexLessIrreflexive(keyOf(s[0]));
        }
      }
    }
    ConsOrdered(asc, keyOf, a, s);
  }

  /** An ordered list stays ordered under a head no later element must precede. */
  lemma ConsOrdered(asc: bool, keyOf: Appointment -> string, a: Appointment, s: seq<Appointment>)
    requires Ordered(asc, keyOf, s)
    requires forall k :: 0 <= k < |s| ==> !Prec(asc, keyOf, s[k], a)
    ensures Ordered(asc, keyOf, [a] + s)
  {
    var r := [a] + s;
    forall i, j | 0 <= i < j < |r| ensures !Prec(asc, keyOf, r[j], r[i]) {
      assert r[j] == s[j - 1];
      if i > 0 {
        assert r[i] == s[i - 1];
      }
    }
  }

  /** The model of `Array.prototype.sort` with this comparator: an insertion
      sort that keeps equal keys in their original order. JavaScript leaves the
      order of such ties to the engine, since the comparator answers −1 both ways. */
  function Sort(asc: bool, keyOf: Appointment -> string, xs: seq<Appointment>): (r: seq<Appointment>)
    ensures multiset(r) == multiset(xs)
    ensures Ordered(asc, keyOf, r)
  {
    if xs == [] then []
    else
      var init := Sort(asc, keyOf, xs[..|xs| - 1]);
      assert xs == xs[..|xs| - 1] + [xs[|xs| - 1]];
      InsertOrdered(asc, keyOf, xs[|xs| - 1], init);
      Insert(asc, keyOf, xs[|xs| - 1], init)
  }

  /** `sortFilteredAppointments`: reorders the shown list only. */
  function SortFiltered(st: Directory.DirectoryState): (r: Directory.DirectoryState)
    ensures r.(filtered := st.filtered) == st
    ensures multiset(r.filtered) == multiset(st.filtered)
    ensures var spec := ParseSortBy(st.sortBy);
      Ordered(spec.order == Some("asc"), By(spec.key), r.filtered)
  {
    var spec := ParseSortBy(st.sortBy);
    st.(filtered := Sort(spec.order == Some("asc"), By(spec.key), st.filtered))
  }

  /** A key that names no property reads "undefined" for every record, so no
      record must precede another and the order is left to the tie order. */
  lemma UnknownKeyPromisesNoOrder(asc: bool, key: string, a: Appointment, b: Appointment)
    requires key !in Fields
    ensures !Prec(asc, By(key), a, b)
  {
    LexLessIrreflexive("undefined");
  }

  /** "birth_date-asc" puts the recorded birth dates in ascending text order. */
  lemma SortedByBirthDate(key: string, xs: seq<Appointment>, i: nat, j: nat)
    requires key == "birth_date" && i < j < |Sort(true, By(key), xs)|
    ensures var s := Sort(true, By(key), xs);
      s[i].birth_date.Some? && s[j].birth_date.Some? ==>
        !LexLess(Lower(s[j].birth_date.value), Lower(s[i].birth_date.value))
  {
    var s := Sort(true, By(key), xs);
    assert !Prec(true, By(key), s[j], s[i]);
    BirthDateKey(key, s[i]);
    BirthDateKey(key, s[j]);
  }

  lemma BirthDateKey(key: string, a: Appointment)
    requires key == "birth_date"
    ensures SortKey(a, key) == NullableText(a.birth_date)
  {
  }

  /** "isHidden-asc" puts every hidden record after every other one: "true"
      sorts after both "false" and "null". */
  lemma SortedByIsHiddenPutsHiddenLast(key: string, xs: seq<Appointment>, i: nat, j: nat)
    requires key == "isHidden" && i < j < |Sort(true, By(key), xs)|
    ensures var s := Sort(true, By(key), xs);
      IsHidden(s[i]) ==> IsHidden(s[j])
  {
    var s := Sort(true, By(key), xs);
    assert !Prec(true, By(key), s[j], s[i]);
    IsHiddenKey(key, s[i]);
    IsHiddenKey(key, s[j]);
    if IsHidden(s[i]) && !IsHidden(s[j]) {
      assert LexLess("false", "true") && LexLess("null", "true");
      assert false;
    }
  }

  lemma IsHiddenKey(key: string, a: Appointment)
    requires key == "isHidden"
    ensures SortKey(a, key) == NullableFlag(a.isHidden)
  {
  }

  /** In the sorted list, whenever two entries have different keys, the
      comparator places the earlier one first. */
  lemma SortedAgreesWithComparator(st: Directory.DirectoryState, i: nat, j: nat)
    requires i < j < |SortFiltered(st).filtered|
    ensures var spec := ParseSortBy(st.sortBy);
      var s := SortFiltered(st).filtered;
      SortKey(s[i], spec.key) != SortKey(s[j], spec.key) ==>
        Compare(spec.order, SortKey(s[i], spec.key), SortKey(s[j], spec.key)) == -1
  {
    var spec := ParseSortBy(st.sortBy);
    var s := SortFiltered(st).filtered;
    var x, y := SortKey(s[i], spec.key), SortKey(s[j], spec.key);
    if x != y {
      assert !Prec(spec.order == Some("asc"), By(spec.key), s[j], s[i]);
      LexLessTotal(x, y);
      if LexLess(x, y) { LexLessAsymmetric(x, y); } else { LexLessAsymmetric(y, x); }
    }
  }
}

=== FILE: text.dfy ===
/** The JavaScript string operations the components rely on, over `seq<char>`:
    ASCII case mapping, `includes`, `startsWith`, `indexOf`, `split`/`join`,
    `trim`, `replace` of a first occurrence, number-to-decimal conversion and
    the decimal subset of `parseInt` and `Number`. */
module Text {
  import opened Options

  // ---------------------------------------------------------------- characters

  predicate IsUpperAscii(c: char) { 'A' <= c <= 'Z' }

  predicate IsLowerAscii(c: char) { 'a' <= c <= 'z' }

  predicate IsDigit(c: char) { '0' <= c <= '9' }

  predicate AllDigits(s: string) { forall i :: 0 <= i < |s| ==> IsDigit(s[i]) }

  /** JavaScript's `\w` class: ASCII letters, digits and `_`. */
  predicate IsWordChar(c: char) { IsUpperAscii(c) || IsLowerAscii(c) || IsDigit(c) || c == '_' }

  /** `String.prototype.toLowerCase` restricted to ASCII. */
  function LowerChar(c: char): (r: char)
    ensures !IsUpperAscii(r)
    ensures IsUpperAscii(c) <==> r != c
    ensures IsLowerAscii(r) <==> IsUpperAscii(c) || IsLowerAscii(c)
  {
    if IsUpperAscii(c) then (c as int + 32) as char else c
  }

  /** `String.prototype.toUpperCase` restricted to ASCII. */
  function UpperChar(c: char): (r: char)
    ensures !IsLowerAscii(r)
    ensures IsLowerAscii(c) <==> r != c
    ensures IsUpperAscii(r) <==> IsUpperAscii(c) || IsLowerAscii(c)
  {
    if IsLowerAscii(c) then (c as int - 32) as char else c
  }

  /** Lower-cases every character. */
  function Lower(s: string): (r: string)
    ensures |r| == |s|
    ensures forall i :: 0 <= i < |s| ==> r[i] == LowerChar(s[i])
  {
    if s == [] then [] else [LowerChar(s[0])] + Lower(s[1..])
  }

  /** `w.charAt(0).toUpperCase() + w.slice(1).toLowerCase()`. */
  function Capitalize(w: string): (r: string)
    ensures |r| == |w|
    ensures |w| > 0 ==> r[0] == UpperChar(w[0])
    ensures forall i :: 1 <= i < |w| ==> r[i] == LowerChar(w[i])
  {
    if w == [] then [] else [UpperChar(w[0])] + Lower(w[1..])
  }

  // ---------------------------------------------------------------- searching

  /** `s.startsWith(p)`. */
  predicate StartsWith(s: string, p: string) {
    |p| <= |s| && s[..|p|] == p
  }

  /** `s.includes(sub)`: some window of `s` equals `sub`. */
  predicate Contains(s: string, sub: string)
    decreases |s|
  {
    StartsWith(s, sub) || (|s| > 0 && Contains(s[1..], sub))
  }

  /** `s.indexOf(c)` for one character; None stands for `-1`. */
  function IndexOfChar(s: string, c: char): (r: Option<nat>)
    ensures r.None? <==> c !in s
    ensures r.Some? ==> r.value < |s| && s[r.value] == c && c !in s[..r.value]
  {
    if s == [] then None
    else if s[0] == c then Some(0)
    else match IndexOfChar(s[1..], c)
      case None => None
      case Some(k) =>
        assert s[..k + 1] == [s[0]] + s[1..][..k];
        Some(k + 1)
  }

  /** `s.indexOf(sub)`; None stands for `-1`. */
  function IndexOf(s: string, sub: string): (r: Option<nat>)
    ensures r.None? <==> !Contains(s, sub)
    ensures r.Some? ==> r.value + |sub| <= |s| && s[r.value..r.value + |sub|] == sub
    ensures r.Some? ==> forall j :: 0 <= j < r.value ==> !StartsWith(s[j..], sub)
    decreases |s|
  {
    if StartsWith(s, sub) then Some(0)
    else if |s| == 0 then None
    else match IndexOf(s[1..], sub)
      case None => None
      case Some(k) =>
        assert forall j :: 0 <= j <= k ==> !StartsWith(s[j..], sub) by {
          forall j | 0 <= j <= k ensures !StartsWith(s[j..], sub) {
            if j > 0 { assert s[j..] == s[1..][j - 1..]; }
          }
        }
        Some(k + 1)
  }

  /** `s.replace(pattern, replacement)` with a string pattern: only the first
      occurrence is replaced; without an occurrence `s` is returned. */
  function ReplaceFirst(s: string, pattern: string, replacement: string): (r: string)
    ensures !Contains(s, pattern) ==> r == s
    ensures Contains(s, pattern) ==>
      exists i :: 0 <= i && i + |pattern| <= |s| && s[i..i + |pattern|] == pattern
        && (forall j :: 0 <= j < i ==> !StartsWith(s[j..], pattern))
        && r == s[..i] + replacement + s[i + |pattern|..]
  {
    match IndexOf(s, pattern)
    case None => s
    case Some(i) => s[..i] + replacement + s[i + |pattern|..]
  }

  /** `s.replace(/c/g, d)` for single characters. */
  function ReplaceAllChar(s: string, c: char, d: char): (r: string)
    ensures |r| == |s|
    ensures forall i :: 0 <= i < |s| ==> r[i] == (if s[i] == c then d else s[i])
  {
    if s == [] then [] else [if s[0] == c then d else s[0]] + ReplaceAllChar(s[1..], c, d)
  }

  /** A stored path made absolute: kept when it already starts with "http",
      otherwise appended to the storage base URL. */
  function ResolveUrl(base: string, path: string): (r: string)
    ensures StartsWith(path, "http") ==> r == path
    ensures !StartsWith(path, "http") ==> |r| == |base| + |path| && r[..|base|] == base && r[|base|..] == path
  {
    if StartsWith(path, "http") then path else base + path
  }

  /** With an "http" base every resolved URL starts with "http", so resolving
      it again changes nothing. */
  lemma ResolveUrlIdempotent(base: string, path: string)
    requires StartsWith(base, "http")
    ensures StartsWith(ResolveUrl(base, path), "http")
    ensures ResolveUrl(base, ResolveUrl(base, path)) == ResolveUrl(base, path)
  {
    var r := ResolveUrl(base, path);
    if !StartsWith(path, "http") {
      assert r[..4] == base[..4];
    }
  }

  // ---------------------------------------------------------------- ordering

  /** JavaScript's `<` on strings: lexicographic order of the characters,
      a proper prefix coming first. */
  predicate LexLess(a: string, b: string)
    decreases |a|
  {
    |b| > 0 && (|a| == 0 || a[0] < b[0] || (a[0] == b[0] && LexLess(a[1..], b[1..])))
  }

  lemma {:induction false} LexLessIrreflexive(a: string)
    ensures !LexLess(a, a)
    decreases |a|
  {
    if |a| > 0 {
      LexLessIrreflexive(a[1..]);
    }
  }

  lemma {:induction false} LexLessAsymmetric(a: string, b: string)
    requires LexLess(a, b)
    ensures !LexLess(b, a)
    decreases |a|
  {
    if |a| > 0 && a[0] == b[0] {
      LexLessAsymmetric(a[1..], b[1..]);
    }
  }

  lemma {:induction false} LexLessTransitive(a: string, b: string, c: string)
    requires LexLess(a, b) && LexLess(b, c)
    ensures LexLess(a, c)
    decreases |a|
  {
    if |a| > 0 && a[0] == b[0] && b[0] == c[0] {
      LexLessTransitive(a[1..], b[1..], c[1..]);
    }
  }

  /** Distinct strings are always ordered one way or the other. */
  lemma {:induction false} LexLessTotal(a: string, b: string)
    requires a != b
    ensures LexLess(a, b) || LexLess(b, a)
    decreases |a|
  {
    if |a| > 0 && |b| > 0 && a[0] == b[0] {
      assert a == [a[0]] + a[1..] && b == [b[0]] + b[1..];
      LexLessTotal(a[1..], b[1..]);
    }
  }

  // ---------------------------------------------------------------- split / join

  /** `s.split(d)` for a one-character separator: the pieces between separators,
      always at least one (the empty string splits into `[""]`). */
  function Split(s: string, d: char): (r: seq<string>)
    ensures |r| >= 1
    ensures forall k :: 0 <= k < |r| ==> d !in r[k]
    decreases |s|
  {
    match IndexOfChar(s, d)
    case None => [s]
    case Some(i) => [s[..i]] + Split(s[i + 1..], d)
  }

  /** `ws.join(d)`. */
  function Join(ws: seq<string>, d: char): string
  {
    if |ws| == 0 then ""
    else if |ws| == 1 then ws[0]
    else ws[0] + [d] + Join(ws[1..], d)
  }

  /** Joining the pieces of a split with the same separator gives the string back. */
  lemma {:induction false} JoinSplit(s: string, d: char)
    ensures Join(Split(s, d), d) == s
    decreases |s|
  {
    match IndexOfChar(s, d)
    case None =>
    case Some(i) =>
      var rest := Split(s[i + 1..], d);
      assert Split(s, d) == [s[..i]] + rest;
      assert ([s[..i]] + rest)[1..] == rest;
      JoinSplit(s[i + 1..], d);
      assert s == s[..i] + [d] + s[i + 1..];
  }

  /** The text before the first `d`, i.e. `s.split(d)[0]`. */
  function FirstField(s: string, d: char): (r: string)
    ensures d !in r && StartsWith(s, r)
    ensures |r| == |s| || s[|r|] == d
    ensures r == Split(s, d)[0]
  {
    match IndexOfChar(s, d)
    case None => s
    case Some(i) => s[..i]
  }

  /** The first field of `a`, a separator and anything after it is `a`. */
  lemma FirstFieldOfJoin(a: string, d: char, b: string)
    requires d !in a
    ensures FirstField(a + [d] + b, d) == a
  {
    var s := a + [d] + b;
    assert s[|a|] == d;
    assert s[..|a|] == a;
  }

  // ---------------------------------------------------------------- whitespace

  /** The characters `String.prototype.trim` removes: ECMAScript WhiteSpace and
      LineTerminator code points. */
  predicate IsJsSpace(c: char) {
    || c == ' ' || c == '\t' || c == '\n' || c == '\U{000B}' || c == '\U{000C}' || c == '\r'
    || c == '\U{00A0}' || c == '\U{1680}' || ('\U{2000}' <= c <= '\U{200A}')
    || c == '\U{2028}' || c == '\U{2029}' || c == '\U{202F}' || c == '\U{205F}'
    || c == '\U{3000}' || c == '\U{FEFF}'
  }

  predicate IsBlank(s: string) { forall i :: 0 <= i < |s| ==> IsJsSpace(s[i]) }

  function TrimStart(s: string): (r: string)
    ensures |r| <= |s| && r == s[|s| - |r|..]
    ensures r == [] || !IsJsSpace(r[0])
    ensures forall i :: 0 <= i < |s| - |r| ==> IsJsSpace(s[i])
  {
    if s == [] || !IsJsSpace(s[0]) then s else TrimStart(s[1..])
  }

  function TrimEnd(s: string): (r: string)
    ensures |r| <= |s| && r == s[..|r|]
    ensures r == [] || !IsJsSpace(r[|r| - 1])
    ensures forall i :: |r| <= i < |s| ==> IsJsSpace(s[i])
  {
    if s == [] || !IsJsSpace(s[|s| - 1]) then s else TrimEnd(s[..|s| - 1])
  }

  /** `s.trim()`. */
  function Trim(s: string): string {
    TrimEnd(TrimStart(s))
  }

  /** A string trims to "" exactly when it consists of whitespace only. */
  lemma TrimEmptyIffBlank(s: string)
    ensures Trim(s) == "" <==> IsBlank(s)
  {
    var t := TrimStart(s);
    if Trim(s) == "" {
      assert IsBlank(t[0..]);
      assert t == [];
      assert s[..|s|] == s;
    }
  }

  // ---------------------------------------------------------------- numbers

  function DigitChar(n: nat): (c: char)
    requires n < 10
    ensures IsDigit(c)
  {
    ('0' as int + n) as char
  }

  function DigitValue(c: char): (n: nat)
    requires IsDigit(c)
    ensures n < 10 && DigitChar(n) == c
  {
    c as int - '0' as int
  }

  /** `String(n)` for a non-negative integer: its decimal digits, no leading zero. */
  function NatToString(n: nat): (r: string)
    ensures |r| >= 1 && AllDigits(r)
    ensures |r| > 1 ==> r[0] != '0'
    decreases n
  {
    if n < 10 then [DigitChar(n)] else NatToString(n / 10) + [DigitChar(n % 10)]
  }

  /** `String(i)` for any integer. */
  function IntToString(i: int): (r: string)
    ensures |r| >= 1
    ensures i < 0 <==> r[0] == '-'
  {
    if i < 0 then "-" + NatToString(-i) else NatToString(i)
  }

  /** The value of a string of decimal digits (the empty string is 0). */
  function DigitsValue(s: string): nat
    requires AllDigits(s)
  {
    if s == [] then 0 else DigitsValue(s[..|s| - 1]) * 10 + DigitValue(s[|s| - 1])
  }

  /** Reading back the decimal text of a number gives the number. */
  lemma {:induction false} NatToStringRoundTrip(n: nat)
    ensures DigitsValue(NatToString(n)) == n
    decreases n
  {
    if n >= 10 {
      var r := NatToString(n);
      NatToStringRoundTrip(n / 10);
      assert r[..|r| - 1] == NatToString(n / 10);
    }
  }

  /** Different numbers have different decimal texts. */
  lemma NatToStringInjective(m: nat, n: nat)
    requires NatToString(m) == NatToString(n)
    ensures m == n
  {
    NatToStringRoundTrip(m);
    NatToStringRoundTrip(n);
  }

  /** Different integers have different decimal texts. */
  lemma IntToStringInjective(m: int, n: int)
    requires IntToString(m) == IntToString(n)
    ensures m == n
  {
    if m < 0 && n < 0 {
      assert NatToString(-m) == IntToString(m)[1..];
      NatToStringInjective(-m, -n);
    } else if m >= 0 && n >= 0 {
      NatToStringInjective(m, n);
    }
  }

  /** The longest prefix of decimal digits. */
  function LeadingDigits(s: string): (r: string)
    ensures AllDigits(r) && StartsWith(s, r)
    ensures |r| < |s| ==> !IsDigit(s[|r|])
  {
    if s == [] || !IsDigit(s[0]) then [] else [s[0]] + LeadingDigits(s[1..])
  }

  /** `parseInt(s, 10)`: leading whitespace skipped, an optional sign, then the
      longest run of digits; None stands for `NaN` (no digit at all). */
  function ParseInt(s: string): Option<int>
    decreases |s|
  {
    if s != [] && IsJsSpace(s[0]) then ParseInt(s[1..])
    else
      var negative := s != [] && s[0] == '-';
      var body := if s != [] && (s[0] == '-' || s[0] == '+') then s[1..] else s;
      var ds := LeadingDigits(body);
      if ds == [] then None
      else if negative then Some(-(DigitsValue(ds) as int))
      else Some(DigitsValue(ds))
  }

  /** `parseInt` reads back the decimal text of any number, and stops at the
      first non-digit that follows it. */
  lemma ParseIntOfDecimal(n: nat, tail: string)
    requires tail == [] || !IsDigit(tail[0])
    ensures ParseInt(NatToString(n) + tail) == Some(n)
  {
    var ds := NatToString(n);
    var s := ds + tail;
    assert s[0] == ds[0];
    assert IsDigit(s[0]) && !IsJsSpace(s[0]);
    LeadingDigitsOfDigitsThen(ds, tail);
    assert LeadingDigits(s) == ds;
    NatToStringRoundTrip(n);
  }

  /** A non-empty run of digits parses to its value. */
  lemma ParseIntOfDigits(ds: string)
    requires ds != [] && AllDigits(ds)
    ensures ParseInt(ds) == Some(DigitsValue(ds))
  {
    assert IsDigit(ds[0]) && !IsJsSpace(ds[0]);
    LeadingDigitsOfDigitsThen(ds, []);
    assert ds + [] == ds;
  }

  lemma {:induction false} LeadingDigitsOfDigitsThen(ds: string, tail: string)
    requires AllDigits(ds)
    requires tail == [] || !IsDigit(tail[0])
    ensures LeadingDigits(ds + tail) == ds
    decreases |ds|
  {
    if ds == [] {
      assert ds + tail == tail;
    } else {
      assert (ds + tail)[1..] == ds[1..] + tail;
      LeadingDigitsOfDigitsThen(ds[1..], tail);
      assert ds == [ds[0]] + ds[1..];
    }
  }

  /** `Number(s)` for the texts a `<select>` produces: surrounding whitespace is
      ignored, "" is 0, an optionally signed run of digits is its value, and
      everything else is None (`NaN`). */
  function ToNumber(s: string): Option<int>
  {
    var t := Trim(s);
    if t == "" then Some(0)
    else
      var negative := t[0] == '-';
      var body := if t[0] == '-' || t[0] == '+' then t[1..] else t;
      if body == [] || !AllDigits(body) then None
      else if negative then Some(-(DigitsValue(body) as int))
      else Some(DigitsValue(body))
  }
}
